=== FILE: README.md ===
# A verified model of a teaching kernel's memory core

This project models, in Dafny, the sequential memory-management core of a
small x86-64 teaching kernel and its user-space allocator, and proves what
each part promises:

- **the page-frame allocator** (allocator.c): one `{inuse, reserved}` record
  per physical page, indexed by `addr >> 12`, and two byte counters
  `free_memory` and `used_memory`.  Single- and multi-page alloc, free,
  reserve and unreserve, the first-fit `request_page`, the memoised size of
  the firmware memory map, and `init_page_properties`, which puts the bitmap
  in the largest conventional segment and reserves page 0, the bitmap pages
  and the firmware-owned segments.  Module `PageFrame` holds the operations
  and `PageFrameInit` the boot-time setup.
- **the slob allocator** (slob.c): three size classes (256, 1024 and 4096
  bytes), each a FIFO free list carved from one block.  `kmalloc` pops
  the front of its class list, and `kfree`/`kzfree` push onto the back of
  the class whose inclusive address range holds the chunk.  `krealloc` is a
  free followed by an allocation.  The lists are sequences of addresses.
  `Kmalloc` and `Kfree` are the entry points, and they are `SlobAlloc` and
  `SlobFree`.
- **page-table entries and the fixed tables**:
  - `PageEntry` holds the PTE, PDE/PDPE, PML4E and CR3 bitfield layouts of
    kerninc/page_table.h as packed numbers, together with the four setters
    of page_table.c.
  - `PageWalk` is the four-level translation of section 5.3 of the AMD64
    Architecture Programmer's Manual, Volume 2.
  - `KernelTables` is `create_kernel_page_table`, the identity map of the
    low 4 GiB.
  - `UserTables` is `create_user_page_table`.
  - `KernelStart` covers the order in which `kernel_start` builds them, the
    TLS entry of `setup_tls`, and the virtual addresses it jumps to.
  - The headline results are walks: every address translates, through the
    built tables, exactly as a reference map says.
- **the IDT** (`Idt`): the 128-bit interrupt gate of kerninc/types.h that
  `x86_fillgate` writes, following Figure 4-24 of the same manual, and the
  vectors `create_idt_table` sets.
- **the TSS descriptor** (`Tss`): the packed `tss_segment` and the two GDT
  words `load_tss_segment` computes, following Figure 4-22 of the same
  manual.
- **the user heap** (mm.c, userinc/mm.h): a boundary-tag allocator over
  an `sbrk`-style break.
  - It has a prologue and an epilogue fence, first-fit search, splitting
    with a minimum leftover, and four-case coalescing.
  - `HeapLayout` models the heap as the ordered list of block tags.
    Every header and footer address is derived from that list, and the C
    navigation (`get_next`, `get_prev`, `get_footer`) is proved to agree
    with it.
  - `Heap` models the operations.  Each pairs the list-level result with
    the tag writes the C code makes, and proves that the writes realise
    the new list.

Machine words are `nat`s with explicit bounds. The page-table and gate
encodings are exact: each word is the sum of its fields times their place
values. The TSS words are `bv64`. C `NULL` results and the kernel's halts
are explicit results (`Option`, `Halted`).

## Model

| member | source | states |
|---|---|---|
| PageFrame.AllocPage | allocator.c:122-130 | On a page already in use, returns 1 and changes nothing. Otherwise sets only `inuse` of entry `addr >> 12`, keeping its reserved bit, returns 0 and moves 4096 bytes from free to used. Whether the page is reserved is never looked at. |
| PageFrame.FreePage | allocator.c:144-152 | On a page not in use, returns 1 and changes nothing. Otherwise clears `inuse` of that entry only, returns 0 and moves 4096 bytes from used to free. |
| PageFrame.ReservePage | allocator.c:33-41 | On a page already reserved, returns 1 and changes nothing. Otherwise sets the reserved bit of that entry only, returns 0 and moves 4096 bytes from free to used. |
| PageFrame.UnreservePage | allocator.c:15-23 | On a page not reserved, returns 1 and changes nothing. Otherwise clears the reserved bit, returns 0 and moves 4096 bytes from used to free. |
| PageFrame.SinglePageFrame | allocator.c:16-21 | Every single-page operation keeps `free_memory + used_memory` constant and keeps `used_memory` equal to 4096 per set bit. It leaves every entry other than `addr >> 12` unchanged. |
| PageFrame.AllocThenFree | allocator.c:122-152 | A successful `alloc_page` followed by `free_page` of the same address returns 0 and restores the bitmap and both counters exactly. |
| PageFrame.ReserveThenUnreserve | allocator.c:15-41 | A successful `__reserve_page` followed by `__unreserve_page` returns 0 and restores the context exactly. |
| PageFrame.PageIndexOfOffset | allocator.c:46 | Page `i` of a run starting at `addr` is bitmap entry `(addr >> 12) + i`. |
| PageFrame.ClearRun | allocator.c:154-160 | The free loop from iteration `i` on clears the bit of pages `i..n-1` of the run and leaves every other entry alone. The bytes it moves equal 4096 times the number of those bits that were set. |
| PageFrame.ClearPages | allocator.c:25-30 | `__unreserve_pages` / `free_pages`: every page of the run ends with the bit clear, whatever its earlier state, and nothing outside the run changes. |
| PageFrame.RollbackRestores | allocator.c:47 | Undoing the pages marked so far restores the context from before the call: bitmap and both counters. |
| PageFrame.MarkExtendsPrefix | allocator.c:45-46 | A page of the run whose bit is clear is marked with status 0, and the marked prefix grows by one page. |
| PageFrame.MarkRunAllOrNothing | allocator.c:44-52 | Marking a run is all-or-nothing. If any page of the run is already marked, the result is 1 and the original context comes back unchanged. Otherwise the result is 0 and exactly the run is marked. |
| PageFrame.MarkPages | allocator.c:133-141 | `alloc_pages` / `__reserve_pages` return 1 with the context unchanged exactly when some page of the run already has the bit. Otherwise they return 0 with the bit set on exactly the run. |
| PageFrame.ClearPagesAccounting | allocator.c:25-30 | A multi-page clear keeps the counter sum and keeps `used_memory` in step with the set bits. |
| PageFrame.MarkPagesAccounting | allocator.c:44-52 | A multi-page mark keeps the counter sum and keeps `used_memory` in step with the set bits, on success and on rollback. |
| PageFrame.MultiPageConsistent | allocator.c:133-160 | The accounting invariant survives every multi-page operation, whatever its outcome. |
| PageFrame.WeightUpdate | allocator.c:20-21 | Changing one record changes the count of set bits by that record's difference, which is the page `used_memory` moves. |
| PageFrame.AllocPages | allocator.c:133-141 | `alloc_pages`: all pages of the run become in use (status 0), or, when one already is, none change (status 1). |
| PageFrame.FreePages | allocator.c:154-160 | `free_pages`: every page of the run ends up not in use. Only pages that were in use move 4096 bytes each. |
| PageFrame.ReservePages | allocator.c:44-52 | `__reserve_pages`: all pages of the run become reserved, or, when one already is, none change. |
| PageFrame.UnreservePages | allocator.c:25-30 | `__unreserve_pages`: every page of the run ends up unreserved. Only pages that were reserved move bytes. |
| PageFrame.RequestPage | allocator.c:163-170 | Returns the address of the lowest page that is neither in use nor reserved and marks that page in use. Returns 0 with nothing changed when there is none. When page 0 is reserved, the result is nonzero exactly when some page is available. |
| PageFrameInit.MapBytesIsPages | allocator.c:62 | The size of the memory map is a whole number of pages. |
| PageFrameInit.GetMemoryMapSize | allocator.c:54-66 | A nonzero memo is returned unchanged. Otherwise the result is the sum of `num_pages * 4096` over the map. |
| PageFrameInit.SelectFromSpec | allocator.c:95-101 | The selection loop never lowers `largest` and ends at least as large as every conventional segment it saw. When it changes the site, the new site is a conventional segment strictly larger than the start and than every conventional segment before it. |
| PageFrameInit.LargestConventionalIsFirstLargest | allocator.c:91-101 | The bitmap goes in the first conventional segment of strictly greatest size. Without a conventional segment of nonzero size, the site stays NULL. |
| PageFrameInit.ReserveSpecialSegments | allocator.c:68-85 | Leaves in-use bits alone and keeps every page already reserved. Every newly reserved page lies in a segment of one of the nine firmware types. The counter sum is kept, and so is the agreement between `used_memory` and the bits. |
| PageFrameInit.SpecialsInBitmapTail | allocator.c:70 | The bounds condition on the special segments holds for the rest of the map. |
| PageFrameInit.ReservedTrace | allocator.c:70-83 | A page reserved by the first segment or by the rest of the map lies in some special segment. |
| PageFrameInit.ReservePagesAccounting | allocator.c:73-82 | One loop step reserves pages of its segment only, and only for the nine special types. It keeps the accounting. When none of the segment's pages was reserved, it reserves all of them. |
| PageFrameInit.SegmentStep | allocator.c:33-41 | Reserving one segment: a page of it ends reserved exactly when no page of the segment was reserved before, or the page itself already was. |
| PageFrameInit.ReserveSpecialSegmentsExact | allocator.c:68-85 | With pairwise disjoint special segments, a page of a special segment ends reserved exactly when its segment had no reserved page beforehand, or the page already was reserved. A segment that hits a reserved page rolls back and keeps exactly its earlier bits. |
| PageFrameInit.ReserveSpecialSegmentsComplete | allocator.c:68-85 | When the special segments are pairwise disjoint and none of their pages is reserved yet, every page of every special segment ends up reserved: no segment rolls back. |
| PageFrameInit.WeightOfClear | allocator.c:108-112 | An all-clear bitmap has no set bits, so `used_memory = 0` matches it. |
| PageFrameInit.BitmapRunStep | allocator.c:113-114 | With only page 0 reserved, reserving the bitmap run reserves all of its pages unless the run starts at page 0, where it rolls back. No other page is reserved. |
| PageFrameInit.BootReservations | allocator.c:111-114 | After the counters are set and page 0 and the bitmap run are reserved, the accounting invariant holds for the memory total. Page 0 is reserved, and no page is in use. |
| PageFrameInit.InitialisedFacts | allocator.c:111-115 | After page 0, the bitmap run and the special segments are reserved: the accounting invariant holds, no page is in use, and page 0 is reserved. The bitmap pages are reserved unless the site is page 0. Every reserved page is page 0, a bitmap page or a page of a special segment. When the special segments are pairwise disjoint, a page of a special segment ends reserved exactly when its segment holds neither page 0 nor a bitmap page, or the page is one of those. So every special segment that avoids page 0 and the bitmap run ends fully reserved. One that touches them rolls back and gains nothing, because `__reserve_pages` is all-or-nothing. |
| PageFrameInit.InitPageProperties | allocator.c:89-119 | Returns 0. The bitmap has one entry per page of the memory map, the memo holds the map size, and the accounting invariant holds. Page 0 and the bitmap run are reserved, no page is in use, and a page is reserved only for one of the three reasons. With pairwise disjoint special segments, each one ends fully reserved unless it holds page 0 or a bitmap page, in which case it rolls back. |
| Slob.InitSlobList | slob.c:16-47 | Records the bounds `[base, base + num_pages * 4096]`. The list holds `num_pages * (4096 / size)` chunks, chunk `k` at `base + k * size`. |
| Slob.Carve | slob.c:40-45 | The loop yields chunk `k` at `addr + k * size`, every chunk below the end, and stops at the first `n` with `addr + n * size >= end`. |
| Slob.CarveOrdered | slob.c:40-45 | The chunks lie in `[addr, end)` in strictly ascending order. |
| Slob.CarveCount | slob.c:8 | A block of whole pages is carved into a whole number of chunks of every class. |
| Slob.CarveExact | slob.c:40 | A block of exactly `n` chunks' bytes gives `n` chunks. |
| Slob.ChunksPerPage | slob.c:8 | Each page gives 16 small, 4 medium or 1 large chunk. |
| Slob.SlobInit | slob.c:50-64 | Halts exactly when `num_pages < 3` or the block supplier returns NULL, naming the first class that failed. Otherwise each class list is carved from `num_pages / 3` pages of its block. |
| Slob.SlobInitThirty | slob.c:52-63 | With 30 pages every class gets 10 pages: 160, 40 and 10 chunks. |
| Slob.ClassOf | slob.c:70-73 | Up to 256 bytes is small, up to 1024 medium, up to 4096 large, and larger is none. Each class is the smallest whose chunk holds the request. |
| Slob.SlobAlloc | slob.c:67-86 | An oversized request or an empty class list gives NULL and changes nothing, so no other class is borrowed from. Otherwise the result is the front chunk of the class list, which loses exactly that chunk, and the other lists are unchanged. |
| Slob.FreeClass | slob.c:92-97 | The chosen class's inclusive range holds the address. The last matching class in the order SMALL, MEDIUM, LARGE wins. |
| Slob.SlobFree | slob.c:88-103 | Appends the address to the back of the list of its class. The bounds and the other lists are unchanged. |
| Slob.Kzfree | slob.c:129-132 | `kzfree` is exactly `kfree`. |
| Slob.Krealloc | slob.c:119-122 | An oversized request gives NULL after the old chunk is freed. For the freed chunk's own class, the result is the front of that list after the free, so the freed chunk itself comes back only when the list was empty, and the list keeps its length. For another class, the result is that list's front chunk, or NULL when it is empty. |
| Slob.InitChunksInBlocks | slob.c:40-45 | After `slob_init` every free chunk lies inside its own class's block. |
| Slob.AllocChunksInBlocks | slob.c:81-85 | Allocation keeps every chunk in its own block and hands out a chunk of the block of its class. |
| Slob.AllocThenFree | slob.c:81-102 | When the blocks are separated, freeing a freshly allocated chunk returns it to its own class. The list keeps its length and rotates by one, and the other lists are unchanged. |
| Slob.FreeAtSharedBoundary | slob.c:92-97 | The inclusive upper bound misroutes a chunk. When the medium block ends where the small block starts, the first small chunk is freed into the medium list. |
| PageEntry.PteFieldsFit | kerninc/page_table.h:12-27 | The PTE field widths 1,1,1,1,1,1,1,1,1,3,40,7,4,1 add up to 64 bits, and every field of an entry fits its width. |
| PageEntry.PdeFieldsFit | kerninc/page_table.h:29-43 | The same for the PDE/PDPE layout, with ign, o, ign2 and an 11-bit avail field. |
| PageEntry.PmlFieldsFit | kerninc/page_table.h:61-74 | The same for the PML4E layout, with a 2-bit `mbz` field. |
| PageEntry.Cr3FieldsFit | kerninc/page_table.h:76-83 | The same for the CR3 layout, with a 40-bit base and 12 must-be-zero bits. |
| PageEntry.PteRoundTrip | kerninc/page_table.h:12-27 | A PTE encodes into one 64-bit word, and decoding that word gives the entry back. |
| PageEntry.PteWordRoundTrip | kerninc/page_table.h:12-27 | Every 64-bit word is the encoding of the PTE it decodes to. |
| PageEntry.PdeRoundTrip | kerninc/page_table.h:29-59 | PDE/PDPE encoding into a word and decoding back is the identity. |
| PageEntry.PdeWordRoundTrip | kerninc/page_table.h:29-59 | Every word is the encoding of the directory entry it decodes to. |
| PageEntry.PmlRoundTrip | kerninc/page_table.h:61-74 | PML4E encoding and decoding back is the identity. |
| PageEntry.PmlWordRoundTrip | kerninc/page_table.h:61-74 | Every word is the encoding of the PML4E it decodes to. |
| PageEntry.PteLayout | kerninc/page_table.h:12-27 | In the encoded word, present, writable and usermode are bits 0, 1 and 2, and the frame is the 40 bits from bit 12, so the frame address is `entry & 0x000FFFFFFFFFF000`. Nonexecute is bit 63. |
| PageEntry.PdeLayout | kerninc/page_table.h:29-43 | The same bit positions for directory entries, with `ign2` at bit 8. |
| PageEntry.PmlLayout | kerninc/page_table.h:61-74 | The same bit positions for PML4 entries, with `mbz` at bits 7..8. |
| PageEntry.Cr3Layout | kerninc/page_table.h:76-83 | In CR3 the base address is bits 12..51 and bits 52..63 are must-be-zero. |
| PageEntry.SetPteSpec | page_table.c:4-20 | The word `set_pte` stores has present and usermode from the low bit of the arguments, writable 1, the frame (bits 12..51) the low 40 bits of `address`, and the nonexecute bit 63 clear. |
| PageEntry.SetPdeSpec | page_table.c:22-54 | The word `set_pde` / `set_pdpe` stores has the same present, writable, usermode, frame and nonexecute bits as `set_pte`'s, and bit 8 (`ign2`) keeps the value of the entry written over, because `ign` is assigned twice and `ign2` never. |
| PageEntry.Ign2Decode | page_table.c:30-32 | Bit 8 of a directory word is the `ign2` field the decoder reads. |
| PageEntry.SetPmlSpec | page_table.c:56-70 | The word `set_pml` stores has the same present, writable, usermode, frame and nonexecute bits as `set_pte`'s, and the must-be-zero bits 7..8 clear. |
| PageWalk.PmlIndex | kerninc/page_table.h:6 | Each table index is nine bits of the address (`& 0x1FF`), so it lies in `[0, 512)`. |
| PageWalk.VaSplit | kerninc/page_table.h:6 | The four 9-bit indices and the 12-bit page offset put back together give the address below bit 48. |
| PageWalk.LowVaSplit | page_table.c:119-153 | Below 4 GiB the PML4 index is 0 and the PDPT index is below 4. |
| PageWalk.Load | page_table.c:121 | The table buffer is read as 64-bit words at byte addresses. There is no word outside the buffer or off alignment. |
| KernelTables.KernelRegions | page_table.c:114-151 | The PTE, PDE, PDPT and PML4 regions at word offsets 0, 1048576, 1050624 and 1051136 follow one another without overlap. They end at 8413184 bytes, 2054 pages. |
| KernelTables.FillKernelPtes | page_table.c:121-122 | After the first loop, PTE `i` maps frame `i`, present and supervisor, for every `i < 1048576`. The other words are unchanged. |
| KernelTables.FillKernelPdes | page_table.c:129-133 | PDE `i` (`i < 2048`) points at the page holding PTEs `512 i ..`, and the words below are kept. |
| KernelTables.FillKernelPdpes | page_table.c:139-145 | PDPEs 0..3 point at the four PD pages and PDPEs 4..511 are non-present. |
| KernelTables.FillKernelPmls | page_table.c:151-153 | PML4 entry 0 points at the PDPT page and entries 1..511 are non-present. |
| KernelTables.CreateKernelPageTable | page_table.c:111-159 | Fills the four regions as above and returns the PML4 address with its low 12 bits cleared. |
| KernelTables.KernelWalk | page_table.c:111-159 | Once CR3 holds the returned value, an address is mapped exactly when its PML4 index is 0 and its PDPT index is below 4. It then maps to its low 32 bits, writable and supervisor-only. |
| KernelTables.KernelIdentity | page_table.c:119-153 | Every address below 4 GiB translates to itself. |
| KernelTables.KernelBelowPml | page_table.c:139-145 | Below any PML4 entry that leads to the kernel PDPT page, the first four PDPT slots map to the low 32 bits and nothing else is mapped. |
| KernelTables.RootIsPml | page_table.c:158 | The returned value names the PML4 page. |
| KernelTables.BuiltPml | page_table.c:151-153 | Entry 0 of the built PML4 page leads to the PDPT page, and every other entry is absent. |
| KernelTables.BuiltPdpe | page_table.c:139-145 | Entries 0..3 of the built PDPT page lead to the PD pages, and every other entry is absent. |
| KernelTables.BuiltPde | page_table.c:129-133 | Entry `b` of PD page `a` leads to the page holding PTEs `512 (512 a + b) ..`. |
| KernelTables.BuiltPte | page_table.c:121-122 | PTE `t` of page `pd` maps frame `512 pd + t`. |
| UserTables.NumPages | kernel.c:85 | `num_pages` is truncated to an `unsigned int`, so it lies below 2^32. |
| UserTables.NumPagesNoWrap | kernel.c:85 | For a size that fits an `unsigned int` the count does not wrap: at least one page, and enough pages to hold `size` bytes. |
| UserTables.FillUserPtes | kernel.c:87-88 | PTE 0 maps the page just below `user_ptr`. PTE `i` for `1 <= i <= num_pages` maps page `i - 1` of the program, present and user. Beyond the PTE page, these entries run on into the following words. |
| UserTables.PadUserPtes | kernel.c:89 | PTEs `num_pages + 1 .. 511` become non-present user entries. The loop writes nothing when `num_pages >= 511`. |
| UserTables.FillUserPdes | kernel.c:93-95 | PDE 0 points at the PTE page and PDEs 1..511 are non-present. |
| UserTables.FillUserPdpes | kernel.c:99-101 | PDPEs 0..510 are non-present and PDPE 511 points at the PDE page. |
| UserTables.FillUserPmls | kernel.c:105-108 | PML4 entry 0 holds `kernel_pdpe` as a supervisor entry, entries 1..510 are non-present, and entry 511 points at the user PDPT page. |
| UserTables.CreateUserPageTable | kernel.c:76-117 | The four table pages are written as above. The result is the PML4 at `base` + 3 pages, `replacement_page` is `base` + 4 pages, and `faulting_page` is PTE 256. |
| UserTables.MapPteStep | kernel.c:88 | A mapping PTE is present, user and writable, and names the page holding its address. |
| UserTables.UserPdeStep | kernel.c:93-95 | User PDE 0 leads to the PTE page, user and writable. The others are absent. |
| UserTables.UserPdpeStep | kernel.c:99-101 | User PDPE 511 leads to the PDE page, user and writable. The others are absent. |
| UserTables.UserPmlStep | kernel.c:105-108 | User PML4 entry 0 leads to `kernel_pdpe`, supervisor-only. Entry 511 leads to the user PDPT page, user and writable. The others are absent. |
| KernelStart.SetupTls | kernel.c:135-141 | PTE 257 of the user PTE page maps the page holding the TLS block, and no other word changes. |
| KernelStart.BuildAddressSpace | kernel.c:152-172 | The kernel tables, then the user tables at word `8413184 / 8` with `kernel_pdpe` the kernel PDPT page at word 1050624, then the TLS entry, leave the booted buffer. The user PML4 comes back as the result. |
| KernelStart.BuiltBooted | kernel.c:159-172 | The three builds, one over the other, leave the kernel tables and the user tables intact together. |
| KernelStart.KernelTablesThrough | kernel.c:167 | The user tables start exactly past the kernel tables, so neither later build touches the kernel tables. |
| KernelStart.UserSpaceWalk | kernel.c:76-117 | Once CR3 holds the user PML4, the walk of every virtual address agrees with the reference map `UserMap`: the low 4 GiB for the kernel only, and the top 2 MiB for the stack page, the program pages and the TLS page. |
| KernelStart.HighVaIndices | kernel.c:176 | Page `t` of the top 2 MiB, from `0xFFFFFFFFC0000000`, goes through PML4 entry 511, PDPT entry 511, PD entry 0 and PT entry `t`. |
| KernelStart.KnownAddresses | kernel.c:138-176 | The jump target `0xFFFFFFFFC0001000` is page 1 of the top 2 MiB, the TLS address `0xFFFFFFFFC0101000` is page 257, and the stack page below the jump target is page 0. |
| KernelStart.EntryPointMapped | kernel.c:176-181 | The jump target maps to `user_ptr`, the first code page, user and writable. |
| KernelStart.StackPageMapped | kernel.c:87 | The stack page below the jump target maps to the page just below `user_ptr`. |
| KernelStart.ProgramPageMapped | kernel.c:88 | Page `t` of `1..num_pages` other than 257 maps to page `t - 1` of the program. |
| KernelStart.TlsPageMapped | kernel.c:136 | The TLS address maps to the page holding the TLS block, whatever `num_pages` is. A program of 257 pages or more loses its page 256 behind it. |
| KernelStart.TlsPageFrame | kernel.c:172 | `tss_ptr + 1024` words is the page 8192 bytes above a page-aligned `tss_ptr`. |
| KernelStart.UserSpaceLowIdentity | kernel.c:106 | In the user address space the low 4 GiB still map to themselves, for the kernel only. |
| KernelStart.UserFrames | kernel.c:167 | Every table page of the buffer is page aligned and below 2^52, so a frame field names it exactly. |
| Idt.GateFieldsFit | kerninc/types.h:23-35 | The gate fields 16,16,3,5,5,2,1,48,8,5,19 add up to 128 bits, and every field of a gate fits its width. |
| Idt.GateRoundTrip | kerninc/types.h:23-35 | Decoding an encoded gate gives it back. |
| Idt.GateWordRoundTrip | kerninc/types.h:23-35 | Every 128-bit value is the encoding of the gate it decodes to. |
| Idt.EncodeGate | kerninc/types.h:23-35 | A gate packs into 16 bytes. |
| Idt.FillGateOffset | kernel.c:29-30 | The high and low offset halves put back together, `(hi << 16) \| lo`, give the handler address. |
| Idt.FillGateSpec | kernel.c:25-42 | The processor reads from a filled gate the handler address, selector 8, the low three bits of `ist`, type 14, DPL 0, present, and zero reserved bits. |
| Idt.ReservedHigh | kerninc/types.h:32-34 | The top 32 bits of a gate are the reserved fields `xx2`, `zero` and `xx3`. |
| Idt.FillGateAt | kernel.c:25-27 | `x86_fillgate(num, …)` fills gate `num`, and no other gate changes. |
| Idt.CreateIdtTable | kernel.c:45-55 | Vectors 0..31 hold the generic handler except 13 (general protection) and 14 (page fault), and 48 holds the timer, each as an IST-0 gate. Every other vector is as before. |
| Idt.IdtDispatch | kernel.c:45-55 | Every set vector dispatches to its handler through selector 8, as a present DPL-0 interrupt gate, and every other vector is untouched. A vector is set exactly when it is below 32 or is 48. |
| Tss.TssLayout | kerninc/interrupts.h:44-52 | The packed TSS is 104 bytes, so the limit is 103. `rsp[0]` is at byte 4, `ist[0]` at 36 and `iopb_base` at 102. |
| Tss.DescriptorSpec | kerninc/interrupts.h:79-83 | The two words decode to the original base and to limit 103. Word 0 is a present, DPL-0, 64-bit available TSS (type 9) with S, AVL and G clear. The reserved upper half of word 1 is zero. |
| Tss.LoadTssSegment | kerninc/interrupts.h:69-90 | Only the two GDT words at byte offset `selector` change, and they decode to the TSS address and limit 103. |
| HeapLayout.NextOfPrologue | mm.c:33-38 | From the prologue fence, `get_next` reaches the first block, or the epilogue of an empty heap. |
| HeapLayout.NextOfBlock | mm.c:33-52 | Block `i`'s header and footer hold its tag. `get_footer` lands on the footer, and `get_next` lands on block `i + 1` or the epilogue. |
| HeapLayout.NextOfEpilogue | mm.c:34-35 | `get_next` of the epilogue is NULL. |
| HeapLayout.PrevOfBlock | mm.c:41-47 | The tag below header `i` has size 0 exactly for block 0, where it is the prologue. Otherwise `get_prev` reaches block `i - 1`. |
| HeapLayout.EpilogueAt | mm.c:34 | The epilogue fence is the last tag before the break. |
| HeapLayout.BlockTags | mm.c:66-79 | A block's header and footer, `size + 8` bytes apart, both hold its tag. |
| HeapLayout.PayloadUntagged | mm.c:28-30 | No tag lies inside a block's payload. |
| Heap.MemSbrk | mm.c:15-25 | For a negative increment or one past `mem_max_addr`, returns NULL and leaves the break alone. Otherwise returns the old break and moves it up by `incr`. The break never moves down and never passes the limit. |
| Heap.OneMarkWritten | mm.c:66-79 | `mark_used` / `mark_free` store the identical `(free, size)` tag in the header and in the footer `size + 8` bytes above. |
| Heap.FirstFit | mm.c:54-63 | The first block in address order that is free and at least `size` bytes, or none when no block fits. |
| Heap.FindBlock | mm.c:54-63 | Walking the tags with `get_next` from the prologue until NULL returns the header of the first fitting block, or NULL. |
| Heap.SplitSpec | mm.c:96-107 | `split` conserves bytes and keeps the heap valid. The block becomes used with at least `to_use` bytes. A leftover above 16 bytes becomes a free block right after it, and the blocks before are unchanged. The C writes realise the new list. |
| Heap.SplitPreserves | mm.c:96-107 | Splitting a free block whose neighbours are used leaves no two free blocks adjacent. |
| Heap.ExtendHeap | mm.c:82-90 | Fails exactly when the break cannot move up by `size + 16`. Otherwise it appends a free block of `size` bytes with its header on the old epilogue, and a new epilogue follows it. |
| Heap.ExtendRealises | mm.c:84-88 | The two writes of `extend_heap`, the block's tags and a fresh `(0, 0)` fence at the new end, store every tag of the extended heap. |
| Heap.SbrkArgument | mm.c:15 | The 64-bit `to_extend` reaches `mem_sbrk` as an `int`: its low 32 bits read as two's complement. |
| Heap.ExtendByAsWritten | mm.c:83 | `to_extend` on `size_t`: when `size + 16` stays below 2^64 it is the corrected `ExtendBy`. Otherwise the sum wraps to under 16 and the `max` gives `MIN_BLOCK_SIZE`. |
| Heap.ExtendHeapAsWritten | mm.c:82-90 | `extend_heap` as written, on 64-bit pointers: the pointer it returns and the addresses of its three tag stores (header, footer, fence) are all below 2^64. |
| Heap.ExtendFailureNotNull | mm.c:84 | When the heap is full, `extend_heap` as written returns 2^64 - 8 rather than NULL and leaves the break alone. It stores the header at 2^64 - 8, and the footer and the fence wrap round to addresses `size` and `size + 8`. The corrected `ExtendHeap` reports the failure. |
| Heap.ExtendNarrowed | mm.c:83-86 | A request of 2^32 bytes on a fresh heap moves the break 16 bytes, yet `mark_free` stores a 2^32-byte tag at a footer 2^32 bytes past the old break, beyond the new one. The corrected `ExtendHeap` refuses it. |
| Heap.ExtendNarrowedToZero | mm.c:33-38 | A request of 2^32 - 16 bytes narrows to `mem_sbrk(0)`, which succeeds without moving the break. The new header is the epilogue itself, so `get_next` returns NULL and the fence is stored at address 0. The corrected `ExtendHeap` refuses the request. |
| Heap.ExtendHugeWraps | mm.c:83-87 | `extend_heap(2^64 - 8)` as written moves the break by only 16 bytes. Its header still records 2^63 - 8, the size cut to the 63-bit field, so the footer lands 2^63 - 8 bytes past the old break, far beyond the new one. The corrected `ExtendHeap` refuses the request. |
| Heap.MemlibInit | mm.c:144-159 | On the region the kernel hands out, the break starts at the region and `mem_max_addr` is `MAX_HEAP` past it. `mem_sbrk(16)` then holds the two fences, and the heap is valid with no blocks. |
| Heap.Merge | mm.c:111-139 | The run `coalesce` merges holds one to three blocks and contains block `i`. |
| Heap.MergeSpan | mm.c:125-138 | The merged block takes exactly the bytes of the run it replaces. |
| Heap.CoalesceWriteIs | mm.c:114-138 | The single write of `coalesce`, with the fence check on the tag below the header, is the mark of the merged block at the run's first header. |
| Heap.CoalesceRealises | mm.c:111-139 | That write realises the merged list: every tag of the new heap is where the writes put it. |
| Heap.CoalesceValid | mm.c:111-139 | `coalesce` keeps the heap valid. |
| Heap.CoalesceShape | mm.c:111-139 | The merged run becomes one free block of the merged size, and the blocks around it are unchanged. |
| Heap.CoalesceHdrs | mm.c:125-138 | The merged block starts at or before the freed block and ends at or after it. |
| Heap.CoalescePreserves | mm.c:111-139 | In a heap without adjacent free blocks, `coalesce` leaves none, whether or not the block was free. |
| Heap.MergedCovers | mm.c:125-138 | The merged block is free, starts no later than the freed block and holds at least its bytes. |
| Heap.Request | mm.c:171 | `max(MIN_BLOCK_SIZE, size)` is at least 16 and at least `size`, and it equals `size` for 16 or more. |
| Heap.Started | mm.c:163-166 | The heap is valid in either state. A heap not yet started is set up by `memlib_init` at the region, with no blocks. |
| Heap.Placement | mm.c:172-182 | The block `mm_malloc` places is the first fit. When nothing fits it is the block `extend_heap` appends, and when the heap cannot grow there is none. |
| Heap.PlacementPreserves | mm.c:172-183 | The placed block, once split, stays apart from free neighbours. |
| Heap.MallocRealises | mm.c:174-184 | The writes of `mm_malloc` (those of `extend_heap` when nothing fits, then those of `split`), applied to the heap's memory, store every tag of the heap it returns. |
| Heap.MmMalloc | mm.c:161-185 | NULL for size 0. Otherwise the payload of a used block of at least `size` bytes, or NULL with the heap unchanged when no block fits and the heap cannot grow. The heap stays valid, and one without adjacent free blocks stays so. |
| Heap.MallocPlaces | mm.c:171-184 | With a block that fits, `mm_malloc` returns the first such block's payload. Otherwise it returns the payload at the old epilogue, or fails exactly when the break cannot move. |
| Heap.BlockOf | mm.c:200 | Finds the block whose payload is `addr`, if any. |
| Heap.MmFree | mm.c:198-202 | Nothing for NULL. Otherwise the bytes of `addr` end up in a free block and the break does not move. A heap without adjacent free blocks stays so. |
| Heap.MmRealloc | mm.c:187-196 | NULL for size 0 with the block left alone. Otherwise any pointer returned is the payload of a used block of at least `size` bytes. The heap stays valid, and one without adjacent free blocks stays so. |
| Heap.FreeThenMalloc | mm.c:194-195 | Freeing a block and asking for no more than it held hands out a block no later than it, so `mm_realloc` to a size that fits never moves a block up. |
| Heap.ReplaceRegion | mm.c:66-79 | Replacing a run of blocks by blocks of the same span, with writes inside those bytes that store every new tag, realises the new heap. The fences and the other blocks keep their tags. |

## Left out

- The hardware side effects are not modelled, because they are asynchronous or hardware-driven:
  - the `write_cr3`, `lidt`, `ltr` and `wrmsr` instructions;
  - `x86_lapic_enable` and `user_jump`;
  - the interrupt handlers, including the page-fault remap in `x86_trap_14`.

  What the tables say is modelled; the instruction that loads them is not.
- Output and halts are not modelled as effects. `printf` and the syscall prints are dropped. The `HALT`s of `slob_init` are its `Halted` results. `busy_loop()` at the end of `__init_slob_list` is a delay that returns, so it is left out.
- The firmware code in boot.c, the syscall layer in kernel_syscall.c and the demo program in user.c are not part of this model.
- The buddy allocator behind `get_block`, `map_memory`, `get_page_indexes` and the list library are not part of this model:
  - `get_block`'s three answers are parameters of `Slob.SlobInit`;
  - the lists are sequences;
  - `map_memory` and `get_page_indexes` are only declared, so there is nothing to model.
- The diagnostics are not modelled: `print_allocator`, `print_available_memory`, `slob_list_counts`, `debug_slob_lists`, `debug_heap_user` and the compiled-out `debug_page_table`.
- Raw memory contents are not modelled: the memsets, the TLS block payload, the heap payload bytes, and the contents `mm_realloc` and `krealloc` would copy. Neither copies, so nothing is lost.
- The kernel region that `memlib_init` obtains through syscall 1 is the parameter `region`.
- The `int` counters `free_memory` and `used_memory` are mathematical integers, so `int` truncation of the 32-bit counters is not modelled. The page-frame contracts hold for any values.
- PageFrame.AllocPage, FreePage, ReservePage, UnreservePage and the multi-page forms require the index to lie inside the bitmap. The C code has no bounds check, so an index past the bitmap is undefined there.
- PageFrameInit.InitPageProperties, PageFrameInit.InitialisedFacts keep the `page_properties_t` record apart from the bitmap. In the source `properties_ptr` is NULL and never set (allocator.c:10), so `init_page_properties` writes the record's `size` and `info_buffer` through NULL, at bytes 0..15 (allocator.c:106-107). A bitmap of one byte per page sited at address 0 (`lo == 0`) is then the record itself: entries 0..7 are the bytes of `size` and entries 8..15 those of `info_buffer`. Setting a flag through the bitmap, as `__reserve_page(0)` does first, alters the record, and later accesses read the altered values. For that case the contracts describe a bitmap kept apart from the record, which the source does not have.
- PageFrameInit: the memory map is a sequence of descriptors, one per entry. The byte stride `memory_map_desc_size` and the byte count `memory_map_size` (allocator.c:71, 95-96) are not modelled. This leaves out the division `memory_map_size / memory_map_desc_size`, which drops a trailing partial entry and faults on a zero stride, and descriptors wider than the C struct.
- PageFrameInit.InitPageProperties requires an already clear bitmap, because the memset at allocator.c:108 clears zero bytes. It also requires the bitmap run and the special segments to lie inside the bitmap.
- Slob.SlobFree, Kfree, Kzfree and Krealloc require the address to lie in some class's range. Outside all three ranges `stype` is read uninitialised (slob.c:89-99).
- Heap: the `int` casts in `split` and `coalesce`, and the 63-bit `size` field, are not modelled. Sizes are unbounded naturals, and the break limit keeps them far below 2^31.
- Heap.MmFree and Heap.MmRealloc require `addr` to be NULL or the payload of a block of the heap, free or used. A pointer that is not a payload makes `coalesce` read arbitrary bytes as tags, and that is not modelled.
- Heap: addresses are unbounded naturals in the block-list model. Only Heap.ExtendHeapAsWritten works modulo 2^64: its returned pointer and all three of its store addresses wrap.
- PageEntry.SetPdeSpec: the `ign2` bit that survives from the entry written over is an explicit input. In `create_kernel_page_table` and `create_user_page_table` it comes from the buffer's previous contents.
- Tss.LoadTssSegment requires the selector to be a multiple of 8. `setup_interrupts` passes 0x28.
- KernelStart.TlsPageMapped: PTE 257 overrides program page 256. This is stated as the behaviour, not corrected.
- Heap.Merge states only where the merged run lies. The merged size is stated by Heap.MergeSpan and the resulting list by Heap.CoalesceShape.
- Heap.ExtendHeapAsWritten states only that its pointer and store addresses are 64-bit values. Its four faults are stated by Heap.ExtendFailureNotNull, Heap.ExtendNarrowed, Heap.ExtendNarrowedToZero and Heap.ExtendHugeWraps.
- Heap.MmMalloc, Heap.MallocPlaces, Heap.Placement, Heap.MmRealloc model the corrected extend path (Heap.ExtendHeap). As written, on a full heap `mm_malloc` goes on from the 2^64 - 8 that `extend_heap` returns. It stores tags at that address and at wrapped low addresses, then `split` writes more, and only the returned payload pointer wraps back to NULL. A request of 2^31 - 16 bytes or more is narrowed, as in "## Findings". These members promise NULL with the heap unchanged instead.
- UserTables.NumPages states only the 32-bit bound. The value for sizes below 2^32 is stated by UserTables.NumPagesNoWrap.
- UserTables.CreateUserPageTable requires the code PTEs that run past the PTE page, when `num_pages >= 512`, to stay inside the buffer.
- UserTables.CreateUserPageTable, UserTables.PadUserPtes do not model the signed `int i` counter of both PTE loops (kernel.c:77, 88-89), which is compared with the `unsigned int num_pages`. For `num_pages >= 2^31 - 1`, reached when `size >= (2^31 - 2) * 4096`, the first loop's `i++` overflows a signed `int`, which is undefined behaviour in C. Were it to wrap, `num_pages + 1` would start the padding loop at a negative index, or at 0 when `num_pages = 2^32 - 1`, and overwrite the stack and code PTEs. The model maps PTEs 1..`num_pages` and pads nothing there, so its contracts describe a defined result for sizes where the source has none. `kernel_start` passes an `unsigned int` size, so it never reaches these sizes.

## Findings

| source | as written | input that shows it | evidently intended | confidence | as-written member | corrected member |
|---|---|---|---|---|---|---|
| mm.c:84 | `extend_heap` subtracts `TAGSIZE` from `mem_sbrk`'s result without checking it. A failed `mem_sbrk` gives `NULL - 8` = 2^64 - 8, so the NULL test of `mm_malloc` (mm.c:178) never fires. The header is stored at 2^64 - 8, and the footer and the fence wrap round to addresses `size` and `size + 8`. | A valid heap whose break cannot move up by `size + 16`, e.g. a full 128 MiB heap and `mm_malloc(16)` | `extend_heap` returns NULL when `mem_sbrk` fails, and `mm_malloc` returns NULL with the heap unchanged | not executed | Heap.ExtendFailureNotNull | Heap.ExtendHeap |
| mm.c:83-84 | The `size_t` `to_extend` is passed to `mem_sbrk(int incr)` and narrowed to 32 bits. `mark_free` still records the full `size`. | On a fresh heap, `mm_malloc(2^32)`: `to_extend` = 2^32 + 16 narrows to 16, so the break moves 16 bytes while a 2^32-byte block is marked, its footer far past the break | The break moves by the full `size + 16`, or the request fails | not executed | Heap.ExtendNarrowed | Heap.ExtendHeap |
| mm.c:83-88 | With `to_extend` = 2^32 the narrowed increment is 0, and `mem_sbrk(0)` succeeds. The new block's header is then the epilogue at `mem_brk - 8`, so `get_next` takes its tail case and returns NULL. The fence is then written through NULL. | On any valid heap, `extend_heap(2^32 - 16)`, as reached from `mm_malloc(2^32 - 16)` when no block fits | The request fails, or the break moves by the full amount and the fence lands past the new block | not executed | Heap.ExtendNarrowedToZero | Heap.ExtendHeap |
| mm.c:83-87 | `size + 2*TAGSIZE` is computed on `size_t` and wraps for the last 16 sizes below 2^64. `max` then picks `MIN_BLOCK_SIZE`, and the break moves 16 bytes. `mark_free` still records the huge size, cut to 63 bits, so the footer is stored 2^63 - 8 bytes past the block, far beyond the break. | `extend_heap(2^64 - 8)` on a fresh heap, as reached from `mm_malloc(2^64 - 8)` | The request fails, as any request larger than the heap does | not executed | Heap.ExtendHugeWraps | Heap.ExtendHeap |

=== FILE: heap.dfy ===
/**
 * The operations of mm.c over the block list of `HeapLayout`.
 *
 * Each operation that writes tags is given twice: as the C code computes
 * its writes from the tags it reads (`...Writes`, a list of `mark_used` /
 * `mark_free` / fence writes at addresses), and as the new block list.
 * `Realises` says that the tag memory after the writes holds, at every
 * tag of the new list, exactly that tag; the `...Realises` lemmas prove it
 * for `split`, `coalesce` and `extend_heap`.
 */
module Heap {
  import opened Wrappers
  import opened HeapLayout

  /*---------------------------------------------------------------------
   * Tag writes
   *-------------------------------------------------------------------*/

  /** `mark_used`/`mark_free` write a tag at a header and at the footer its size gives; the fence write is one tag. */
  datatype Write = Mark(at: nat, tag: Tag) | SetFence(at: nat)

  /** `mark_used(cur, size)`. */
  function MarkUsed(cur: nat, size: nat): Write
  {
    Mark(cur, Tag(false, size))
  }

  /** `mark_free(cur, size)`. */
  function MarkFree(cur: nat, size: nat): Write
  {
    Mark(cur, Tag(true, size))
  }

  /** The addresses a write stores a tag at. */
  predicate Covers(w: Write, a: nat)
  {
    match w
    case Mark(at, t) => a == at || a == at + TAG_SIZE + t.size
    case SetFence(at) => a == at
  }

  function Stored(w: Write): Tag
  {
    match w
    case Mark(_, t) => t
    case SetFence(_) => FENCE
  }

  /** The last address a write touches. */
  function LastAt(w: Write): nat
  {
    match w
    case Mark(at, t) => at + TAG_SIZE + t.size
    case SetFence(at) => at
  }

  /** The tag the writes `ws`, applied in order, leave at `a`, if any of them touches it. */
  function WrittenAt(ws: seq<Write>, a: nat): Option<Tag>
  {
    if |ws| == 0 then None
    else if Covers(ws[|ws| - 1], a) then Some(Stored(ws[|ws| - 1]))
    else WrittenAt(ws[..|ws| - 1], a)
  }

  /** The tag at `a` once `ws` is applied to the memory of `h`. */
  function TagAfter(h: Heap, ws: seq<Write>, a: nat): Option<Tag>
  {
    if WrittenAt(ws, a).Some? then WrittenAt(ws, a) else HeapTag(h, a)
  }

  /** Applying `ws` to the memory of `h` leaves every tag of `h'` in place. */
  ghost predicate Realises(h: Heap, ws: seq<Write>, h': Heap)
  {
    forall a: nat :: HeapTag(h', a).Some? ==> HeapTag(h', a) == TagAfter(h, ws, a)
  }

  /** Every write of `ws` lands in `[lo, hi)`. */
  predicate WritesWithin(ws: seq<Write>, lo: nat, hi: nat)
  {
    forall j :: 0 <= j < |ws| ==> lo <= ws[j].at && LastAt(ws[j]) < hi
  }

  lemma WrittenOutside(ws: seq<Write>, lo: nat, hi: nat, a: nat)
    requires WritesWithin(ws, lo, hi) && (a < lo || a >= hi)
    ensures WrittenAt(ws, a) == None
  {
  }

  lemma {:induction false} WrittenAtConcat(ws1: seq<Write>, ws2: seq<Write>, a: nat)
    ensures WrittenAt(ws1 + ws2, a) == if WrittenAt(ws2, a).Some? then WrittenAt(ws2, a) else WrittenAt(ws1, a)
    decreases |ws2|
  {
    if |ws2| == 0 {
      assert ws1 + ws2 == ws1;
    } else {
      var ws := ws1 + ws2;
      assert ws[|ws| - 1] == ws2[|ws2| - 1];
      assert ws[..|ws| - 1] == ws1 + ws2[..|ws2| - 1];
      WrittenAtConcat(ws1, ws2[..|ws2| - 1], a);
    }
  }

  /** Two steps each realising their heap compose. */
  lemma RealisesCompose(h: Heap, ws1: seq<Write>, h1: Heap, ws2: seq<Write>, h2: Heap)
    requires Realises(h, ws1, h1) && Realises(h1, ws2, h2)
    ensures Realises(h, ws1 + ws2, h2)
  {
    forall a: nat | HeapTag(h2, a).Some?
      ensures HeapTag(h2, a) == TagAfter(h, ws1 + ws2, a)
    {
      WrittenAtConcat(ws1, ws2, a);
    }
  }

  /** Three runs of blocks laid out one after the other hold the tags of each. */
  lemma TagAtThree(pre: seq<Tag>, mid: seq<Tag>, post: seq<Tag>, base: nat, a: nat)
    ensures TagAt(pre + mid + post, base, a) ==
      if a < base + Span(pre) then TagAt(pre, base, a)
      else if a < base + Span(pre) + Span(mid) then TagAt(mid, base + Span(pre), a)
      else TagAt(post, base + Span(pre) + Span(mid), a)
  {
    TagAtConcat(pre + mid, post, base, a);
    TagAtConcat(pre, mid, base, a);
    SpanConcat(pre, mid);
  }

  /** The blocks of `h'` are those of `h` with the run `was` replaced by `mid`, of the same span. */
  predicate Replaced(h: Heap, h': Heap, pre: seq<Tag>, was: seq<Tag>, mid: seq<Tag>, post: seq<Tag>)
  {
    && h.blocks == pre + was + post && h'.blocks == pre + mid + post && h'.mem == h.mem
    && Span(mid) == Span(was)
  }

  /** Both heaps end at the same address. */
  lemma ReplacedSpan(h: Heap, h': Heap, pre: seq<Tag>, was: seq<Tag>, mid: seq<Tag>, post: seq<Tag>)
    requires Replaced(h, h', pre, was, mid, post)
    ensures Span(h'.blocks) == Span(h.blocks) >= Span(pre) + Span(was)
  {
    SpanConcat(pre, was);
    SpanConcat(pre + was, post);
    SpanConcat(pre, mid);
    SpanConcat(pre + mid, post);
  }

  /** Outside the replaced bytes the two heaps hold the same tags. */
  lemma ReplacedOutside(h: Heap, h': Heap, pre: seq<Tag>, was: seq<Tag>, mid: seq<Tag>, post: seq<Tag>, a: nat)
    requires Replaced(h, h', pre, was, mid, post)
    requires a < h.mem.start + 8 + Span(pre) || a >= h.mem.start + 8 + Span(pre) + Span(was)
    ensures HeapTag(h', a) == HeapTag(h, a)
  {
    ReplacedSpan(h, h', pre, was, mid, post);
    TagAtThree(pre, was, post, h.mem.start + 8, a);
    TagAtThree(pre, mid, post, h.mem.start + 8, a);
  }

  /** Inside the replaced bytes the new heap holds the tags of `mid`. */
  lemma ReplacedInside(h: Heap, h': Heap, pre: seq<Tag>, was: seq<Tag>, mid: seq<Tag>, post: seq<Tag>, a: nat)
    requires Replaced(h, h', pre, was, mid, post)
    requires h.mem.start + 8 + Span(pre) <= a < h.mem.start + 8 + Span(pre) + Span(was)
    ensures HeapTag(h', a) == TagAt(mid, h.mem.start + 8 + Span(pre), a)
  {
    ReplacedSpan(h, h', pre, was, mid, post);
    TagAtThree(pre, mid, post, h.mem.start + 8, a);
  }

  /** `ReplaceRegion` at one address. */
  lemma ReplaceAt(h: Heap, h': Heap, pre: seq<Tag>, was: seq<Tag>, mid: seq<Tag>, post: seq<Tag>, ws: seq<Write>, a: nat)
    requires Replaced(h, h', pre, was, mid, post)
    requires WritesWithin(ws, h.mem.start + 8 + Span(pre), h.mem.start + 8 + Span(pre) + Span(was))
    requires forall b: nat :: TagAt(mid, h.mem.start + 8 + Span(pre), b).Some? ==>
      WrittenAt(ws, b) == TagAt(mid, h.mem.start + 8 + Span(pre), b)
    requires HeapTag(h', a).Some?
    ensures HeapTag(h', a) == TagAfter(h, ws, a)
  {
    var lo := h.mem.start + 8 + Span(pre);
    var hi := lo + Span(was);
    if a < lo || a >= hi {
      WrittenOutside(ws, lo, hi, a);
      ReplacedOutside(h, h', pre, was, mid, post, a);
    } else {
      ReplacedInside(h, h', pre, was, mid, post, a);
    }
  }

  /**
   * Replacing blocks `i .. i + k` by `mid` of the same span, with writes
   * inside those bytes that store every tag of `mid`, realises the new
   * heap: the fences and the blocks around the region keep their tags.
   */
  lemma ReplaceRegion(h: Heap, h': Heap, i: nat, k: nat, mid: seq<Tag>, ws: seq<Write>)
    requires Valid(h) && i + k <= |h.blocks|
    requires h'.mem == h.mem && h'.blocks == h.blocks[..i] + mid + h.blocks[i + k..]
    requires Span(mid) == Span(h.blocks[i..i + k])
    requires WritesWithin(ws, Hdr(h, i), Hdr(h, i + k))
    requires forall a: nat :: TagAt(mid, Hdr(h, i), a).Some? ==> WrittenAt(ws, a) == TagAt(mid, Hdr(h, i), a)
    ensures Realises(h, ws, h')
  {
    var pre, was, post := h.blocks[..i], h.blocks[i..i + k], h.blocks[i + k..];
    assert h.blocks == pre + was + post;
    assert h.blocks[..i + k] == pre + was;
    SpanConcat(pre, was);
    assert Replaced(h, h', pre, was, mid, post);
    forall a: nat | HeapTag(h', a).Some?
      ensures HeapTag(h', a) == TagAfter(h, ws, a)
    {
      ReplaceAt(h, h', pre, was, mid, post, ws, a);
    }
  }

  /** A replacement whose blocks are at least `MIN_BLOCK_SIZE` keeps the heap valid. */
  lemma ReplacedValid(h: Heap, h': Heap, pre: seq<Tag>, was: seq<Tag>, mid: seq<Tag>, post: seq<Tag>)
    requires Valid(h) && Replaced(h, h', pre, was, mid, post)
    requires forall t :: 0 <= t < |mid| ==> mid[t].size >= MIN_BLOCK_SIZE
    ensures Valid(h')
  {
    ReplacedSpan(h, h', pre, was, mid, post);
    forall t | 0 <= t < |h'.blocks|
      ensures h'.blocks[t].size >= MIN_BLOCK_SIZE
    {
      if t < |pre| {
        assert h'.blocks[t] == pre[t] == h.blocks[t];
      } else if t >= |pre| + |mid| {
        assert h'.blocks[t] == post[t - |pre| - |mid|] == h.blocks[t - |mid| + |was|];
      } else {
        assert h'.blocks[t] == mid[t - |pre|];
      }
    }
  }

  /** One `mark` stores its block's two tags. */
  lemma OneMarkWritten(cur: nat, x: Tag)
    ensures WritesWithin([Mark(cur, x)], cur, cur + Span([x]))
    ensures forall a: nat :: TagAt([x], cur, a).Some? ==> WrittenAt([Mark(cur, x)], a) == TagAt([x], cur, a)
  {
    assert [x][1..] == [];
  }

  /** Two `mark`s, the second just past the first block, store the tags of both blocks. */
  lemma TwoMarksWritten(cur: nat, x: Tag, y: Tag)
    ensures var ws := [Mark(cur, x), Mark(cur + x.size + 16, y)];
      && WritesWithin(ws, cur, cur + Span([x, y]))
      && forall a: nat :: TagAt([x, y], cur, a).Some? ==> WrittenAt(ws, a) == TagAt([x, y], cur, a)
  {
    var ws := [Mark(cur, x), Mark(cur + x.size + 16, y)];
    assert [x, y][1..] == [y] && [y][1..] == [];
    assert ws[..1] == [Mark(cur, x)] && ws[..1][..0] == [];
    assert Span([y]) == y.size + 16;
    assert Span([x, y]) == x.size + y.size + 32;
    forall a: nat | TagAt([x, y], cur, a).Some?
      ensures WrittenAt(ws, a) == TagAt([x, y], cur, a)
    {
      if a == cur || a == cur + 8 + x.size {
        assert !Covers(ws[1], a);
      } else {
        assert TagAt([x, y], cur, a) == TagAt([y], cur + x.size + 16, a);
        assert TagAt([y][1..], cur + x.size + y.size + 32, a) == None;
        assert Covers(ws[1], a);
      }
    }
  }

  /*---------------------------------------------------------------------
   * mem_sbrk
   *-------------------------------------------------------------------*/

  /**
   * `mem_sbrk(incr)`: NULL and nothing changes for a negative increment or
   * one past `mem_max_addr`; otherwise the old break, and the break moves
   * up by `incr`.  The break never moves down and never passes the limit.
   */
  function MemSbrk(m: Break, incr: int): (r: (Option<nat>, Break))
    ensures r.0.Some? <==> 0 <= incr && m.brk + incr <= m.maxAddr
    ensures r.0.None? ==> r.1 == m
    ensures r.0.Some? ==> r.0.value == m.brk && r.1.brk == m.brk + incr
    ensures r.1.start == m.start && r.1.maxAddr == m.maxAddr && m.brk <= r.1.brk
    ensures m.brk <= m.maxAddr ==> r.1.brk <= m.maxAddr
  {
    if incr < 0 || m.brk + incr > m.maxAddr then (None, m)
    else (Some(m.brk), m.(brk := m.brk + incr))
  }

  /*---------------------------------------------------------------------
   * find_block
   *-------------------------------------------------------------------*/

  /** A block `find_block` accepts for a request of `size` bytes. */
  predicate Fits(t: Tag, size: nat)
  {
    t.free && t.size >= size
  }

  /** The first block in address order that fits, if any. */
  function FirstFit(bs: seq<Tag>, size: nat): (r: Option<nat>)
    ensures r.Some? ==> r.value < |bs| && Fits(bs[r.value], size)
    ensures r.Some? ==> forall j :: 0 <= j < r.value ==> !Fits(bs[j], size)
    ensures r.None? ==> forall j :: 0 <= j < |bs| ==> !Fits(bs[j], size)
  {
    if |bs| == 0 then None
    else if Fits(bs[0], size) then Some(0)
    else match FirstFit(bs[1..], size)
      case Some(i) => Some(i + 1)
      case None => None
  }

  /**
   * `find_block(size)`: walk the tags with `get_next` from the prologue
   * until it returns NULL, and return the first header that is free with
   * size at least `size`.  That is the header of the first fitting block.
   */
  method FindBlock(h: Heap, size: nat) returns (r: Option<nat>)
    requires Valid(h)
    ensures r == match FirstFit(h.blocks, size) case Some(i) => Some(Hdr(h, i)) case None => None
  {
    NextOfPrologue(h);
    var cur: Option<nat> := Some(h.mem.start);
    ghost var j: int := -1;
    while cur.Some?
      invariant -1 <= j <= |h.blocks|
      invariant cur.Some? ==> cur.value == if j == -1 then h.mem.start else Hdr(h, j)
      invariant cur.None? ==> j == |h.blocks|
      invariant forall t :: 0 <= t < j && t < |h.blocks| ==> !Fits(h.blocks[t], size)
      decreases |h.blocks| - j + if cur.Some? then 1 else 0
    {
      var c := cur.value;
      if j == -1 {
        NextOfPrologue(h);
      } else if j < |h.blocks| {
        NextOfBlock(h, j);
      } else {
        NextOfEpilogue(h);
      }
      var t := HeapTag(h, c).value;
      if t.free && t.size >= size {
        return Some(c);
      }
      cur := GetNext(h, c);
      if j < |h.blocks| {
        j := j + 1;
      }
    }
    return None;
  }

  /*---------------------------------------------------------------------
   * split
   *-------------------------------------------------------------------*/

  /** `split_size = max(0, old_size - to_use - 2 * TAGSIZE)`: what is left of a block once `toUse` bytes and a new pair of tags are taken. */
  function Leftover(oldSize: nat, toUse: nat): nat
  {
    if 0 >= oldSize - toUse - 2 * TAG_SIZE then 0 else oldSize - toUse - 2 * TAG_SIZE
  }

  /**
   * `split(cur, to_use)` as C computes its writes from the header at
   * `cur`: when the leftover exceeds `MIN_BLOCK_SIZE`, `mark_used(cur,
   * to_use)` then `mark_free` of the leftover at `get_next(cur)`, which
   * reads the size just written; otherwise `mark_used(cur, old_size)`.
   */
  function SplitWrites(h: Heap, i: nat, toUse: nat): seq<Write>
    requires Valid(h) && i < |h.blocks|
  {
    var cur := Hdr(h, i);
    NextOfBlock(h, i);
    var oldSize := HeapTag(h, cur).value.size;
    var splitSize := Leftover(oldSize, toUse);
    if splitSize > MIN_BLOCK_SIZE then [MarkUsed(cur, toUse), MarkFree(cur + toUse + 2 * TAG_SIZE, splitSize)]
    else [MarkUsed(cur, oldSize)]
  }

  /** The blocks `split` leaves in place of block `i`. */
  function SplitBlocks(b: Tag, toUse: nat): seq<Tag>
  {
    if Leftover(b.size, toUse) > MIN_BLOCK_SIZE then [Tag(false, toUse), Tag(true, Leftover(b.size, toUse))]
    else [Tag(false, b.size)]
  }

  /** `split` on block `i` of the list. */
  function Split(h: Heap, i: nat, toUse: nat): Heap
    requires i < |h.blocks|
  {
    h.(blocks := h.blocks[..i] + SplitBlocks(h.blocks[i], toUse) + h.blocks[i + 1..])
  }

  /**
   * `split` conserves bytes and keeps the heap valid; block `i` becomes
   * used with at least `toUse` bytes, and a leftover above
   * `MIN_BLOCK_SIZE` becomes a free block right after it; the blocks
   * before are as they were, and the writes C makes realise the new list.
   */
  lemma SplitSpec(h: Heap, i: nat, toUse: nat)
    requires Valid(h) && i < |h.blocks| && MIN_BLOCK_SIZE <= toUse <= h.blocks[i].size
    ensures var h' := Split(h, i, toUse);
      && Valid(h') && h'.mem == h.mem
      && |h'.blocks| > i && h'.blocks[..i] == h.blocks[..i]
      && !h'.blocks[i].free && h'.blocks[i].size >= toUse
      && (Leftover(h.blocks[i].size, toUse) > MIN_BLOCK_SIZE ==>
            h'.blocks[i].size == toUse && h'.blocks[i + 1] == Tag(true, h.blocks[i].size - toUse - 2 * TAG_SIZE)
            && h'.blocks[i + 2..] == h.blocks[i + 1..])
      && (Leftover(h.blocks[i].size, toUse) <= MIN_BLOCK_SIZE ==>
            h'.blocks[i].size == h.blocks[i].size && h'.blocks[i + 1..] == h.blocks[i + 1..])
      && Hdr(h', i) == Hdr(h, i)
      && Realises(h, SplitWrites(h, i, toUse), h')
  {
    var h' := Split(h, i, toUse);
    var b := h.blocks[i];
    var mid := SplitBlocks(b, toUse);
    var cur := Hdr(h, i);
    assert h.blocks[i..i + 1] == [b];
    assert h'.blocks[..i] == h.blocks[..i];
    NextOfBlock(h, i);
    SpanStep(h.blocks, i);
    assert Span([b]) == b.size + 16;
    if Leftover(b.size, toUse) > MIN_BLOCK_SIZE {
      assert Span([mid[1]]) == mid[1].size + 16;
    }
    assert Span(mid) == b.size + 16;
    if Leftover(b.size, toUse) > MIN_BLOCK_SIZE {
      TwoMarksWritten(cur, mid[0], mid[1]);
      assert SplitWrites(h, i, toUse) == [Mark(cur, mid[0]), Mark(cur + mid[0].size + 16, mid[1])];
    } else {
      OneMarkWritten(cur, mid[0]);
      assert SplitWrites(h, i, toUse) == [Mark(cur, mid[0])];
    }
    ReplaceRegion(h, h', i, 1, mid, SplitWrites(h, i, toUse));
    ReplacedValid(h, h', h.blocks[..i], [b], mid, h.blocks[i + 1..]);
    assert h'.blocks[i + |mid|..] == h.blocks[i + 1..];
  }

  /*---------------------------------------------------------------------
   * extend_heap
   *-------------------------------------------------------------------*/

  /** `to_extend = max(size + 2 * TAGSIZE, MIN_BLOCK_SIZE)`. */
  function ExtendBy(size: nat): nat
  {
    if size + 2 * TAG_SIZE >= MIN_BLOCK_SIZE then size + 2 * TAG_SIZE else MIN_BLOCK_SIZE
  }

  /**
   * `extend_heap(size)` with a failed `mem_sbrk` passed on to the caller:
   * none when the break cannot move up by `size + 16` bytes; otherwise a
   * free block of `size` bytes appended, its header on the old epilogue,
   * the new epilogue in the last 8 bytes before the new break.
   */
  function ExtendHeap(h: Heap, size: nat): (r: Option<Heap>)
    requires Valid(h) && size >= MIN_BLOCK_SIZE
    ensures r.None? <==> h.mem.brk + size + 2 * TAG_SIZE > h.mem.maxAddr
    ensures r.Some? ==> Valid(r.value) && r.value.mem.brk == h.mem.brk + size + 2 * TAG_SIZE
    ensures r.Some? ==> |r.value.blocks| == |h.blocks| + 1 && r.value.blocks[..|h.blocks|] == h.blocks
    ensures r.Some? ==> r.value.blocks[|h.blocks|] == Tag(true, size) && Hdr(r.value, |h.blocks|) == Hdr(h, |h.blocks|)
  {
    var (got, mem') := MemSbrk(h.mem, ExtendBy(size));
    match got
    case None => None
    case Some(_) =>
      var h' := Heap(mem', h.blocks + [Tag(true, size)]);
      SpanConcat(h.blocks, [Tag(true, size)]);
      assert Span([Tag(true, size)]) == size + 16;
      assert h'.blocks[..|h.blocks|] == h.blocks == h.blocks[..|h.blocks|];
      assert Valid(h');
      Some(h')
  }

  /**
   * The writes of `extend_heap` on success: `mark_free` of the new block
   * at the old break less 8 (the old epilogue), then the fence at
   * `get_next` of it, which reads the size just written.
   */
  function ExtendWrites(h: Heap, size: nat): seq<Write>
    requires Valid(h)
  {
    var newLast := h.mem.brk - TAG_SIZE;
    [MarkFree(newLast, size), SetFence(newLast + size + 2 * TAG_SIZE)]
  }

  /** What the two writes of `extend_heap` leave at each address. */
  lemma ExtendWritten(e: nat, size: nat, a: nat)
    ensures WrittenAt([MarkFree(e, size), SetFence(e + size + 2 * TAG_SIZE)], a) ==
      if a == e + size + 2 * TAG_SIZE then Some(FENCE)
      else if a == e || a == e + TAG_SIZE + size then Some(Tag(true, size))
      else None
  {
    var ws := [MarkFree(e, size), SetFence(e + size + 2 * TAG_SIZE)];
    assert ws[..1] == [ws[0]] && [ws[0]][..0] == [];
    assert WrittenAt([ws[0]], a) == if Covers(ws[0], a) then Some(Tag(true, size)) else WrittenAt([], a);
    assert WrittenAt(ws, a) == if Covers(ws[1], a) then Some(FENCE) else WrittenAt([ws[0]], a);
  }

  /** The writes of `extend_heap` store every tag of the extended heap. */
  lemma ExtendRealises(h: Heap, size: nat)
    requires Valid(h) && size >= MIN_BLOCK_SIZE && ExtendHeap(h, size).Some?
    ensures Realises(h, ExtendWrites(h, size), ExtendHeap(h, size).value)
  {
    var h' := ExtendHeap(h, size).value;
    var ws := ExtendWrites(h, size);
    var x := Tag(true, size);
    var base := h.mem.start + 8;
    var e := h.mem.brk - TAG_SIZE;
    assert h'.blocks == h.blocks + [x];
    assert [x][1..] == [];
    SpanConcat(h.blocks, [x]);
    assert Span([x]) == size + 16;
    forall a: nat | HeapTag(h', a).Some?
      ensures HeapTag(h', a) == TagAfter(h, ws, a)
    {
      ExtendWritten(e, size, a);
      if a == h.mem.start || a == e + size + 2 * TAG_SIZE {
      } else {
        TagAtConcat(h.blocks, [x], base, a);
      }
    }
  }

  /**
   * `mem_sbrk` takes an `int`: the 64-bit `to_extend` is narrowed as GCC
   * does, to its low 32 bits read as two's complement.
   */
  function SbrkArgument(toExtend: nat): (r: int)
    ensures -0x8000_0000 <= r < 0x8000_0000
    ensures toExtend < 0x8000_0000 ==> r == toExtend
    ensures (r - toExtend) % 0x1_0000_0000 == 0
  {
    var low := toExtend % 0x1_0000_0000;
    if low >= 0x8000_0000 then low - 0x1_0000_0000 else low
  }

  /** 2^64: pointers are 64-bit, and pointer arithmetic wraps modulo this. */
  const POINTER_RANGE: nat := 0x1_0000_0000_0000_0000

  /**
   * `to_extend = max(size + 2*TAGSIZE, MIN_BLOCK_SIZE)` on `size_t`: the
   * sum wraps, so the last 16 sizes below 2^64 extend by `MIN_BLOCK_SIZE`.
   */
  function ExtendByAsWritten(size: nat): (r: nat)
    requires size < POINTER_RANGE
    ensures r >= MIN_BLOCK_SIZE && r < POINTER_RANGE
    ensures size + 2 * TAG_SIZE < POINTER_RANGE ==> r == ExtendBy(size)
    ensures size + 2 * TAG_SIZE >= POINTER_RANGE ==> r == MIN_BLOCK_SIZE
  {
    var sum := (size + 2 * TAG_SIZE) % 0x1_0000_0000_0000_0000;
    if sum >= MIN_BLOCK_SIZE then sum else MIN_BLOCK_SIZE
  }

  /** One 8-byte tag store at a 64-bit address; address 0 is a store through NULL. */
  datatype Store = Store(at: nat, tag: Tag)

  /**
   * `get_next` on 64-bit pointers, for a block whose header holds `size`:
   * NULL at the tag just below the break, the first block from the
   * prologue, else past the footer, wrapping.
   */
  function GetNextAsWritten(m: Break, cur: nat, size: nat): (r: nat)
    ensures r < POINTER_RANGE
  {
    if cur == (m.brk - TAG_SIZE) % 0x1_0000_0000_0000_0000 then 0
    else if cur == m.start then (cur + TAG_SIZE) % 0x1_0000_0000_0000_0000
    else (cur + size + 2 * TAG_SIZE) % 0x1_0000_0000_0000_0000
  }

  /**
   * `extend_heap` as written, on 64-bit pointers: the pointer it returns,
   * the break after it, and the tag stores it makes.  The increment
   * `mem_sbrk` sees is the narrowed one; a failed `mem_sbrk` gives NULL,
   * from which 8 is subtracted; the header records `size` in its 63-bit
   * field, the footer lies that many bytes past the header, and the fence
   * goes wherever `get_next` of the new block points after the break has
   * moved, NULL included.  `size` is a `size_t`, and the sum and every
   * address wrap modulo 2^64.
   */
  function ExtendHeapAsWritten(h: Heap, size: nat): (r: (nat, Break, seq<Store>))
    requires size < POINTER_RANGE
    ensures r.0 < POINTER_RANGE && |r.2| == 3
    ensures forall k :: 0 <= k < |r.2| ==> r.2[k].at < POINTER_RANGE
  {
    var (got, mem') := MemSbrk(h.mem, SbrkArgument(ExtendByAsWritten(size)));
    var start := match got case Some(b) => b case None => 0;
    var newLast := (start - TAG_SIZE) % 0x1_0000_0000_0000_0000;
    var stored := size % 0x8000_0000_0000_0000;
    var footer := (newLast + TAG_SIZE + stored) % 0x1_0000_0000_0000_0000;
    var next := GetNextAsWritten(mem', newLast, stored);
    (newLast, mem', [Store(newLast, Tag(true, stored)), Store(footer, Tag(true, stored)), Store(next, FENCE)])
  }

  /**
   * When the heap is full, `extend_heap` as written returns 2^64 - 8, not
   * NULL, so the NULL test in `mm_malloc` never fires: the header is
   * stored at 2^64 - 8, and the footer and the fence wrap round to
   * addresses `size` and `size + 8` at the bottom of memory.  The
   * corrected `ExtendHeap` reports the failure.
   */
  lemma ExtendFailureNotNull(h: Heap, size: nat)
    requires Valid(h) && MIN_BLOCK_SIZE <= size < 0x8000_0000 - 2 * TAG_SIZE
    requires h.mem.brk + size + 2 * TAG_SIZE > h.mem.maxAddr
    requires h.mem.maxAddr < POINTER_RANGE
    ensures var r := ExtendHeapAsWritten(h, size);
      && r.0 == 0xFFFF_FFFF_FFFF_FFF8 != 0
      && r.1 == h.mem
      && r.2 == [Store(0xFFFF_FFFF_FFFF_FFF8, Tag(true, size)), Store(size, Tag(true, size)), Store(size + 8, FENCE)]
    ensures ExtendHeap(h, size).None?
  {
    assert SbrkArgument(ExtendBy(size)) == size + 16;
  }

  /**
   * A request of 2^32 bytes on a fresh heap: `to_extend` narrows to 16,
   * so the break moves 16 bytes, yet `mark_free` records a 2^32-byte
   * block whose footer lies far past the new break; the corrected
   * `ExtendHeap` refuses the request, which needs more than `MAX_HEAP`.
   */
  lemma ExtendNarrowed(region: nat)
    requires region + 0x2_0000_0000 < POINTER_RANGE
    ensures var h := MemlibInit(region);
      var r := ExtendHeapAsWritten(h, 0x1_0000_0000);
      && r.1.brk == h.mem.brk + 16
      && r.2[1] == Store(h.mem.brk + 0x1_0000_0000, Tag(true, 0x1_0000_0000))
      && r.2[1].at > r.1.brk
      && ExtendHeap(h, 0x1_0000_0000).None?
  {
    var h := MemlibInit(region);
    assert SbrkArgument(ExtendBy(0x1_0000_0000)) == 16;
    assert h.mem.brk == region + 16;
    assert (h.mem.brk - TAG_SIZE) % 0x1_0000_0000_0000_0000 == h.mem.brk - TAG_SIZE;
    assert (h.mem.brk + 0x1_0000_0000) % 0x1_0000_0000_0000_0000 == h.mem.brk + 0x1_0000_0000;
  }

  /**
   * A request of 2^32 - 16 bytes: `to_extend` = 2^32 narrows to 0, so
   * `mem_sbrk(0)` succeeds without moving the break.  The new block's
   * header is then the epilogue itself, `get_next` takes its tail case and
   * returns NULL, and the fence is stored through NULL.
   */
  lemma ExtendNarrowedToZero(h: Heap)
    requires Valid(h) && h.mem.maxAddr < POINTER_RANGE
    ensures var r := ExtendHeapAsWritten(h, 0xFFFF_FFF0);
      && r.0 == h.mem.brk - TAG_SIZE != 0
      && r.1 == h.mem
      && r.2[2] == Store(0, FENCE)
    ensures ExtendHeap(h, 0xFFFF_FFF0).None?
  {
    assert SbrkArgument(ExtendBy(0xFFFF_FFF0)) == 0;
  }

  /**
   * A request within 16 bytes of 2^64, here `2^64 - 8`: `size + 16`
   * wraps to 8, the `max` picks 16, and the break moves 16 bytes, yet
   * `mark_free` records a block of 2^63 - 8 bytes, the size truncated to
   * the 63-bit field, whose footer lies far past the break.  The
   * corrected `ExtendHeap` refuses the request.
   */
  lemma ExtendHugeWraps(region: nat)
    requires region + 0x8000_0000_0000_0010 < POINTER_RANGE
    ensures var h := MemlibInit(region);
      var r := ExtendHeapAsWritten(h, 0xFFFF_FFFF_FFFF_FFF8);
      && r.1.brk == h.mem.brk + 16
      && r.2[0] == Store(h.mem.brk - TAG_SIZE, Tag(true, 0x7FFF_FFFF_FFFF_FFF8))
      && r.2[1].at == h.mem.brk + 0x7FFF_FFFF_FFFF_FFF8 > r.1.brk
      && ExtendHeap(h, 0xFFFF_FFFF_FFFF_FFF8).None?
  {
    var h := MemlibInit(region);
    assert ExtendByAsWritten(0xFFFF_FFFF_FFFF_FFF8) == 16;
    assert SbrkArgument(16) == 16;
    assert h.mem.brk == region + 16;
    assert (h.mem.brk - TAG_SIZE) % 0x1_0000_0000_0000_0000 == h.mem.brk - TAG_SIZE;
    assert (h.mem.brk + 0x7FFF_FFFF_FFFF_FFF8) % 0x1_0000_0000_0000_0000 == h.mem.brk + 0x7FFF_FFFF_FFFF_FFF8;
  }

  /*---------------------------------------------------------------------
   * memlib_init
   *-------------------------------------------------------------------*/

  /**
   * `memlib_init` on the region obtained from the kernel (syscall 1, the
   * pages for `MAX_HEAP`): the break at the start, then `mem_sbrk(16)`
   * for the two fences, no blocks.
   */
  function MemlibInit(region: nat): (h: Heap)
    ensures Valid(h) && h.blocks == [] && h.mem.start == region
    ensures HeapTag(h, region) == Some(FENCE) && HeapTag(h, region + TAG_SIZE) == Some(FENCE)
  {
    var (_, mem) := MemSbrk(Break(region, region, region + MAX_HEAP), MIN_BLOCK_SIZE);
    assert mem == Break(region, region + 16, region + MAX_HEAP) && Span([]) == 0;
    Heap(mem, [])
  }

  /*---------------------------------------------------------------------
   * coalesce
   *-------------------------------------------------------------------*/

  /** The tag at header `j`: block `j`'s, or the epilogue for `j == |blocks|`. */
  lemma HeaderTag(h: Heap, j: nat)
    requires Valid(h) && j <= |h.blocks|
    ensures HeapTag(h, Hdr(h, j)) == Some(if j < |h.blocks| then h.blocks[j] else FENCE)
  {
    if j < |h.blocks| {
      NextOfBlock(h, j);
    } else {
      EpilogueAt(h);
    }
  }

  /**
   * Freeing block `i` merges it with a free neighbour on either side; the
   * epilogue counts as used.  The result is the first block of the merged
   * run, its length, and the size of the merged block.
   */
  function Merge(bs: seq<Tag>, i: nat): (r: (nat, nat, nat))
    requires i < |bs|
    ensures r.0 <= i < r.0 + r.1 <= |bs| && 1 <= r.1 <= 3
  {
    var prevFree := i > 0 && bs[i - 1].free;
    var nextFree := i + 1 < |bs| && bs[i + 1].free;
    if prevFree && nextFree then (i - 1, 3, bs[i - 1].size + bs[i + 1].size + bs[i].size + 4 * TAG_SIZE)
    else if prevFree then (i - 1, 2, bs[i - 1].size + bs[i].size + 2 * TAG_SIZE)
    else if nextFree then (i, 2, bs[i + 1].size + bs[i].size + 2 * TAG_SIZE)
    else (i, 1, bs[i].size)
  }

  /** `coalesce` on block `i` of the list: the merged run becomes one free block. */
  function Coalesce(h: Heap, i: nat): Heap
    requires i < |h.blocks|
  {
    var (lo, k, size) := Merge(h.blocks, i);
    h.(blocks := h.blocks[..lo] + [Tag(true, size)] + h.blocks[lo + k..])
  }

  /**
   * `coalesce(cur)` as C computes its one write from the tags it reads:
   * the previous block counts as used when the tag just below `cur` has
   * size 0 (the prologue), else `get_prev` gives it; `get_next` gives the
   * next block, the epilogue being used.  The merged block is marked free
   * from the previous header when the previous block is free, else from
   * `cur`.
   */
  function CoalesceWrites(h: Heap, i: nat): seq<Write>
    requires Valid(h) && i < |h.blocks|
  {
    var cur := Hdr(h, i);
    PrevOfBlock(h, i);
    NextOfBlock(h, i);
    HeaderTag(h, i + 1);
    var curSize := HeapTag(h, cur).value.size;
    var next := HeapTag(h, GetNext(h, cur).value).value;
    var (prevFree, prevSize) :=
      if HeapTag(h, cur - TAG_SIZE).value.size == 0 then (false, 0)
      else (
        NextOfBlock(h, i - 1);
        var prev := HeapTag(h, GetPrev(h, cur).value as nat).value;
        (prev.free, prev.size));
    if prevFree && next.free then [MarkFree(GetPrev(h, cur).value as nat, prevSize + next.size + curSize + 4 * TAG_SIZE)]
    else if prevFree then [MarkFree(GetPrev(h, cur).value as nat, prevSize + curSize + 2 * TAG_SIZE)]
    else if next.free then [MarkFree(cur, next.size + curSize + 2 * TAG_SIZE)]
    else [MarkFree(cur, curSize)]
  }

  /** A run of blocks grows by one block's bytes. */
  lemma RunStep(bs: seq<Tag>, lo: nat, k: nat)
    requires lo + k < |bs|
    ensures Span(bs[lo..lo + k + 1]) == Span(bs[lo..lo + k]) + bs[lo + k].size + 16
  {
    assert bs[lo..lo + k + 1] == bs[lo..lo + k] + [bs[lo + k]];
    SpanConcat(bs[lo..lo + k], [bs[lo + k]]);
    assert Span([bs[lo + k]]) == bs[lo + k].size + 16;
  }

  /** The merged block takes exactly the bytes of the run it replaces. */
  lemma MergeSpan(bs: seq<Tag>, i: nat)
    requires i < |bs|
    ensures var (lo, k, size) := Merge(bs, i); Span(bs[lo..lo + k]) == size + 16
  {
    var (lo, k, size) := Merge(bs, i);
    assert bs[lo..lo] == [];
    RunStep(bs, lo, 0);
    if k >= 2 {
      RunStep(bs, lo, 1);
    }
    if k == 3 {
      RunStep(bs, lo, 2);
    }
  }

  /** The single write of `coalesce` is the mark of the merged block at its header. */
  lemma CoalesceWriteIs(h: Heap, i: nat)
    requires Valid(h) && i < |h.blocks|
    ensures var (lo, k, size) := Merge(h.blocks, i);
      CoalesceWrites(h, i) == [Mark(Hdr(h, lo), Tag(true, size))]
  {
    PrevOfBlock(h, i);
    NextOfBlock(h, i);
    HeaderTag(h, i + 1);
    if i > 0 {
      NextOfBlock(h, i - 1);
    }
  }

  /** The blocks `lo .. lo + k` of `h` replaced in `h'` by one free block of their bytes. */
  predicate MergedRun(h: Heap, h': Heap, lo: nat, k: nat, size: nat)
  {
    && lo + k <= |h.blocks| && h'.mem == h.mem
    && h'.blocks == h.blocks[..lo] + [Tag(true, size)] + h.blocks[lo + k..]
    && Span(h.blocks[lo..lo + k]) == size + 16
  }

  /** One mark of the merged block at the run's first header realises the merged list. */
  lemma MergedRealises(h: Heap, h': Heap, lo: nat, k: nat, size: nat)
    requires Valid(h) && MergedRun(h, h', lo, k, size)
    ensures Realises(h, [Mark(Hdr(h, lo), Tag(true, size))], h')
  {
    var mid := [Tag(true, size)];
    assert Span(mid) == size + 16;
    OneMarkWritten(Hdr(h, lo), mid[0]);
    assert h.blocks[..lo + k] == h.blocks[..lo] + h.blocks[lo..lo + k];
    SpanConcat(h.blocks[..lo], h.blocks[lo..lo + k]);
    ReplaceRegion(h, h', lo, k, mid, [Mark(Hdr(h, lo), Tag(true, size))]);
  }

  /** The merged block starts where the run did and ends where it did. */
  lemma MergedHdrs(h: Heap, h': Heap, lo: nat, k: nat, size: nat)
    requires Valid(h) && MergedRun(h, h', lo, k, size)
    ensures lo < |h'.blocks| && Hdr(h', lo) == Hdr(h, lo) && Hdr(h', lo + 1) == Hdr(h, lo + k)
  {
    assert h'.blocks[..lo] == h.blocks[..lo];
    assert h'.blocks[..lo + 1] == h.blocks[..lo] + [Tag(true, size)];
    SpanConcat(h.blocks[..lo], [Tag(true, size)]);
    assert Span([Tag(true, size)]) == size + 16;
    assert h.blocks[..lo + k] == h.blocks[..lo] + h.blocks[lo..lo + k];
    SpanConcat(h.blocks[..lo], h.blocks[lo..lo + k]);
  }

  /** `Coalesce` replaces the run `Merge` finds by one free block of its bytes. */
  lemma CoalesceMerges(h: Heap, i: nat)
    requires i < |h.blocks|
    ensures var (lo, k, size) := Merge(h.blocks, i); MergedRun(h, Coalesce(h, i), lo, k, size)
  {
    MergeSpan(h.blocks, i);
  }

  /** The single write of `coalesce` realises the merged list. */
  lemma CoalesceRealises(h: Heap, i: nat)
    requires Valid(h) && i < |h.blocks|
    ensures Realises(h, CoalesceWrites(h, i), Coalesce(h, i))
  {
    var (lo, k, size) := Merge(h.blocks, i);
    CoalesceMerges(h, i);
    CoalesceWriteIs(h, i);
    MergedRealises(h, Coalesce(h, i), lo, k, size);
  }

  /** `coalesce` keeps the heap valid: the merged block has the bytes of the run it replaces. */
  lemma CoalesceValid(h: Heap, i: nat)
    requires Valid(h) && i < |h.blocks|
    ensures Valid(Coalesce(h, i))
  {
    var (lo, k, size) := Merge(h.blocks, i);
    MergeSpan(h.blocks, i);
    assert Span([Tag(true, size)]) == size + 16;
    assert h.blocks == h.blocks[..lo] + h.blocks[lo..lo + k] + h.blocks[lo + k..];
    ReplacedValid(h, Coalesce(h, i), h.blocks[..lo], h.blocks[lo..lo + k], [Tag(true, size)], h.blocks[lo + k..]);
  }

  /** The merged run becomes one free block of the merged size; the blocks around it stay as they were. */
  lemma CoalesceShape(h: Heap, i: nat)
    requires i < |h.blocks|
    ensures var h' := Coalesce(h, i); var (lo, k, size) := Merge(h.blocks, i);
      && h'.mem == h.mem && |h'.blocks| == |h.blocks| - k + 1 && h'.blocks[lo] == Tag(true, size)
      && h'.blocks[..lo] == h.blocks[..lo] && h'.blocks[lo + 1..] == h.blocks[lo + k..]
  {
  }

  /** The merged block starts at or before block `i` and ends at or after it. */
  lemma CoalesceHdrs(h: Heap, i: nat)
    requires Valid(h) && i < |h.blocks|
    ensures var h' := Coalesce(h, i); var lo := Merge(h.blocks, i).0;
      lo < |h'.blocks| && Hdr(h', lo) == Hdr(h, lo) <= Hdr(h, i) && Hdr(h, i + 1) <= Hdr(h', lo + 1)
  {
    var (lo, k, size) := Merge(h.blocks, i);
    CoalesceMerges(h, i);
    MergedHdrs(h, Coalesce(h, i), lo, k, size);
    HdrMonotone(h, lo, i);
    HdrMonotone(h, i + 1, lo + k);
  }

  /** Headers rise with the block index. */
  lemma HdrMonotone(h: Heap, j: nat, k: nat)
    requires j <= k <= |h.blocks|
    ensures Hdr(h, j) <= Hdr(h, k)
  {
    assert h.blocks[..k] == h.blocks[..j] + h.blocks[j..k];
    SpanConcat(h.blocks[..j], h.blocks[j..k]);
  }

  /** No two neighbouring blocks are both free: what `coalesce` and `split` keep. */
  predicate Coalesced(bs: seq<Tag>)
  {
    forall j :: 0 <= j < |bs| - 1 ==> !(bs[j].free && bs[j + 1].free)
  }

  /** `coalesce` keeps neighbouring free blocks apart, whether or not block `i` was free. */
  lemma CoalescePreserves(h: Heap, i: nat)
    requires i < |h.blocks| && Coalesced(h.blocks)
    ensures Coalesced(Coalesce(h, i).blocks)
  {
    var bs := h.blocks;
    var bs' := Coalesce(h, i).blocks;
    var (lo, k, size) := Merge(bs, i);
    forall j | 0 <= j < |bs'| - 1
      ensures !(bs'[j].free && bs'[j + 1].free)
    {
      if j + 1 < lo {
        assert bs'[j] == bs[j] && bs'[j + 1] == bs[j + 1];
      } else if j + 1 == lo {
        assert bs'[j] == bs[j];
      } else if j == lo {
        assert bs'[j + 1] == bs[lo + k];
      } else {
        assert bs'[j] == bs[j + k - 1] && bs'[j + 1] == bs[j + k];
      }
    }
  }

  /** `split` of a free block keeps neighbouring free blocks apart. */
  lemma SplitPreserves(h: Heap, i: nat, toUse: nat)
    requires i < |h.blocks| && Coalesced(h.blocks) && h.blocks[i].free
    ensures Coalesced(Split(h, i, toUse).blocks)
  {
    var bs := h.blocks;
    var mid := SplitBlocks(bs[i], toUse);
    var bs' := Split(h, i, toUse).blocks;
    var m := |mid|;
    forall j | 0 <= j < |bs'| - 1
      ensures !(bs'[j].free && bs'[j + 1].free)
    {
      if j + 1 < i {
        assert bs'[j] == bs[j] && bs'[j + 1] == bs[j + 1];
      } else if j + 1 < i + m {
        assert bs'[j + 1] == mid[j + 1 - i];
      } else if j + 1 == i + m {
        assert bs'[j] == mid[m - 1] && bs'[j + 1] == bs[i + 1];
      } else {
        assert bs'[j] == bs[j - m + 1] && bs'[j + 1] == bs[j - m + 2];
      }
    }
  }

  /** A used block appended to blocks with no free neighbours leaves none. */
  lemma AppendUsed(bs: seq<Tag>, t: Tag)
    requires Coalesced(bs) && !t.free
    ensures Coalesced(bs + [t])
  {
    var bs' := bs + [t];
    forall j | 0 <= j < |bs'| - 1
      ensures !(bs'[j].free && bs'[j + 1].free)
    {
      assert bs'[j] == bs[j];
    }
  }

  /*---------------------------------------------------------------------
   * mm_malloc, mm_free, mm_realloc
   *-------------------------------------------------------------------*/

  /** The allocator: before `memlib_init` (`mem_max_addr` still NULL), or a heap. */
  datatype Mm = Uninit | Ready(heap: Heap)

  /** A state the operations accept: a heap, once there is one, is valid. */
  predicate Good(mm: Mm)
  {
    mm.Ready? ==> Valid(mm.heap)
  }

  /** The heap after `if(!mem_max_addr) memlib_init()`, with `region` the memory the kernel hands out. */
  function Started(mm: Mm, region: nat): (h: Heap)
    requires Good(mm)
    ensures Valid(h)
    ensures mm.Uninit? ==> h.blocks == [] && h.mem.start == region
  {
    match mm
    case Uninit => MemlibInit(region)
    case Ready(h) => h
  }

  /** `size = max(MIN_BLOCK_SIZE, size)`. */
  function Request(size: nat): (s: nat)
    ensures s >= MIN_BLOCK_SIZE && s >= size
    ensures size >= MIN_BLOCK_SIZE ==> s == size
  {
    if MIN_BLOCK_SIZE >= size then MIN_BLOCK_SIZE else size
  }

  /**
   * The block `mm_malloc` hands out for `s` bytes, before `split`: the
   * first fit in `h`, else the block `extend_heap` appends; none when the
   * heap cannot grow.
   */
  function Placement(h: Heap, s: nat): (r: Option<(nat, Heap)>)
    requires Valid(h) && s >= MIN_BLOCK_SIZE
    ensures r.Some? ==> Valid(r.value.1) && r.value.0 < |r.value.1.blocks| && Fits(r.value.1.blocks[r.value.0], s)
    ensures r.Some? ==> r.value.1.mem.start == h.mem.start && Hdr(r.value.1, r.value.0) <= Hdr(h, |h.blocks|)
    ensures r.None? ==> FirstFit(h.blocks, s).None? && h.mem.brk + s + 2 * TAG_SIZE > h.mem.maxAddr
  {
    match FirstFit(h.blocks, s)
    case Some(i) =>
      HdrMonotone(h, i, |h.blocks|);
      Some((i, h))
    case None =>
      match ExtendHeap(h, s)
      case None => None
      case Some(h1) => Some((|h.blocks|, h1))
  }

  /** The block placed for a request of at least `MIN_BLOCK_SIZE` bytes stays apart from free neighbours once split. */
  lemma PlacementPreserves(h: Heap, s: nat)
    requires Valid(h) && s >= MIN_BLOCK_SIZE && Placement(h, s).Some? && Coalesced(h.blocks)
    ensures var (i, h1) := Placement(h, s).value; Coalesced(Split(h1, i, s).blocks)
  {
    var (i, h1) := Placement(h, s).value;
    if FirstFit(h.blocks, s).Some? {
      SplitPreserves(h, i, s);
    } else {
      var n := |h.blocks|;
      assert h1.blocks[..n] == h.blocks && h1.blocks[n + 1..] == [];
      assert Split(h1, i, s).blocks == h.blocks + [Tag(false, s)];
      AppendUsed(h.blocks, Tag(false, s));
    }
  }

  /**
   * `mm_malloc(size)`: NULL for size 0; otherwise the payload of a used
   * block of at least `size` bytes, or NULL with the heap unchanged when
   * no block fits and the heap cannot grow.  The heap stays valid, and a
   * heap without neighbouring free blocks stays so.
   */
  function MmMalloc(mm: Mm, region: nat, size: nat): (r: (Option<nat>, Mm))
    requires Good(mm)
    ensures r.1.Ready? && Valid(r.1.heap) && r.1.heap.mem.start == Started(mm, region).mem.start
    ensures size == 0 ==> r == (None, Ready(Started(mm, region)))
    ensures r.0.Some? ==> exists j :: (0 <= j < |r.1.heap.blocks| && r.0.value == Payload(r.1.heap, j)
      && !r.1.heap.blocks[j].free && r.1.heap.blocks[j].size >= size)
    ensures size > 0 && r.0.None? ==> r.1.heap == Started(mm, region)
    ensures Coalesced(Started(mm, region).blocks) ==> Coalesced(r.1.heap.blocks)
  {
    var h := Started(mm, region);
    if size == 0 then (None, Ready(h))
    else
      var s := Request(size);
      match Placement(h, s)
      case None => (None, Ready(h))
      case Some((i, h1)) =>
        SplitSpec(h1, i, s);
        if Coalesced(h.blocks) then PlacementPreserves(h, s); (Some(Payload(h1, i)), Ready(Split(h1, i, s)))
        else (Some(Payload(h1, i)), Ready(Split(h1, i, s)))
  }

  /**
   * The tag writes `mm_malloc` makes for a placed request: those of
   * `extend_heap` when no block fits, then those of `split`.
   */
  function PlacementWrites(h: Heap, s: nat): seq<Write>
    requires Valid(h) && s >= MIN_BLOCK_SIZE && Placement(h, s).Some?
  {
    var (i, h1) := Placement(h, s).value;
    var grown := if FirstFit(h.blocks, s).Some? then [] else ExtendWrites(h, s);
    grown + SplitWrites(h1, i, s)
  }

  /** The writes of `mm_malloc`, applied to the heap's memory, store every tag of the heap it leaves. */
  lemma MallocRealises(h: Heap, s: nat)
    requires Valid(h) && s >= MIN_BLOCK_SIZE && Placement(h, s).Some?
    ensures var (i, h1) := Placement(h, s).value; Realises(h, PlacementWrites(h, s), Split(h1, i, s))
  {
    var (i, h1) := Placement(h, s).value;
    SplitSpec(h1, i, s);
    if FirstFit(h.blocks, s).Some? {
      assert [] + SplitWrites(h1, i, s) == SplitWrites(h1, i, s);
    } else {
      ExtendRealises(h, s);
      RealisesCompose(h, ExtendWrites(h, s), h1, SplitWrites(h1, i, s), Split(h1, i, s));
    }
  }

  /**
   * `mm_malloc` is first fit: with a block that fits, it hands out the
   * first such block's payload; otherwise it grows the heap and hands out
   * the payload at the old epilogue, or fails exactly when the break
   * cannot move.
   */
  lemma MallocPlaces(mm: Mm, region: nat, size: nat)
    requires Good(mm) && size > 0
    ensures var h := Started(mm, region); var r := MmMalloc(mm, region, size);
      && (FirstFit(h.blocks, Request(size)).Some? ==> r.0 == Some(Payload(h, FirstFit(h.blocks, Request(size)).value)))
      && (FirstFit(h.blocks, Request(size)).None? ==>
            (r.0.None? <==> h.mem.brk + Request(size) + 2 * TAG_SIZE > h.mem.maxAddr)
            && (r.0.Some? ==> r.0 == Some(h.mem.brk)))
  {
    var h := Started(mm, region);
    var s := Request(size);
    EpilogueAt(h);
  }

  /** The block whose payload is `addr`, searched from block `from` on. */
  function BlockOf(h: Heap, addr: nat, from: nat): (r: Option<nat>)
    requires from <= |h.blocks|
    ensures r.Some? ==> from <= r.value < |h.blocks| && Payload(h, r.value) == addr
    ensures r.None? ==> forall j :: from <= j < |h.blocks| ==> Payload(h, j) != addr
    decreases |h.blocks| - from
  {
    if from == |h.blocks| then None
    else if Payload(h, from) == addr then Some(from)
    else BlockOf(h, addr, from + 1)
  }

  /** What `mm_free` may be given: NULL, or the payload of a block of the heap. */
  predicate Freeable(mm: Mm, addr: nat)
  {
    addr == 0 || (mm.Ready? && BlockOf(mm.heap, addr, 0).Some?)
  }

  /**
   * `mm_free(addr)`: nothing for NULL; otherwise `coalesce` of the header
   * at `addr - TAGSIZE`.  The bytes of `addr` then lie in a free block,
   * the break does not move, and a heap without neighbouring free blocks
   * stays so.
   */
  function MmFree(mm: Mm, addr: nat): (r: Mm)
    requires Good(mm) && Freeable(mm, addr)
    ensures Good(r)
    ensures addr == 0 ==> r == mm
    ensures addr != 0 ==> (r.Ready? && r.heap.mem == mm.heap.mem
      && exists j :: 0 <= j < |r.heap.blocks| && r.heap.blocks[j].free && Hdr(r.heap, j) < addr < Hdr(r.heap, j + 1))
    ensures addr != 0 && Coalesced(mm.heap.blocks) ==> Coalesced(r.heap.blocks)
  {
    if addr == 0 then mm
    else
      var i := BlockOf(mm.heap, addr, 0).value;
      CoalesceValid(mm.heap, i);
      CoalesceShape(mm.heap, i);
      CoalesceHdrs(mm.heap, i);
      SpanStep(mm.heap.blocks, i);
      if Coalesced(mm.heap.blocks) then CoalescePreserves(mm.heap, i); Ready(Coalesce(mm.heap, i))
      else Ready(Coalesce(mm.heap, i))
  }

  /**
   * `mm_realloc(addr, size)`: NULL for size 0, the block left alone;
   * otherwise `mm_free(addr)` then `mm_malloc(size)`, without copying the
   * contents.  The heap stays valid and without neighbouring free blocks.
   */
  function MmRealloc(mm: Mm, region: nat, addr: nat, size: nat): (r: (Option<nat>, Mm))
    requires Good(mm) && Freeable(Ready(Started(mm, region)), addr)
    ensures r.1.Ready? && Valid(r.1.heap) && r.1.heap.mem.start == Started(mm, region).mem.start
    ensures size == 0 ==> r == (None, Ready(Started(mm, region)))
    ensures r.0.Some? ==> exists j :: (0 <= j < |r.1.heap.blocks| && r.0.value == Payload(r.1.heap, j)
      && !r.1.heap.blocks[j].free && r.1.heap.blocks[j].size >= size)
    ensures Coalesced(Started(mm, region).blocks) ==> Coalesced(r.1.heap.blocks)
  {
    var h := Started(mm, region);
    if size == 0 then (None, Ready(h))
    else MmMalloc(MmFree(Ready(h), addr), region, size)
  }

  /**
   * Freeing a block and asking for no more than it held hands out a block
   * no later than it: the freed bytes are free and first fit stops there
   * at the latest.  So `mm_realloc` to a size that fits never moves a
   * block up.
   */
  lemma FreeThenMalloc(h: Heap, region: nat, addr: nat, size: nat)
    requires Valid(h) && addr != 0 && Freeable(Ready(h), addr) && size > 0
    requires h.blocks[BlockOf(h, addr, 0).value].size >= Request(size)
    ensures var r := MmMalloc(MmFree(Ready(h), addr), region, size); r.0.Some? && r.0.value <= addr
  {
    var i := BlockOf(h, addr, 0).value;
    var h' := Coalesce(h, i);
    var lo := Merge(h.blocks, i).0;
    MergedCovers(h, i);
    assert Fits(h'.blocks[lo], Request(size));
    var j := FirstFit(h'.blocks, Request(size)).value;
    HdrMonotone(h', j, lo);
    MallocPlaces(Ready(h'), region, size);
  }

  /** The merged block of `coalesce` is free, starts no later than block `i` and holds at least its bytes. */
  lemma MergedCovers(h: Heap, i: nat)
    requires Valid(h) && i < |h.blocks|
    ensures var h' := Coalesce(h, i); var lo := Merge(h.blocks, i).0;
      && Valid(h') && lo < |h'.blocks| && h'.blocks[lo].free && h'.blocks[lo].size >= h.blocks[i].size
      && Hdr(h', lo) <= Hdr(h, i)
  {
    var lo := Merge(h.blocks, i).0;
    CoalesceValid(h, i);
    assert Coalesce(h, i).blocks[..lo] == h.blocks[..lo];
    HdrMonotone(h, lo, i);
  }
}

=== FILE: heap_layout.dfy ===
/**
 * The memory layout of the user heap of mm.c (tags in userinc/mm.h).
 *
 * The heap region runs from `mem_start_brk` to `mem_brk`: a prologue
 * fence tag, the blocks, an epilogue fence tag.  A block is an 8-byte
 * header tag `(free, size)`, `size` payload bytes and an 8-byte footer tag
 * equal to the header.  The heap is modelled as the ordered list of the
 * blocks' tags; every address is derived from the list, and `HeapTag`
 * says which tag a valid heap holds at an address.  The C navigation
 * functions (`get_next`, `get_prev`, `get_footer`) read those tags and are
 * shown to agree with the list.
 */
module HeapLayout {
  import opened Wrappers

  /** `TAGSIZE`: `sizeof(boundary_block_t)`. */
  const TAG_SIZE: nat := 8
  /** `MIN_BLOCK_SIZE`. */
  const MIN_BLOCK_SIZE: nat := 16
  /** `MAX_HEAP`: `1024 * (1 << 17)` bytes, 128 MiB. */
  const MAX_HEAP: nat := 0x800_0000

  /** `boundary_block_t`: a free bit and a 63-bit size. */
  datatype Tag = Tag(free: bool, size: nat)

  /** The prologue and epilogue fences: used, size 0. */
  const FENCE: Tag := Tag(false, 0)

  /** Bytes taken by the blocks `bs`: each its payload and two tags. */
  function Span(bs: seq<Tag>): nat
  {
    if |bs| == 0 then 0 else bs[0].size + 16 + Span(bs[1..])
  }

  lemma {:induction false} SpanConcat(xs: seq<Tag>, ys: seq<Tag>)
    ensures Span(xs + ys) == Span(xs) + Span(ys)
  {
    if |xs| == 0 {
      assert xs + ys == ys;
    } else {
      assert (xs + ys)[0] == xs[0] && (xs + ys)[1..] == xs[1..] + ys;
      SpanConcat(xs[1..], ys);
    }
  }

  /** The block after the first `i` starts `bs[i].size + 16` bytes after block `i`. */
  lemma SpanStep(bs: seq<Tag>, i: nat)
    requires i < |bs|
    ensures Span(bs[..i + 1]) == Span(bs[..i]) + bs[i].size + 16
  {
    assert bs[..i + 1] == bs[..i] + [bs[i]];
    SpanConcat(bs[..i], [bs[i]]);
  }

  /**
   * The tag that the blocks `bs`, laid out from address `base`, hold at
   * address `a`: block 0's header at `base`, its footer at
   * `base + 8 + size`, then the rest from `base + size + 16`.
   */
  function TagAt(bs: seq<Tag>, base: nat, a: nat): Option<Tag>
  {
    if |bs| == 0 then None
    else if a == base || a == base + 8 + bs[0].size then Some(bs[0])
    else TagAt(bs[1..], base + bs[0].size + 16, a)
  }

  /** No tag lies outside the blocks' bytes. */
  lemma {:induction false} TagAtOutside(bs: seq<Tag>, base: nat, a: nat)
    requires a < base || a >= base + Span(bs)
    ensures TagAt(bs, base, a) == None
  {
    if |bs| > 0 {
      TagAtOutside(bs[1..], base + bs[0].size + 16, a);
    }
  }

  /** Two runs of blocks laid out one after the other hold the tags of each. */
  lemma {:induction false} TagAtConcat(xs: seq<Tag>, ys: seq<Tag>, base: nat, a: nat)
    ensures TagAt(xs + ys, base, a) ==
      if a < base + Span(xs) then TagAt(xs, base, a) else TagAt(ys, base + Span(xs), a)
  {
    if |xs| == 0 {
      assert xs + ys == ys;
      if a < base {
        TagAtOutside(ys, base, a);
      }
    } else {
      assert (xs + ys)[0] == xs[0] && (xs + ys)[1..] == xs[1..] + ys;
      TagAtConcat(xs[1..], ys, base + xs[0].size + 16, a);
      if a < base {
        TagAtOutside(xs, base, a);
        TagAtOutside(xs + ys, base, a);
      }
    }
  }

  /** Block `i` of `bs` has its header and its footer at the offsets the list gives. */
  lemma BlockTags(bs: seq<Tag>, base: nat, i: nat)
    requires i < |bs|
    ensures TagAt(bs, base, base + Span(bs[..i])) == Some(bs[i])
    ensures TagAt(bs, base, base + Span(bs[..i]) + 8 + bs[i].size) == Some(bs[i])
  {
    assert bs == bs[..i] + bs[i..];
    var a := base + Span(bs[..i]);
    TagAtConcat(bs[..i], bs[i..], base, a);
    TagAtConcat(bs[..i], bs[i..], base, a + 8 + bs[i].size);
  }

  /** Inside a block's payload there is no tag. */
  lemma PayloadUntagged(bs: seq<Tag>, base: nat, i: nat, a: nat)
    requires i < |bs|
    requires base + Span(bs[..i]) < a < base + Span(bs[..i]) + 8 + bs[i].size
    ensures TagAt(bs, base, a) == None
  {
    assert bs == bs[..i] + bs[i..];
    TagAtConcat(bs[..i], bs[i..], base, a);
    TagAtOutside(bs[i..][1..], base + Span(bs[..i]) + bs[i].size + 16, a);
  }

  /*---------------------------------------------------------------------
   * The heap
   *-------------------------------------------------------------------*/

  /** `mem_start_brk`, `mem_brk` and `mem_max_addr`. */
  datatype Break = Break(start: nat, brk: nat, maxAddr: nat)

  /** The break record and the blocks between the fences. */
  datatype Heap = Heap(mem: Break, blocks: seq<Tag>)

  /**
   * A heap as mm.c keeps it: the prologue at `start`, the blocks from
   * `start + 8`, the epilogue in the last 8 bytes before the break, the
   * break at most `MAX_HEAP` past the start, every block at least
   * `MIN_BLOCK_SIZE` bytes.
   */
  predicate Valid(h: Heap)
  {
    && h.mem.brk == h.mem.start + 16 + Span(h.blocks)
    && h.mem.maxAddr == h.mem.start + MAX_HEAP
    && h.mem.brk <= h.mem.maxAddr
    && forall i :: 0 <= i < |h.blocks| ==> h.blocks[i].size >= MIN_BLOCK_SIZE
  }

  /** Header address of block `i`; for `i == |blocks|`, the epilogue. */
  function Hdr(h: Heap, i: nat): nat
    requires i <= |h.blocks|
  {
    h.mem.start + 8 + Span(h.blocks[..i])
  }

  /** The address `malloc` hands out for block `i`: just past its header (`get_payload`). */
  function Payload(h: Heap, i: nat): nat
    requires i <= |h.blocks|
  {
    Hdr(h, i) + TAG_SIZE
  }

  /** The tag a heap holds at address `a`: a fence, a header or footer, or none. */
  function HeapTag(h: Heap, a: nat): Option<Tag>
  {
    if a == h.mem.start || a == h.mem.start + 8 + Span(h.blocks) then Some(FENCE)
    else TagAt(h.blocks, h.mem.start + 8, a)
  }

  /*---------------------------------------------------------------------
   * The C navigation over the tags
   *-------------------------------------------------------------------*/

  /** `get_next`: none past the epilogue, the first block after the prologue, else past the footer. */
  function GetNext(h: Heap, a: nat): Option<nat>
    requires HeapTag(h, a).Some?
  {
    if a + TAG_SIZE == h.mem.brk then None
    else if a == h.mem.start then Some(a + TAG_SIZE)
    else Some(a + HeapTag(h, a).value.size + 2 * TAG_SIZE)
  }

  /** `get_prev`: none from the prologue, else back over the previous footer's size. */
  function GetPrev(h: Heap, a: nat): Option<int>
    requires a != h.mem.start ==> a >= TAG_SIZE && HeapTag(h, a - TAG_SIZE).Some?
  {
    if a == h.mem.start then None
    else Some(a - 2 * TAG_SIZE - HeapTag(h, a - TAG_SIZE).value.size)
  }

  /** `get_footer`: past the header and the payload. */
  function GetFooter(h: Heap, a: nat): nat
    requires HeapTag(h, a).Some?
  {
    a + TAG_SIZE + HeapTag(h, a).value.size
  }

  /** The epilogue is the last tag before the break. */
  lemma EpilogueAt(h: Heap)
    requires Valid(h)
    ensures Hdr(h, |h.blocks|) + TAG_SIZE == h.mem.brk
    ensures HeapTag(h, Hdr(h, |h.blocks|)) == Some(FENCE)
  {
    assert h.blocks[..|h.blocks|] == h.blocks;
  }

  /** From the prologue `get_next` reaches block 0 (or the epilogue of an empty heap). */
  lemma NextOfPrologue(h: Heap)
    requires Valid(h)
    ensures HeapTag(h, h.mem.start) == Some(FENCE)
    ensures GetNext(h, h.mem.start) == Some(Hdr(h, 0))
  {
    assert h.blocks[..0] == [];
  }

  /** Block `i`'s header and footer hold its tag, and `get_next` and `get_footer` follow the list. */
  lemma NextOfBlock(h: Heap, i: nat)
    requires Valid(h) && i < |h.blocks|
    ensures HeapTag(h, Hdr(h, i)) == Some(h.blocks[i])
    ensures GetFooter(h, Hdr(h, i)) == Hdr(h, i + 1) - TAG_SIZE
    ensures HeapTag(h, GetFooter(h, Hdr(h, i))) == Some(h.blocks[i])
    ensures GetNext(h, Hdr(h, i)) == Some(Hdr(h, i + 1))
  {
    var bs := h.blocks;
    SpanStep(bs, i);
    assert bs == bs[..i + 1] + bs[i + 1..];
    SpanConcat(bs[..i + 1], bs[i + 1..]);
    BlockTags(bs, h.mem.start + 8, i);
  }

  /** `get_next` from the epilogue is NULL. */
  lemma NextOfEpilogue(h: Heap)
    requires Valid(h)
    ensures HeapTag(h, Hdr(h, |h.blocks|)) == Some(FENCE)
    ensures GetNext(h, Hdr(h, |h.blocks|)) == None
  {
    EpilogueAt(h);
  }

  /**
   * The tag just below header `i` (`cur_block - 1`) is the prologue for
   * block 0 and block `i - 1`'s footer otherwise; so its size is 0 exactly
   * for block 0, and otherwise `get_prev` reaches block `i - 1`.
   */
  lemma PrevOfBlock(h: Heap, i: nat)
    requires Valid(h) && i <= |h.blocks|
    ensures HeapTag(h, Hdr(h, i) - TAG_SIZE) == Some(if i == 0 then FENCE else h.blocks[i - 1])
    ensures HeapTag(h, Hdr(h, i) - TAG_SIZE).value.size == 0 <==> i == 0
    ensures i > 0 ==> GetPrev(h, Hdr(h, i)) == Some(Hdr(h, i - 1))
  {
    if i == 0 {
      assert h.blocks[..0] == [];
    } else {
      NextOfBlock(h, i - 1);
    }
  }
}

=== FILE: idt.dfy ===
/**
 * The interrupt descriptor table of kernel.c: `x86_fillgate` and
 * `create_idt_table`.
 *
 * A gate is the 128-bit `struct gate_descriptor` of kerninc/types.h, an
 * interrupt gate of section 4.8.4 (Figure 4-24) of the AMD64 Architecture
 * Programmer's Manual, Volume 2.  Its bit-fields are packed with the same
 * mixed-radix `Pack` as the page-table entries.  The handler addresses are
 * set by the assembly entry code, so they are parameters here.
 */
module Idt {
  import opened Wrappers
  import opened PageEntry

  type U5 = x: nat | x < 32
  type U8 = x: nat | x < 256
  type U16 = x: nat | x < 0x1_0000
  type U19 = x: nat | x < 0x8_0000
  type U48 = x: nat | x < 0x1_0000_0000_0000

  /** `struct gate_descriptor`, fields in declaration order. */
  datatype Gate = Gate(looffset: U16, selector: U16, ist: U3, xx1: U5, gateType: U5, dpl: U2, p: Bit,
                       hioffset: U48, xx2: U8, zero: U5, xx3: U19)

  /** looffset:16, selector:16, ist:3, xx1:5, type:5, dpl:2, p:1, hioffset:48, xx2:8, zero:5, xx3:19. */
  const GATE_RADICES: seq<nat> := [0x1_0000, 0x1_0000, 8, 32, 32, 4, 2, 0x1_0000_0000_0000, 256, 32, 0x8_0000]

  /** One past the largest 128-bit value. */
  const GATE_LIMIT: nat := 0x1_0000_0000_0000_0000_0000_0000_0000_0000

  function GateFields(g: Gate): seq<nat>
  {
    [g.looffset, g.selector, g.ist, g.xx1, g.gateType, g.dpl, g.p, g.hioffset, g.xx2, g.zero, g.xx3]
  }

  /** Each field lies in its range. */
  lemma GateFieldsFit(g: Gate)
    ensures Fits(GateFields(g), GATE_RADICES) && Radices(GATE_RADICES)
  {
  }

  /** Place values of the gate fields. */
  lemma GateUnits()
    ensures Unit(GATE_RADICES, 1) == 0x1_0000
    ensures Unit(GATE_RADICES, 2) == 0x1_0000_0000
    ensures Unit(GATE_RADICES, 3) == 0x8_0000_0000
    ensures Unit(GATE_RADICES, 4) == 0x100_0000_0000
    ensures Unit(GATE_RADICES, 5) == 0x2000_0000_0000
    ensures Unit(GATE_RADICES, 6) == 0x8000_0000_0000
    ensures Unit(GATE_RADICES, 7) == 0x1_0000_0000_0000
    ensures Unit(GATE_RADICES, 8) == 0x1_0000_0000_0000_0000_0000_0000
    ensures Unit(GATE_RADICES, 9) == 0x100_0000_0000_0000_0000_0000_0000
    ensures Unit(GATE_RADICES, 10) == 0x2000_0000_0000_0000_0000_0000_0000
    ensures Unit(GATE_RADICES, 11) == GATE_LIMIT
  {
  }

  /** The gate as the 16 bytes the processor reads. */
  function EncodeGate(g: Gate): (w: nat)
    ensures w < GATE_LIMIT
  {
    GateFieldsFit(g);
    GateUnits();
    PackBound(GateFields(g), GATE_RADICES);
    Pack(GateFields(g), GATE_RADICES)
  }

  function DecodeGate(w: nat): Gate
  {
    Gate(FieldAt(w, 1, 0x1_0000), FieldAt(w, 0x1_0000, 0x1_0000), FieldAt(w, 0x1_0000_0000, 8),
         FieldAt(w, 0x8_0000_0000, 32), FieldAt(w, 0x100_0000_0000, 32), FieldAt(w, 0x2000_0000_0000, 4),
         FieldAt(w, 0x8000_0000_0000, 2), FieldAt(w, 0x1_0000_0000_0000, 0x1_0000_0000_0000),
         FieldAt(w, 0x1_0000_0000_0000_0000_0000_0000, 256), FieldAt(w, 0x100_0000_0000_0000_0000_0000_0000, 32),
         FieldAt(w, 0x2000_0000_0000_0000_0000_0000_0000, 0x8_0000))
  }

  /** Decoding an encoded gate gives it back. */
  lemma GateRoundTrip(g: Gate)
    ensures DecodeGate(EncodeGate(g)) == g
  {
    GateFieldsFit(g);
    GateUnits();
    var fs := GateFields(g);
    PackField(fs, GATE_RADICES, 0);
    PackField(fs, GATE_RADICES, 1);
    PackField(fs, GATE_RADICES, 2);
    PackField(fs, GATE_RADICES, 3);
    PackField(fs, GATE_RADICES, 4);
    PackField(fs, GATE_RADICES, 5);
    PackField(fs, GATE_RADICES, 6);
    PackField(fs, GATE_RADICES, 7);
    PackField(fs, GATE_RADICES, 8);
    PackField(fs, GATE_RADICES, 9);
    PackField(fs, GATE_RADICES, 10);
  }

  /** Every 128-bit value is the encoding of the gate it decodes to. */
  lemma GateWordRoundTrip(w: nat)
    requires w < GATE_LIMIT
    ensures EncodeGate(DecodeGate(w)) == w
  {
    GateFieldsFit(DecodeGate(w));
    GateUnits();
    PackDigits(GateFields(DecodeGate(w)), GATE_RADICES, w);
  }

  /** The handler address the processor reads from a gate: offset bits 0..15 and 16..63. */
  function GateOffset(w: nat): nat
  {
    FieldAt(w, 1, 0x1_0000) + 0x1_0000 * FieldAt(w, 0x1_0000_0000_0000, 0x1_0000_0000_0000)
  }

  /*---------------------------------------------------------------------
   * x86_fillgate
   *-------------------------------------------------------------------*/

  /** Interrupt gate (`gd_type = 14`). */
  const INTERRUPT_GATE: nat := 14
  /** The kernel code segment selector. */
  const KERNEL_CS: nat := 8

  /**
   * The gate `x86_fillgate(num, fn, ist)` writes: the handler address split
   * at bit 16, selector 8, type 14, DPL 0, present, every reserved field
   * 0; `ist`, an `int`, keeps its low three bits.
   */
  function FillGate(fn: Word, ist: int): Gate
  {
    Gate(fn % 0x1_0000, 8, ist % 8, 0, 14, 0, 1, fn / 0x1_0000, 0, 0, 0)
  }

  /** The two offset halves put back together, `(hi << 16) | lo`, are the handler address. */
  lemma FillGateOffset(fn: Word, ist: int)
    ensures var g := FillGate(fn, ist); g.looffset + 0x1_0000 * g.hioffset == fn
  {
    DivSplit(fn, 0x1_0000);
  }

  /**
   * What the processor reads from the 16 bytes of a filled gate: the
   * handler address, selector 8, the IST index, type 14, DPL 0, present,
   * and zero reserved bits.
   */
  lemma FillGateSpec(fn: Word, ist: int)
    ensures var w := EncodeGate(FillGate(fn, ist));
      && GateOffset(w) == fn
      && FieldAt(w, 0x1_0000, 0x1_0000) == KERNEL_CS
      && FieldAt(w, 0x1_0000_0000, 8) == ist % 8
      && FieldAt(w, 0x100_0000_0000, 32) == INTERRUPT_GATE
      && FieldAt(w, 0x2000_0000_0000, 4) == 0
      && FieldAt(w, 0x8000_0000_0000, 2) == 1
      && FieldAt(w, 0x8_0000_0000, 32) == 0
      && FieldAt(w, 0x1_0000_0000_0000_0000_0000_0000, 0x1_0000_0000) == 0
  {
    var g := FillGate(fn, ist);
    GateRoundTrip(g);
    FillGateOffset(fn, ist);
    ReservedHigh(EncodeGate(g));
  }

  /** The top 32 bits are the three reserved fields `xx2`, `zero` and `xx3`. */
  lemma ReservedHigh(w: nat)
    requires DecodeGate(w).xx2 == 0 && DecodeGate(w).zero == 0 && DecodeGate(w).xx3 == 0
    ensures FieldAt(w, 0x1_0000_0000_0000_0000_0000_0000, 0x1_0000_0000) == 0
  {
    var q := w / 0x1_0000_0000_0000_0000_0000_0000;
    DivNat(w, 0x1_0000_0000_0000_0000_0000_0000);
    DivDiv(w, 0x1_0000_0000_0000_0000_0000_0000, 256);
    DivDiv(w, 0x1_0000_0000_0000_0000_0000_0000, 0x2000);
    DivDiv(q, 256, 32);
    DivSplit(q, 256);
    DivSplit(q / 256, 32);
    DivSplit(q / 0x2000, 0x8_0000);
    DivSplit(q % 0x1_0000_0000, 0x2000);
    assert q % 0x2000 == q % 256 + 256 * ((q / 256) % 32);
    DivModUnique(q, q % 0x2000 + 0x2000 * ((q / 0x2000) % 0x8_0000), q / 0x1_0000_0000, 0x1_0000_0000);
  }

  /** `x86_fillgate(num, fn, ist)`: gate `num` is filled; no other gate changes. */
  function FillGateAt(idt: seq<Gate>, num: nat, fn: Word, ist: int): (idt': seq<Gate>)
    requires num < |idt|
    ensures |idt'| == |idt| && idt'[num] == FillGate(fn, ist)
    ensures forall v :: 0 <= v < |idt| && v != num ==> idt'[v] == idt[v]
  {
    idt[num := FillGate(fn, ist)]
  }

  /*---------------------------------------------------------------------
   * create_idt_table
   *-------------------------------------------------------------------*/

  /** The table has 256 vectors. */
  const IDT_ENTRIES: nat := 256

  /** The four handler addresses the assembly entry code stores. */
  datatype Handlers = Handlers(generic: Word, gp: Word, pageFault: Word, timer: Word)

  /**
   * Which handler vector `v` goes to once the table is built: general
   * protection (13) and page fault (14) their own, the other exceptions
   * 0..31 the generic one, the timer vector 48 the timer; no other
   * vector is set.
   */
  function VectorHandler(h: Handlers, v: nat): Option<Word>
  {
    if v == 13 then Some(h.gp)
    else if v == 14 then Some(h.pageFault)
    else if v < 32 then Some(h.generic)
    else if v == 48 then Some(h.timer)
    else None
  }

  /**
   * `create_idt_table`: the loop over vectors 0..31 with the generic
   * handler, then 13, 14 and 48.  Each set vector holds an IST-0 gate for
   * `VectorHandler`'s address; every other vector is as before.
   */
  method CreateIdtTable(idt: seq<Gate>, h: Handlers) returns (idt': seq<Gate>)
    requires |idt| == IDT_ENTRIES
    ensures |idt'| == |idt|
    ensures forall v :: 0 <= v < |idt| ==>
      idt'[v] == match VectorHandler(h, v) { case Some(fn) => FillGate(fn, 0) case None => idt[v] }
  {
    idt' := idt;
    var i := 0;
    while i < 32
      invariant 0 <= i <= 32 && |idt'| == |idt|
      invariant forall v :: 0 <= v < i ==> idt'[v] == FillGate(h.generic, 0)
      invariant forall v :: i <= v < |idt| ==> idt'[v] == idt[v]
    {
      idt' := FillGateAt(idt', i, h.generic, 0);
      i := i + 1;
    }
    idt' := FillGateAt(idt', 13, h.gp, 0);
    idt' := FillGateAt(idt', 14, h.pageFault, 0);
    idt' := FillGateAt(idt', 48, h.timer, 0);
  }

  /**
   * After `create_idt_table`, every vector it sets dispatches, as the
   * processor reads the gate, to `VectorHandler`'s address through the
   * kernel code segment as a present, DPL-0 interrupt gate; every other
   * vector is untouched.
   */
  lemma IdtDispatch(idt: seq<Gate>, h: Handlers, idt': seq<Gate>, v: nat)
    requires |idt| == IDT_ENTRIES && |idt'| == |idt| && v < |idt|
    requires forall u :: 0 <= u < |idt| ==>
      idt'[u] == match VectorHandler(h, u) { case Some(fn) => FillGate(fn, 0) case None => idt[u] }
    ensures VectorHandler(h, v).Some? ==>
      var w := EncodeGate(idt'[v]);
      && GateOffset(w) == VectorHandler(h, v).value
      && FieldAt(w, 0x1_0000, 0x1_0000) == KERNEL_CS
      && FieldAt(w, 0x100_0000_0000, 32) == INTERRUPT_GATE
      && FieldAt(w, 0x2000_0000_0000, 4) == 0 && FieldAt(w, 0x8000_0000_0000, 2) == 1
    ensures VectorHandler(h, v).None? ==> idt'[v] == idt[v]
    ensures VectorHandler(h, v).Some? <==> v < 32 || v == 48
  {
    if VectorHandler(h, v).Some? {
      FillGateSpec(VectorHandler(h, v).value, 0);
    }
  }
}

=== FILE: kernel_start.dfy ===
/**
 * The page-table part of `kernel_start` (kernel.c): the kernel tables at
 * the start of `page_table_ptr`, the user tables right after them, and the
 * TLS page `setup_tls` adds; then what the user address space maps once
 * CR3 holds the user PML4.
 *
 * The kernel tables take `8413184` bytes, so the user tables start at word
 * `8413184 / 8 == KERNEL_WORDS`, and `kernel_start` hands
 * `create_user_page_table` the address of word `1050624` of the buffer,
 * which is the kernel PDPT page (`PDPE_AT`), as `kernel_pdpe`.
 */
module KernelStart {
  import opened Wrappers
  import opened PageEntry
  import opened PageWalk
  import opened KernelTables
  import opened UserTables

  /** `base = page_table_ptr + 8413184 / 8`: the word where the user tables start. */
  const USER_BASE: nat := 1051648

  /** `tss_ptr + 1024` as a `uint64_t *`: the TLS page is 8192 bytes past `tss_ptr`, modulo 2^64. */
  function TlsPage(tssPtr: nat): nat
  {
    (tssPtr + 8 * 1024) % 0x1_0000_0000_0000_0000
  }

  /** `setup_tls(base, tls)`: PTE 257 of the user PTE page maps the page holding `tls`; nothing else changes. */
  function SetupTls(m: Mem, at: nat, tls: nat): (m': Mem)
    requires at + TLS_ENTRY < |m.words|
    ensures m'.base == m.base && |m'.words| == |m.words|
    ensures m'.words[at + TLS_ENTRY] == MapPte(tls)
    ensures forall k :: 0 <= k < |m.words| && k != at + TLS_ENTRY ==> m'.words[k] == m.words[k]
  {
    Mem(m.base, m.words[at + TLS_ENTRY := MapPte(tls)])
  }

  /**
   * `after` holds the kernel tables built over `before` below
   * `KERNEL_WORDS`, and from `USER_BASE` the user tables that
   * `create_user_page_table` builds with `kernel_pdpe` the kernel PDPT page,
   * with PTE 257 replaced by the TLS page.
   */
  ghost predicate Booted(before: Mem, userPtr: nat, n: nat, tls: nat, after: Mem)
  {
    KernelTablesIn(before, after) && UserBooted(before, userPtr, n, tls, after)
  }

  /** The user-table half of `Booted`. */
  ghost predicate UserBooted(before: Mem, userPtr: nat, n: nat, tls: nat, after: Mem)
  {
    && after.base == before.base && |after.words| == |before.words|
    && USER_BASE + USER_WORDS <= |before.words|
    && (forall k :: USER_BASE <= k < USER_BASE + USER_WORDS && k != USER_BASE + TLS_ENTRY ==>
          after.words[k] == UserWord(before.base, USER_BASE, userPtr, n, AddrOf(before, PDPE_AT), k - USER_BASE, before.words[k]))
    && after.words[USER_BASE + TLS_ENTRY] == MapPte(tls)
  }

  /** Rewriting words past the kernel tables keeps the kernel tables. */
  lemma KernelTablesKept(m: Mem, m1: Mem, m2: Mem)
    requires KernelTablesIn(m, m1) && m2.base == m1.base && |m2.words| == |m1.words|
    requires forall k :: 0 <= k < KERNEL_WORDS ==> m2.words[k] == m1.words[k]
    ensures KernelTablesIn(m, m2)
  {
    KernelRegions();
    forall i | 0 <= i < KERNEL_PDES
      ensures m2.words[PDE_AT + i] == KernelPde(m, i)
    {
      assert m2.words[PDE_AT + i] == m1.words[PDE_AT + i];
    }
    forall i | 0 <= i < ENTRIES
      ensures m2.words[PDPE_AT + i] == KernelPdpe(m, i) && m2.words[PML_AT + i] == KernelPml(m, i)
    {
      assert m2.words[PDPE_AT + i] == m1.words[PDPE_AT + i];
      assert m2.words[PML_AT + i] == m1.words[PML_AT + i];
    }
  }

  /**
   * The tables `kernel_start` builds before it loads CR3 with the user
   * PML4: `create_kernel_page_table(page_table_ptr)`, then
   * `create_user_page_table(base, user_ptr, size, kernel_pml)`, then
   * `setup_tls(base, tss_ptr + 1024)`.  `size` is an `unsigned int`.
   */
  method BuildAddressSpace(m: Mem, userPtr: nat, tssPtr: nat, size: nat) returns (userPml: nat, m': Mem)
    requires size < 0x1_0000_0000
    requires USER_BASE + USER_WORDS <= |m.words| && USER_BASE + NumPages(size) < |m.words|
    ensures Booted(m, userPtr, NumPages(size), TlsPage(tssPtr), m')
    ensures userPml == AddrOf(m, USER_BASE + 1536) && 1 <= NumPages(size)
    ensures forall k :: USER_BASE + USER_WORDS <= k < |m.words| ==>
      m'.words[k] == if k <= USER_BASE + NumPages(size) then UserPte(userPtr, k - USER_BASE) else m.words[k]
  {
    NumPagesNoWrap(size);
    var n, tls := NumPages(size), TlsPage(tssPtr);
    var _, m1 := CreateKernelPageTable(m);
    var kernelPml := AddrOf(m, PDPE_AT);
    var pml, _, _, m2 := CreateUserPageTable(m1, USER_BASE, userPtr, size, kernelPml);
    m' := SetupTls(m2, USER_BASE, tls);
    userPml := pml;
    BuiltBooted(m, m1, m2, m', userPtr, n, tls);
  }

  /** The three builds of `kernel_start`, one over the other, leave a `Booted` buffer. */
  lemma BuiltBooted(m: Mem, m1: Mem, m2: Mem, m': Mem, userPtr: nat, n: nat, tls: nat)
    requires KernelTablesBuilt(m, m1) && USER_BASE + USER_WORDS <= |m.words|
    requires UserTablesBuilt(m1, USER_BASE, userPtr, n, AddrOf(m, PDPE_AT), m2)
    requires m' == SetupTls(m2, USER_BASE, tls)
    ensures Booted(m, userPtr, n, tls, m')
    ensures forall k :: USER_BASE + USER_WORDS <= k < |m.words| ==>
      m'.words[k] == if k <= USER_BASE + n then UserPte(userPtr, k - USER_BASE) else m.words[k]
  {
    assert TlsSet(m2, tls, m');
    KernelTablesThrough(m, m1, m2, m', userPtr, n, tls);
    UserTablesKept(m, m1, m2, m', userPtr, n, tls);
    UserTablesPast(m, m1, m2, m', userPtr, n, tls);
  }

  /** `after` is `before` with PTE 257 of the user PTE page mapping the page holding `tls`. */
  ghost predicate TlsSet(before: Mem, tls: nat, after: Mem)
  {
    && after.base == before.base && |after.words| == |before.words| > USER_BASE + TLS_ENTRY
    && after.words[USER_BASE + TLS_ENTRY] == MapPte(tls)
    && (forall k :: 0 <= k < |before.words| && k != USER_BASE + TLS_ENTRY ==> after.words[k] == before.words[k])
  }

  /** Neither later build writes below `USER_BASE`, so the kernel tables survive both. */
  lemma KernelTablesThrough(m: Mem, m1: Mem, m2: Mem, m': Mem, userPtr: nat, n: nat, tls: nat)
    requires KernelTablesIn(m, m1) && USER_BASE + USER_WORDS <= |m.words|
    requires UserTablesBuilt(m1, USER_BASE, userPtr, n, AddrOf(m, PDPE_AT), m2)
    requires TlsSet(m2, tls, m')
    ensures KernelTablesIn(m, m')
  {
    forall k | 0 <= k < KERNEL_WORDS
      ensures m'.words[k] == m1.words[k]
    {
      assert m'.words[k] == m2.words[k];
    }
    KernelTablesKept(m, m1, m');
  }

  /** The user tables written over the kernel-table buffer, then PTE 257 replaced, give the `UserBooted` words. */
  lemma UserTablesKept(m: Mem, m1: Mem, m2: Mem, m': Mem, userPtr: nat, n: nat, tls: nat)
    requires KernelFrame(m, m1) && USER_BASE + USER_WORDS <= |m.words|
    requires UserTablesBuilt(m1, USER_BASE, userPtr, n, AddrOf(m, PDPE_AT), m2)
    requires TlsSet(m2, tls, m')
    ensures UserBooted(m, userPtr, n, tls, m')
  {
    forall k | USER_BASE <= k < USER_BASE + USER_WORDS
      ensures m1.words[k] == m.words[k] && (k != USER_BASE + TLS_ENTRY ==> m'.words[k] == m2.words[k])
    {
    }
  }

  /** Past the four table pages, words `USER_BASE + 1 ..= USER_BASE + num_pages` hold code PTEs; the rest are untouched. */
  lemma UserTablesPast(m: Mem, m1: Mem, m2: Mem, m': Mem, userPtr: nat, n: nat, tls: nat)
    requires KernelFrame(m, m1) && USER_BASE + USER_WORDS <= |m.words|
    requires UserTablesBuilt(m1, USER_BASE, userPtr, n, AddrOf(m, PDPE_AT), m2)
    requires TlsSet(m2, tls, m')
    ensures forall k :: USER_BASE + USER_WORDS <= k < |m.words| ==>
      m'.words[k] == if k <= USER_BASE + n then UserPte(userPtr, k - USER_BASE) else m.words[k]
  {
    forall k | USER_BASE + USER_WORDS <= k < |m.words|
      ensures m1.words[k] == m.words[k] && m'.words[k] == m2.words[k]
    {
    }
  }

  /*---------------------------------------------------------------------
   * The user address space
   *-------------------------------------------------------------------*/

  /** The kernel and user tables' pages lie below 2^52 and the buffer is page aligned. */
  predicate UserAddressable(m: Mem)
  {
    m.base % 0x1000 == 0 && AddrOf(m, USER_BASE + USER_WORDS) <= 0x100_0000_0000 * 0x1000
  }

  /**
   * What the user address space maps, read off the address alone: the low
   * 4 GiB to themselves for the kernel only; in the last 1 GiB slot of the
   * last 512 GiB slot, its first 2 MiB page by page: page 257 to the TLS
   * page, page 0 to the page below `user_ptr`, page `t` of `1..num_pages`
   * to page `t - 1` of the program; nothing else.
   */
  function UserMap(userPtr: nat, n: nat, tls: nat, va: nat): Option<Translation>
  {
    if PmlIndex(va) == 0 then
      if PdptIndex(va) < 4 then Some(Translation(va % 0x1_0000_0000, false, true)) else None
    else if PmlIndex(va) == 511 && PdptIndex(va) == 511 && PdIndex(va) == 0 then
      if PtIndex(va) == TLS_ENTRY then Some(Translation(PhysPage(tls) + va % 0x1000, true, true))
      else if PtIndex(va) <= n then Some(Translation(PhysPage(UserPage(userPtr, PtIndex(va) - 1)) + va % 0x1000, true, true))
      else None
    else None
  }

  /*
   * What each user table entry says to the walk, level by level.  The
   * exact words (`Booted`) are turned into these once (`BootedSays`); the
   * walk lemmas below only read them.
   */

  /** PT entry `t`: 257 the TLS page, `t <= num_pages` page `t - 1` of the program, the rest not present. */
  predicate PtSays(w: Word, userPtr: nat, n: nat, tls: nat, t: nat)
  {
    if t == TLS_ENTRY then Entry(w, true, true, PhysPage(tls))
    else if t <= n then Entry(w, true, true, PhysPage(UserPage(userPtr, t - 1)))
    else !Present(w)
  }

  /** PD entry `i`: 0 the user PT page, the rest not present. */
  predicate PdSays(m: Mem, w: Word, i: nat)
  {
    if i == 0 then Entry(w, true, true, AddrOf(m, USER_BASE)) else !Present(w)
  }

  /** PDPT entry `i`: 511 the user PD page, the rest not present. */
  predicate PdptSays(m: Mem, w: Word, i: nat)
  {
    if i == 511 then Entry(w, true, true, AddrOf(m, USER_BASE + 512)) else !Present(w)
  }

  /** PML4 entry `i`: 0 the kernel PDPT page for the kernel only, 511 the user PDPT page, the rest not present. */
  predicate PmlSays(m: Mem, w: Word, i: nat)
  {
    if i == 0 then Entry(w, false, true, AddrOf(m, PDPE_AT))
    else if i == 511 then Entry(w, true, true, AddrOf(m, USER_BASE + 1024))
    else !Present(w)
  }

  /** The kernel tables, and the four user pages entry by entry as the `...Says` predicates put them. */
  ghost predicate TablesSay(before: Mem, userPtr: nat, n: nat, tls: nat, after: Mem)
  {
    KernelTablesIn(before, after) && UserSays(before, userPtr, n, tls, after)
  }

  /** The user-table half of `TablesSay`. */
  ghost predicate UserSays(before: Mem, userPtr: nat, n: nat, tls: nat, after: Mem)
  {
    && after.base == before.base && |after.words| == |before.words|
    && USER_BASE + USER_WORDS <= |before.words|
    && (forall k {:trigger after.words[k]} :: USER_BASE <= k < USER_BASE + 512 ==>
          PtSays(after.words[k], userPtr, n, tls, k - USER_BASE))
    && (forall k {:trigger after.words[k]} :: USER_BASE + 512 <= k < USER_BASE + 1024 ==>
          PdSays(before, after.words[k], k - USER_BASE - 512))
    && (forall k {:trigger after.words[k]} :: USER_BASE + 1024 <= k < USER_BASE + 1536 ==>
          PdptSays(before, after.words[k], k - USER_BASE - 1024))
    && (forall k {:trigger after.words[k]} :: USER_BASE + 1536 <= k < USER_BASE + 2048 ==>
          PmlSays(before, after.words[k], k - USER_BASE - 1536))
  }

  /** Every table page of the buffer is page aligned and below 2^52, so a frame field names it exactly. */
  lemma UserFrames(m: Mem)
    requires UserAddressable(m)
    ensures PhysicallyAddressable(m)
    ensures PhysPage(AddrOf(m, PDPE_AT)) == AddrOf(m, PDPE_AT)
    ensures PhysPage(AddrOf(m, USER_BASE)) == AddrOf(m, USER_BASE)
    ensures PhysPage(AddrOf(m, USER_BASE + 512)) == AddrOf(m, USER_BASE + 512)
    ensures PhysPage(AddrOf(m, USER_BASE + 1024)) == AddrOf(m, USER_BASE + 1024)
    ensures PhysPage(AddrOf(m, USER_BASE + 1536)) == AddrOf(m, USER_BASE + 1536)
  {
    FrameOf(m, 1050624);
    FrameOf(m, 1051648);
    FrameOf(m, 1052160);
    FrameOf(m, 1052672);
    FrameOf(m, 1053184);
  }

  /*
   * From exact words to what they say, one word at a time: `...WordIs`
   * picks word `k` of the booted buffer out of `UserBooted` as the entry
   * of its page, `...WordSays` reads that entry.
   */

  /** PT entry `k - USER_BASE` of the booted buffer says what `PtSays` says. */
  lemma BootedPtWord(m: Mem, m': Mem, userPtr: nat, n: nat, tls: nat, k: nat)
    requires UserBooted(m, userPtr, n, tls, m') && USER_BASE <= k < USER_BASE + 512
    ensures PtSays(m'.words[k], userPtr, n, tls, k - USER_BASE)
  {
    if k == USER_BASE + TLS_ENTRY {
      MapPteStep(tls);
    } else if k - USER_BASE <= n {
      PtWordIs(m, m', userPtr, n, tls, k);
      MapPteStep(UserPage(userPtr, k - USER_BASE - 1));
    } else {
      PtWordIs(m, m', userPtr, n, tls, k);
      PadPteStep();
    }
  }

  lemma PtWordIs(m: Mem, m': Mem, userPtr: nat, n: nat, tls: nat, k: nat)
    requires UserBooted(m, userPtr, n, tls, m') && USER_BASE <= k < USER_BASE + 512 && k != USER_BASE + TLS_ENTRY
    ensures m'.words[k] == if k - USER_BASE <= n then UserPte(userPtr, k - USER_BASE) else PadPte()
  {
  }

  /** PD entry `k - USER_BASE - 512` of the booted buffer says what `PdSays` says. */
  lemma BootedPdWord(m: Mem, m': Mem, userPtr: nat, n: nat, tls: nat, k: nat)
    requires UserBooted(m, userPtr, n, tls, m') && UserAddressable(m) && USER_BASE + 512 <= k < USER_BASE + 1024
    ensures PdSays(m, m'.words[k], k - USER_BASE - 512)
  {
    PdWordIs(m, m', userPtr, n, tls, k);
    PdWordSays(m, m'.words[k], PtePhase(userPtr, n, k - USER_BASE, m.words[k]), k - USER_BASE - 512);
  }

  lemma PdWordIs(m: Mem, m': Mem, userPtr: nat, n: nat, tls: nat, k: nat)
    requires UserBooted(m, userPtr, n, tls, m') && USER_BASE + 512 <= k < USER_BASE + 1024
    ensures m'.words[k] == UserPde(m.base, USER_BASE, PtePhase(userPtr, n, k - USER_BASE, m.words[k]), k - USER_BASE - 512)
  {
  }

  /** PDE `i` written over any word says what `PdSays` says. */
  lemma PdWordSays(m: Mem, w: Word, prior: Word, i: nat)
    requires UserAddressable(m) && i < ENTRIES
    requires w == UserPde(m.base, USER_BASE, prior, i)
    ensures PdSays(m, w, i)
  {
    UserFrames(m);
    UserPdeStep(m.base, USER_BASE, prior, i);
  }

  /** PDPT entry `k - USER_BASE - 1024` of the booted buffer says what `PdptSays` says. */
  lemma BootedPdptWord(m: Mem, m': Mem, userPtr: nat, n: nat, tls: nat, k: nat)
    requires UserBooted(m, userPtr, n, tls, m') && UserAddressable(m) && USER_BASE + 1024 <= k < USER_BASE + 1536
    ensures PdptSays(m, m'.words[k], k - USER_BASE - 1024)
  {
    PdptWordIs(m, m', userPtr, n, tls, k);
    PdptWordSays(m, m'.words[k], PtePhase(userPtr, n, k - USER_BASE, m.words[k]), k - USER_BASE - 1024);
  }

  lemma PdptWordIs(m: Mem, m': Mem, userPtr: nat, n: nat, tls: nat, k: nat)
    requires UserBooted(m, userPtr, n, tls, m') && USER_BASE + 1024 <= k < USER_BASE + 1536
    ensures m'.words[k] == UserPdpe(m.base, USER_BASE, PtePhase(userPtr, n, k - USER_BASE, m.words[k]), k - USER_BASE - 1024)
  {
  }

  /** PDPE `i` written over any word says what `PdptSays` says. */
  lemma PdptWordSays(m: Mem, w: Word, prior: Word, i: nat)
    requires UserAddressable(m) && i < ENTRIES
    requires w == UserPdpe(m.base, USER_BASE, prior, i)
    ensures PdptSays(m, w, i)
  {
    UserFrames(m);
    UserPdpeStep(m.base, USER_BASE, prior, i);
  }

  /** PML4 entry `k - USER_BASE - 1536` of the booted buffer says what `PmlSays` says. */
  lemma BootedPmlWord(m: Mem, m': Mem, userPtr: nat, n: nat, tls: nat, k: nat)
    requires UserBooted(m, userPtr, n, tls, m') && UserAddressable(m) && USER_BASE + 1536 <= k < USER_BASE + 2048
    ensures PmlSays(m, m'.words[k], k - USER_BASE - 1536)
  {
    PmlWordIs(m, m', userPtr, n, tls, k);
    PmlWordSays(m, m'.words[k], k - USER_BASE - 1536);
  }

  lemma PmlWordIs(m: Mem, m': Mem, userPtr: nat, n: nat, tls: nat, k: nat)
    requires UserBooted(m, userPtr, n, tls, m') && USER_BASE + 1536 <= k < USER_BASE + 2048
    ensures m'.words[k] == UserPml(m.base, USER_BASE, AddrOf(m, PDPE_AT), k - USER_BASE - 1536)
  {
  }

  /** PML4 entry `i` of the user tables says what `PmlSays` says. */
  lemma PmlWordSays(m: Mem, w: Word, i: nat)
    requires UserAddressable(m) && i < ENTRIES
    requires w == UserPml(m.base, USER_BASE, AddrOf(m, PDPE_AT), i)
    ensures PmlSays(m, w, i)
  {
    UserFrames(m);
    UserPmlStep(m.base, USER_BASE, AddrOf(m, PDPE_AT), i);
  }

  /** The exact words of the booted buffer say, entry by entry, what the walk needs. */
  lemma BootedSays(m: Mem, m': Mem, userPtr: nat, n: nat, tls: nat)
    requires Booted(m, userPtr, n, tls, m') && UserAddressable(m)
    ensures TablesSay(m, userPtr, n, tls, m')
  {
    UserBootedSays(m, m', userPtr, n, tls);
  }

  lemma UserBootedSays(m: Mem, m': Mem, userPtr: nat, n: nat, tls: nat)
    requires UserBooted(m, userPtr, n, tls, m') && UserAddressable(m)
    ensures UserSays(m, userPtr, n, tls, m')
  {
    forall k | USER_BASE <= k < USER_BASE + 512
      ensures PtSays(m'.words[k], userPtr, n, tls, k - USER_BASE)
    {
      BootedPtWord(m, m', userPtr, n, tls, k);
    }
    forall k | USER_BASE + 512 <= k < USER_BASE + 1024
      ensures PdSays(m, m'.words[k], k - USER_BASE - 512)
    {
      BootedPdWord(m, m', userPtr, n, tls, k);
    }
    forall k | USER_BASE + 1024 <= k < USER_BASE + 1536
      ensures PdptSays(m, m'.words[k], k - USER_BASE - 1024)
    {
      BootedPdptWord(m, m', userPtr, n, tls, k);
    }
    forall k | USER_BASE + 1536 <= k < USER_BASE + 2048
      ensures PmlSays(m, m'.words[k], k - USER_BASE - 1536)
    {
      BootedPmlWord(m, m', userPtr, n, tls, k);
    }
  }

  /** User PML4 entry `i`: 0 leads to the kernel PDPT page, 511 to the user PDPT page, the rest are absent. */
  lemma SaysPml(m: Mem, m': Mem, userPtr: nat, n: nat, tls: nat, i: nat)
    requires UserSays(m, userPtr, n, tls, m') && i < ENTRIES
    ensures i == 0 ==> Leads(m', AddrOf(m, USER_BASE + 1536), i, false, true, AddrOf(m, PDPE_AT))
    ensures i == 511 ==> Leads(m', AddrOf(m, USER_BASE + 1536), i, true, true, AddrOf(m, USER_BASE + 1024))
    ensures i != 0 && i != 511 ==> Absent(m', AddrOf(m, USER_BASE + 1536), i)
  {
    var k := USER_BASE + 1536;
    assert PmlSays(m, m'.words[k + i], k + i - USER_BASE - 1536);
    assert AddrOf(m', k) == AddrOf(m, k);
    if i == 0 {
      WordLeads(m', k, i, false, true, AddrOf(m, PDPE_AT));
    } else if i == 511 {
      WordLeads(m', k, i, true, true, AddrOf(m, USER_BASE + 1024));
    } else {
      WordAbsent(m', k, i);
    }
  }

  /** User PDPT entry `i`: 511 leads to the user PD page, the rest are absent. */
  lemma SaysPdpt(m: Mem, m': Mem, userPtr: nat, n: nat, tls: nat, i: nat)
    requires UserSays(m, userPtr, n, tls, m') && i < ENTRIES
    ensures i == 511 ==> Leads(m', AddrOf(m, USER_BASE + 1024), i, true, true, AddrOf(m, USER_BASE + 512))
    ensures i != 511 ==> Absent(m', AddrOf(m, USER_BASE + 1024), i)
  {
    var k := USER_BASE + 1024;
    assert PdptSays(m, m'.words[k + i], k + i - USER_BASE - 1024);
    assert AddrOf(m', k) == AddrOf(m, k);
    if i == 511 {
      WordLeads(m', k, i, true, true, AddrOf(m, USER_BASE + 512));
    } else {
      WordAbsent(m', k, i);
    }
  }

  /** User PD entry `i`: 0 leads to the user PT page, the rest are absent. */
  lemma SaysPd(m: Mem, m': Mem, userPtr: nat, n: nat, tls: nat, i: nat)
    requires UserSays(m, userPtr, n, tls, m') && i < ENTRIES
    ensures i == 0 ==> Leads(m', AddrOf(m, USER_BASE + 512), i, true, true, AddrOf(m, USER_BASE))
    ensures i != 0 ==> Absent(m', AddrOf(m, USER_BASE + 512), i)
  {
    var k := USER_BASE + 512;
    assert PdSays(m, m'.words[k + i], k + i - USER_BASE - 512);
    assert AddrOf(m', k) == AddrOf(m, k);
    if i == 0 {
      WordLeads(m', k, i, true, true, AddrOf(m, USER_BASE));
    } else {
      WordAbsent(m', k, i);
    }
  }

  /** User PT entry `t`: 257 maps the TLS page, `t <= num_pages` maps page `t - 1` of the program, the rest are absent. */
  lemma SaysPt(m: Mem, m': Mem, userPtr: nat, n: nat, tls: nat, t: nat)
    requires UserSays(m, userPtr, n, tls, m') && t < ENTRIES
    ensures t == TLS_ENTRY ==> Leads(m', AddrOf(m, USER_BASE), t, true, true, PhysPage(tls))
    ensures t != TLS_ENTRY && t <= n ==> Leads(m', AddrOf(m, USER_BASE), t, true, true, PhysPage(UserPage(userPtr, t - 1)))
    ensures t != TLS_ENTRY && t > n ==> Absent(m', AddrOf(m, USER_BASE), t)
  {
    var k := USER_BASE;
    assert PtSays(m'.words[k + t], userPtr, n, tls, k + t - USER_BASE);
    assert AddrOf(m', k) == AddrOf(m, k);
    if t == TLS_ENTRY {
      WordLeads(m', k, t, true, true, PhysPage(tls));
    } else if t <= n {
      WordLeads(m', k, t, true, true, PhysPage(UserPage(userPtr, t - 1)));
    } else {
      WordAbsent(m', k, t);
    }
  }

  /** Below user PML4 entry 511: the walk follows the three user pages. */
  lemma UserHighWalk(m: Mem, m': Mem, userPtr: nat, n: nat, tls: nat, cr3: nat, va: nat)
    requires UserSays(m, userPtr, n, tls, m')
    requires PmlIndex(va) == 511 && Leads(m', RootOf(cr3), PmlIndex(va), true, true, AddrOf(m, USER_BASE + 1024))
    ensures Walk(m', cr3, va) == UserMap(userPtr, n, tls, va)
  {
    var t3, t2, t1 := AddrOf(m, USER_BASE + 1024), AddrOf(m, USER_BASE + 512), AddrOf(m, USER_BASE);
    SaysPdpt(m, m', userPtr, n, tls, PdptIndex(va));
    if PdptIndex(va) != 511 {
      WalkAbsentPdpt(m', cr3, va, t3, true, true);
    } else {
      SaysPd(m, m', userPtr, n, tls, PdIndex(va));
      if PdIndex(va) != 0 {
        WalkAbsentPd(m', cr3, va, t3, t2, true, true, true, true);
      } else {
        SaysPt(m, m', userPtr, n, tls, PtIndex(va));
        UserPtWalk(m', userPtr, n, tls, cr3, va, t3, t2, t1);
      }
    }
  }

  /** Through the three user levels to the user PT page, the last step decides. */
  lemma UserPtWalk(m': Mem, userPtr: nat, n: nat, tls: nat, cr3: nat, va: nat, t3: nat, t2: nat, t1: nat)
    requires PmlIndex(va) == 511 && PdptIndex(va) == 511 && PdIndex(va) == 0
    requires Leads(m', RootOf(cr3), PmlIndex(va), true, true, t3)
    requires Leads(m', t3, PdptIndex(va), true, true, t2)
    requires Leads(m', t2, PdIndex(va), true, true, t1)
    requires PtIndex(va) == TLS_ENTRY ==> Leads(m', t1, PtIndex(va), true, true, PhysPage(tls))
    requires PtIndex(va) != TLS_ENTRY && PtIndex(va) <= n ==>
      Leads(m', t1, PtIndex(va), true, true, PhysPage(UserPage(userPtr, PtIndex(va) - 1)))
    requires PtIndex(va) != TLS_ENTRY && PtIndex(va) > n ==> Absent(m', t1, PtIndex(va))
    ensures Walk(m', cr3, va) == UserMap(userPtr, n, tls, va)
  {
    var t := PtIndex(va);
    if t == TLS_ENTRY {
      WalkLeads(m', cr3, va, t3, t2, t1, PhysPage(tls), true, true, true, true, true, true, true, true);
    } else if t <= n {
      WalkLeads(m', cr3, va, t3, t2, t1, PhysPage(UserPage(userPtr, t - 1)), true, true, true, true, true, true, true, true);
    } else {
      WalkAbsentPt(m', cr3, va, t3, t2, t1, true, true, true, true, true, true);
    }
  }

  /** The value `create_user_page_table` returns is page aligned, so CR3 names the user PML4 page. */
  lemma UserRoot(m: Mem)
    requires UserAddressable(m)
    ensures RootOf(AddrOf(m, USER_BASE + 1536)) == AddrOf(m, USER_BASE + 1536)
  {
    UserFrames(m);
  }

  /**
   * Once CR3 holds the user PML4 that `create_user_page_table` returns,
   * the walk of every virtual address agrees with `UserMap`.
   */
  lemma UserSpaceWalk(m: Mem, m': Mem, userPtr: nat, n: nat, tls: nat, va: nat)
    requires Booted(m, userPtr, n, tls, m') && UserAddressable(m)
    ensures Walk(m', AddrOf(m, USER_BASE + 1536), va) == UserMap(userPtr, n, tls, va)
  {
    BootedSays(m, m', userPtr, n, tls);
    SaysWalk(m, m', userPtr, n, tls, va);
  }

  /** `UserSpaceWalk` for tables known entry by entry. */
  lemma SaysWalk(m: Mem, m': Mem, userPtr: nat, n: nat, tls: nat, va: nat)
    requires TablesSay(m, userPtr, n, tls, m') && UserAddressable(m)
    ensures Walk(m', AddrOf(m, USER_BASE + 1536), va) == UserMap(userPtr, n, tls, va)
  {
    var cr3 := AddrOf(m, USER_BASE + 1536);
    UserRoot(m);
    var i := PmlIndex(va);
    SaysPml(m, m', userPtr, n, tls, i);
    if i == 0 {
      KernelBelowPml(m, m', cr3, va);
    } else if i == 511 {
      UserHighWalk(m, m', userPtr, n, tls, cr3, va);
    } else {
      WalkAbsentPml(m', cr3, va);
    }
  }

  /*---------------------------------------------------------------------
   * The addresses kernel_start uses
   *-------------------------------------------------------------------*/

  /** The first 2 MiB of the top 1 GiB of the address space: `0xFFFFFFFFC0000000 + 4096 t + off`. */
  function HighVa(t: nat, off: nat): nat
  {
    0xFFFF_FFFF_C000_0000 + 0x1000 * t + off
  }

  /** Page `t` of the top 2 MiB goes through PML4 entry 511, PDPT entry 511, PD entry 0 and PT entry `t`. */
  lemma HighVaIndices(t: nat, off: nat)
    requires t < ENTRIES && off < 0x1000
    ensures PmlIndex(HighVa(t, off)) == 511 && PdptIndex(HighVa(t, off)) == 511
    ensures PdIndex(HighVa(t, off)) == 0 && PtIndex(HighVa(t, off)) == t
    ensures HighVa(t, off) % 0x1000 == off
  {
    var va := HighVa(t, off);
    DivModUnique(va, off, 0xF_FFFF_FFFC_0000 + t, 0x1000);
    DivModUnique(0xF_FFFF_FFFC_0000 + t, t, 0x7FF_FFFF_FE00, 512);
    DivModUnique(va, 0x1000 * t + off, 0x7FF_FFFF_FE00, 0x20_0000);
    DivModUnique(0x7FF_FFFF_FE00, 0, 0x3_FFFF_FFFF, 512);
    DivModUnique(va, 0x1000 * t + off, 0x3_FFFF_FFFF, 0x4000_0000);
    DivModUnique(0x3_FFFF_FFFF, 511, 0x1FF_FFFF, 512);
    DivModUnique(va, 0x7F_C000_0000 + 0x1000 * t + off, 0x1FF_FFFF, 0x80_0000_0000);
    DivModUnique(0x1FF_FFFF, 511, 0xFFFF, 512);
  }

  /** What `UserMap` says about page `t` of the top 2 MiB. */
  lemma UserMapHigh(userPtr: nat, n: nat, tls: nat, t: nat, off: nat)
    requires t < ENTRIES && off < 0x1000
    ensures t == TLS_ENTRY ==> UserMap(userPtr, n, tls, HighVa(t, off)) == Some(Translation(PhysPage(tls) + off, true, true))
    ensures t != TLS_ENTRY && t <= n ==>
      UserMap(userPtr, n, tls, HighVa(t, off)) == Some(Translation(PhysPage(UserPage(userPtr, t - 1)) + off, true, true))
    ensures t != TLS_ENTRY && t > n ==> UserMap(userPtr, n, tls, HighVa(t, off)) == None
  {
    HighVaIndices(t, off);
  }

  /** The jump target, the TLS address and the stack page below the jump target in terms of `HighVa`. */
  lemma KnownAddresses()
    ensures CODE_VA == HighVa(1, 0) && TLS_VA == HighVa(TLS_ENTRY, 0)
    ensures forall off :: CODE_VA - 0x1000 + off == HighVa(0, off) && TLS_VA + off == HighVa(TLS_ENTRY, off)
  {
  }

  /** For a page-aligned `user_ptr` whose pages lie below 2^52, PTE `j + 1` names page `j` of the program exactly. */
  lemma ProgramPageFrame(userPtr: nat, j: int)
    requires userPtr % 0x1000 == 0 && 0 <= userPtr + 0x1000 * j < 0x100_0000_0000 * 0x1000
    ensures PhysPage(UserPage(userPtr, j)) == userPtr + 0x1000 * j
  {
    var a := userPtr + 0x1000 * j;
    DivModUnique(a, a, 0, 0x1_0000_0000_0000_0000);
    var q := userPtr / 0x1000 + j;
    DivModUnique(a, 0, q, 0x1000);
    DivModUnique(q, q, 0, 0x100_0000_0000);
  }

  /**
   * Page `t` of `1..num_pages` (other than 257) of the top 2 MiB maps to
   * page `t - 1` of the program, user and writable.
   */
  lemma ProgramPageMapped(m: Mem, m': Mem, userPtr: nat, n: nat, tls: nat, t: nat, off: nat)
    requires Booted(m, userPtr, n, tls, m') && UserAddressable(m)
    requires t < ENTRIES && t != TLS_ENTRY && t <= n && off < 0x1000
    requires userPtr % 0x1000 == 0 && 0x1000 <= userPtr && userPtr + 0x1000 * n <= 0x100_0000_0000 * 0x1000
    ensures Walk(m', AddrOf(m, USER_BASE + 1536), HighVa(t, off)) == Some(Translation(userPtr + 0x1000 * (t - 1) + off, true, true))
  {
    UserSpaceWalk(m, m', userPtr, n, tls, HighVa(t, off));
    ProgramPageMap(userPtr, n, tls, t, off);
  }

  /** What `UserMap` gives for page `t` of `1..num_pages` (other than 257) of the top 2 MiB. */
  lemma ProgramPageMap(userPtr: nat, n: nat, tls: nat, t: nat, off: nat)
    requires t < ENTRIES && t != TLS_ENTRY && t <= n && off < 0x1000
    requires userPtr % 0x1000 == 0 && 0x1000 <= userPtr && userPtr + 0x1000 * n <= 0x100_0000_0000 * 0x1000
    ensures UserMap(userPtr, n, tls, HighVa(t, off)) == Some(Translation(userPtr + 0x1000 * (t - 1) + off, true, true))
  {
    UserMapHigh(userPtr, n, tls, t, off);
    ProgramPageFrame(userPtr, t - 1);
  }

  /** `kernel_start` jumps to `0xFFFFFFFFC0001000`, which maps to `user_ptr` itself. */
  lemma EntryPointMapped(m: Mem, m': Mem, userPtr: nat, n: nat, tls: nat)
    requires Booted(m, userPtr, n, tls, m') && UserAddressable(m) && 1 <= n
    requires userPtr % 0x1000 == 0 && 0x1000 <= userPtr && userPtr + 0x1000 * n <= 0x100_0000_0000 * 0x1000
    ensures Walk(m', AddrOf(m, USER_BASE + 1536), CODE_VA) == Some(Translation(userPtr, true, true))
  {
    UserSpaceWalk(m, m', userPtr, n, tls, CODE_VA);
    EntryPointMap(userPtr, n, tls);
  }

  lemma EntryPointMap(userPtr: nat, n: nat, tls: nat)
    requires 1 <= n && userPtr % 0x1000 == 0 && 0x1000 <= userPtr && userPtr + 0x1000 * n <= 0x100_0000_0000 * 0x1000
    ensures UserMap(userPtr, n, tls, CODE_VA) == Some(Translation(userPtr, true, true))
  {
    KnownAddresses();
    ProgramPageMap(userPtr, n, tls, 1, 0);
  }

  /**
   * The stack grows down from the jump target into page 0 of the top
   * 2 MiB (`KnownAddresses`), which maps to the page just below `user_ptr`.
   */
  lemma StackPageMapped(m: Mem, m': Mem, userPtr: nat, n: nat, tls: nat, off: nat)
    requires Booted(m, userPtr, n, tls, m') && UserAddressable(m) && off < 0x1000
    requires userPtr % 0x1000 == 0 && 0x1000 <= userPtr && userPtr < 0x100_0000_0000 * 0x1000
    ensures Walk(m', AddrOf(m, USER_BASE + 1536), HighVa(0, off)) == Some(Translation(userPtr - 0x1000 + off, true, true))
  {
    UserSpaceWalk(m, m', userPtr, n, tls, HighVa(0, off));
    StackPageMap(userPtr, n, tls, off);
  }

  lemma StackPageMap(userPtr: nat, n: nat, tls: nat, off: nat)
    requires off < 0x1000 && userPtr % 0x1000 == 0 && 0x1000 <= userPtr && userPtr < 0x100_0000_0000 * 0x1000
    ensures UserMap(userPtr, n, tls, HighVa(0, off)) == Some(Translation(userPtr - 0x1000 + off, true, true))
  {
    UserMapHigh(userPtr, n, tls, 0, off);
    ProgramPageFrame(userPtr, -1);
  }

  /**
   * `TLS_VA + off`, page 257 of the top 2 MiB (`KnownAddresses`), maps to
   * the page holding the TLS block, whatever `num_pages` is: when the
   * program has 257 pages or more, its page 256 is hidden behind the TLS
   * page.  With `tls = tss_ptr + 8192` that page is `tss_ptr + 8192`
   * itself (`TlsPageFrame`).
   */
  lemma TlsPageMapped(m: Mem, m': Mem, userPtr: nat, n: nat, tls: nat, off: nat)
    requires Booted(m, userPtr, n, tls, m') && UserAddressable(m) && off < 0x1000
    ensures Walk(m', AddrOf(m, USER_BASE + 1536), HighVa(TLS_ENTRY, off)) == Some(Translation(PhysPage(tls) + off, true, true))
  {
    UserSpaceWalk(m, m', userPtr, n, tls, HighVa(TLS_ENTRY, off));
    UserMapHigh(userPtr, n, tls, TLS_ENTRY, off);
  }

  /** For a page-aligned `tss_ptr` below 2^52, the TLS PTE names the page 8192 bytes above it. */
  lemma TlsPageFrame(tssPtr: nat)
    requires tssPtr % 0x1000 == 0 && tssPtr + 0x2000 < 0x100_0000_0000 * 0x1000
    ensures PhysPage(TlsPage(tssPtr)) == tssPtr + 0x2000
  {
    assert UserPage(tssPtr, 2) == TlsPage(tssPtr);
    ProgramPageFrame(tssPtr, 2);
  }

  /** In the user address space the low 4 GiB still map to themselves, for the kernel only. */
  lemma UserSpaceLowIdentity(m: Mem, m': Mem, userPtr: nat, n: nat, tls: nat, va: nat)
    requires Booted(m, userPtr, n, tls, m') && UserAddressable(m) && va < 0x1_0000_0000
    ensures Walk(m', AddrOf(m, USER_BASE + 1536), va) == Some(Translation(va, false, true))
  {
    UserSpaceWalk(m, m', userPtr, n, tls, va);
    LowMap(userPtr, n, tls, va);
  }

  lemma LowMap(userPtr: nat, n: nat, tls: nat, va: nat)
    requires va < 0x1_0000_0000
    ensures UserMap(userPtr, n, tls, va) == Some(Translation(va, false, true))
  {
    LowVaSplit(va);
    DivModUnique(va, va, 0, 0x1_0000_0000);
  }
}

=== FILE: kernel_tables.dfy ===
/**
 * `create_kernel_page_table` of page_table.c: an identity map of the first
 * 4 GiB built at fixed word offsets of one buffer.
 *
 *   words 0 .. 1048575        1048576 PTEs, PTE i maps frame i
 *   words 1048576 .. 1050623  2048 PDEs, PDE i points at the page of PTEs 512i ..
 *   words 1050624 .. 1051135  one PDPT page, entries 0..3 point at the PD pages
 *   words 1051136 .. 1051647  one PML4 page, entry 0 points at the PDPT page
 *
 * The buffer ends at 8413184 bytes.  Loading CR3 is not part of this
 * model; the returned value is what the C function returns.
 */
module KernelTables {
  import opened Wrappers
  import opened PageEntry
  import opened PageWalk

  const KERNEL_PTES: nat := 1048576
  const PDE_AT: nat := 1048576
  const KERNEL_PDES: nat := 2048
  const PDPE_AT: nat := 1050624
  const PML_AT: nat := 1051136
  const KERNEL_WORDS: nat := 1051648
  const KERNEL_BYTES: nat := 8413184

  /** The four regions follow each other without overlap and fill exactly `KERNEL_BYTES`. */
  lemma KernelRegions()
    ensures PDE_AT == KERNEL_PTES && KERNEL_PTES == KERNEL_PDES * 512
    ensures PDPE_AT == PDE_AT + KERNEL_PDES && PML_AT == PDPE_AT + ENTRIES && KERNEL_WORDS == PML_AT + ENTRIES
    ensures KERNEL_WORDS * 8 == KERNEL_BYTES && KERNEL_BYTES == 2054 * 0x1000
  {
  }

  /** PTE `i` of the kernel table: frame `i`, present, supervisor. */
  function KernelPte(i: nat): Word
  {
    EncodePte(SetPte(i, 1, 0))
  }

  /** Bit 8 (`ign2`) of the directory entry a setter writes over, the only bit of it that survives; zero past the buffer. */
  function Prior(m: Mem, k: nat): Bit
  {
    Ign2(if k < |m.words| then m.words[k] else 0)
  }

  /** PDE `i`: the page holding PTEs `512 i ..`; `ign2` is taken from the word written over. */
  function KernelPde(m: Mem, i: nat): Word
  {
    EncodePde(SetPde(Prior(m, PDE_AT + i), AddrOf(m, 512 * i) / 0x1000, 1, 0))
  }

  /** PDPE `i`: the PD pages for `i < 4`, non-present beyond. */
  function KernelPdpe(m: Mem, i: nat): Word
  {
    var prior := Prior(m, PDPE_AT + i);
    if i < 4 then EncodePde(SetPde(prior, AddrOf(m, PDE_AT + 512 * i) / 0x1000, 1, 0))
    else EncodePde(SetPde(prior, 0, 0, 0))
  }

  /** PML4 entry `i`: the PDPT page for `i == 0`, non-present beyond. */
  function KernelPml(m: Mem, i: nat): Word
  {
    if i == 0 then EncodePml(SetPml(AddrOf(m, PDPE_AT) / 0x1000, 1, 0))
    else EncodePml(SetPml(0, 0, 0))
  }

  /** The first `KERNEL_WORDS` words of `after` hold the kernel tables built over `before`. */
  ghost predicate KernelTablesIn(before: Mem, after: Mem)
  {
    && after.base == before.base
    && |after.words| == |before.words| >= KERNEL_WORDS
    && (forall i {:trigger KernelPte(i)} :: 0 <= i < KERNEL_PTES ==> after.words[i] == KernelPte(i))
    && (forall i {:trigger KernelPde(before, i)} :: 0 <= i < KERNEL_PDES ==> after.words[PDE_AT + i] == KernelPde(before, i))
    && (forall i {:trigger KernelPdpe(before, i)} :: 0 <= i < ENTRIES ==> after.words[PDPE_AT + i] == KernelPdpe(before, i))
    && (forall i {:trigger KernelPml(before, i)} :: 0 <= i < ENTRIES ==> after.words[PML_AT + i] == KernelPml(before, i))
  }

  /** `after` holds the kernel tables built over `before`, and nothing past them changed. */
  ghost predicate KernelTablesBuilt(before: Mem, after: Mem)
  {
    KernelTablesIn(before, after) && KernelFrame(before, after)
  }

  /** Nothing from `KERNEL_WORDS` on differs between `before` and `after`. */
  ghost predicate KernelFrame(before: Mem, after: Mem)
  {
    && after.base == before.base && |after.words| == |before.words|
    && (forall k :: KERNEL_WORDS <= k < |before.words| ==> after.words[k] == before.words[k])
  }

  /** Level 1: PTE `i` maps frame `i`, present and supervisor (the first C loop). */
  method FillKernelPtes(w: seq<Word>) returns (w': seq<Word>)
    requires |w| >= KERNEL_WORDS
    ensures |w'| == |w|
    ensures forall i :: 0 <= i < KERNEL_PTES ==> w'[i] == KernelPte(i)
    ensures forall k :: KERNEL_PTES <= k < |w| ==> w'[k] == w[k]
  {
    w' := w;
    var i := 0;
    while i < KERNEL_PTES
      invariant 0 <= i <= KERNEL_PTES && |w'| == |w|
      invariant forall j :: 0 <= j < i ==> w'[j] == KernelPte(j)
      invariant forall k :: i <= k < |w| ==> w'[k] == w[k]
    {
      w' := w'[i := KernelPte(i)];
      i := i + 1;
    }
  }

  /** Level 2: the 2048 PDEs (the second C loop); the words below are kept. */
  method FillKernelPdes(m: Mem, w: seq<Word>) returns (w': seq<Word>)
    requires |w| == |m.words| >= KERNEL_WORDS
    ensures |w'| == |w|
    ensures forall i :: 0 <= i < KERNEL_PDES ==> w'[PDE_AT + i] == KernelPde(m, i)
    ensures forall k :: 0 <= k < |w| && !(PDE_AT <= k < PDPE_AT) ==> w'[k] == w[k]
  {
    w' := w;
    var i := 0;
    while i < KERNEL_PDES
      invariant 0 <= i <= KERNEL_PDES && |w'| == |w|
      invariant forall j :: 0 <= j < i ==> w'[PDE_AT + j] == KernelPde(m, j)
      invariant forall k :: 0 <= k < |w| && !(PDE_AT <= k < PDE_AT + i) ==> w'[k] == w[k]
    {
      w' := w'[PDE_AT + i := KernelPde(m, i)];
      i := i + 1;
    }
  }

  /** Level 3: PDPEs 0..3 point at the PD pages and 4..511 are padding (the third and fourth C loops). */
  method FillKernelPdpes(m: Mem, w: seq<Word>) returns (w': seq<Word>)
    requires |w| == |m.words| >= KERNEL_WORDS
    ensures |w'| == |w|
    ensures forall i :: 0 <= i < ENTRIES ==> w'[PDPE_AT + i] == KernelPdpe(m, i)
    ensures forall k :: 0 <= k < |w| && !(PDPE_AT <= k < PML_AT) ==> w'[k] == w[k]
  {
    w' := w;
    var i := 0;
    while i < ENTRIES
      invariant 0 <= i <= ENTRIES && |w'| == |w|
      invariant forall j :: 0 <= j < i ==> w'[PDPE_AT + j] == KernelPdpe(m, j)
      invariant forall k :: 0 <= k < |w| && !(PDPE_AT <= k < PDPE_AT + i) ==> w'[k] == w[k]
    {
      w' := w'[PDPE_AT + i := KernelPdpe(m, i)];
      i := i + 1;
    }
  }

  /** Level 4: PML4 entry 0 points at the PDPT page and 1..511 are padding. */
  method FillKernelPmls(m: Mem, w: seq<Word>) returns (w': seq<Word>)
    requires |w| == |m.words| >= KERNEL_WORDS
    ensures |w'| == |w|
    ensures forall i :: 0 <= i < ENTRIES ==> w'[PML_AT + i] == KernelPml(m, i)
    ensures forall k :: 0 <= k < |w| && !(PML_AT <= k < KERNEL_WORDS) ==> w'[k] == w[k]
  {
    w' := w;
    var i := 0;
    while i < ENTRIES
      invariant 0 <= i <= ENTRIES && |w'| == |w|
      invariant forall j :: 0 <= j < i ==> w'[PML_AT + j] == KernelPml(m, j)
      invariant forall k :: 0 <= k < |w| && !(PML_AT <= k < PML_AT + i) ==> w'[k] == w[k]
    {
      w' := w'[PML_AT + i := KernelPml(m, i)];
      i := i + 1;
    }
  }

  /**
   * `create_kernel_page_table`: fills the four regions in the order of the
   * C loops and returns the PML4 address with its low 12 bits cleared.
   */
  method CreateKernelPageTable(m: Mem) returns (cr3: nat, m': Mem)
    requires |m.words| >= KERNEL_WORDS
    ensures KernelTablesBuilt(m, m')
    ensures cr3 == AddrOf(m, PML_AT) - AddrOf(m, PML_AT) % 0x1000
  {
    var w1 := FillKernelPtes(m.words);
    var w2 := FillKernelPdes(m, w1);
    var w3 := FillKernelPdpes(m, w2);
    var w := FillKernelPmls(m, w3);
    m' := Mem(m.base, w);
    var pml := AddrOf(m, PML_AT);
    cr3 := pml - pml % 0x1000;
  }

  /*---------------------------------------------------------------------
   * What the tables map
   *-------------------------------------------------------------------*/

  /** The tables' pages lie below 2^52, the physical-address width of a frame field. */
  predicate PhysicallyAddressable(m: Mem)
  {
    m.base % 0x1000 == 0 && AddrOf(m, KERNEL_WORDS) <= 0x100_0000_0000 * 0x1000
  }

  /** A word at a multiple of 512 in a page-aligned buffer starts a page, and a frame field can name it. */
  lemma FrameOf(m: Mem, k: nat)
    requires m.base % 0x1000 == 0 && k % 512 == 0 && AddrOf(m, k) < 0x100_0000_0000 * 0x1000
    ensures AddrOf(m, k) % 0x1000 == 0
    ensures (AddrOf(m, k) / 0x1000) % 0x100_0000_0000 * 0x1000 == AddrOf(m, k)
  {
    var q := m.base / 0x1000 + k / 512;
    assert AddrOf(m, k) == 0 + 0x1000 * q;
    DivModUnique(AddrOf(m, k), 0, q, 0x1000);
    DivModUnique(q, q, 0, 0x100_0000_0000);
  }

  /** The PML4 step: entry 0 leads to the PDPT page, supervisor and writable; every other entry is absent. */
  lemma KernelPmlStep(m: Mem, i: nat)
    requires PhysicallyAddressable(m) && i < ENTRIES
    ensures var w := KernelPml(m, i);
      if i == 0 then Entry(w, false, true, AddrOf(m, PDPE_AT))
      else !Present(w)
  {
    if i == 0 {
      FrameOf(m, PDPE_AT);
      SetPmlSpec(AddrOf(m, PDPE_AT) / 0x1000, 1, 0);
    } else {
      SetPmlSpec(0, 0, 0);
    }
  }

  /** The PDPT step: entries 0..3 lead to the four PD pages; every other entry is absent. */
  lemma KernelPdpeStep(m: Mem, i: nat)
    requires PhysicallyAddressable(m) && i < ENTRIES
    ensures var w := KernelPdpe(m, i);
      if i < 4 then Entry(w, false, true, AddrOf(m, PDE_AT + 512 * i))
      else !Present(w)
  {
    var prior := Prior(m, PDPE_AT + i);
    if i < 4 {
      FrameOf(m, PDE_AT + 512 * i);
      SetPdeSpec(prior, AddrOf(m, PDE_AT + 512 * i) / 0x1000, 1, 0);
    } else {
      SetPdeSpec(prior, 0, 0, 0);
    }
  }

  /** The PD step: PDE `i` leads to the page holding PTEs `512 i ..`. */
  lemma KernelPdeStep(m: Mem, i: nat)
    requires PhysicallyAddressable(m) && i < KERNEL_PDES
    ensures var w := KernelPde(m, i);
      Entry(w, false, true, AddrOf(m, 512 * i))
  {
    FrameOf(m, 512 * i);
    SetPdeSpec(Prior(m, PDE_AT + i), AddrOf(m, 512 * i) / 0x1000, 1, 0);
  }

  /** The PT step: PTE `i` maps page `i`. */
  lemma KernelPteStep(i: nat)
    requires i < KERNEL_PTES
    ensures var w := KernelPte(i);
      Entry(w, false, true, 0x1000 * i)
  {
    DivModUnique(i, i, 0, 0x100_0000_0000);
    SetPteSpec(i, 1, 0);
  }

  /** An address whose PML4 index is 0 and PDPT index below 4 keeps its low 32 bits as written by the three lower indices. */
  lemma LowBits(va: nat)
    requires PmlIndex(va) == 0 && PdptIndex(va) < 4
    ensures va % 0x1_0000_0000 == va % 0x1000 + 0x1000 * (PtIndex(va) + 512 * (PdIndex(va) + 512 * PdptIndex(va)))
  {
    VaSplit(va);
    var low := va % 0x1000 + 0x1000 * (PtIndex(va) + 512 * (PdIndex(va) + 512 * PdptIndex(va)));
    DivModUnique(va, low, 128 * (512 * (va / 0x1_0000_0000_0000)), 0x1_0000_0000);
  }

  /** The value `create_kernel_page_table` returns names the PML4 page. */
  lemma RootIsPml(m: Mem, cr3: nat)
    requires PhysicallyAddressable(m)
    requires cr3 == AddrOf(m, PML_AT) - AddrOf(m, PML_AT) % 0x1000
    ensures cr3 == AddrOf(m, PML_AT) && RootOf(cr3) == AddrOf(m, PML_AT)
  {
    FrameOf(m, PML_AT);
  }

  /** PML4 entry `i` of the built buffer: entry 0 leads to the PDPT page, every other is absent. */
  lemma BuiltPml(m: Mem, m': Mem, i: nat)
    requires KernelTablesIn(m, m') && PhysicallyAddressable(m) && i < ENTRIES
    ensures i == 0 ==> Leads(m', AddrOf(m, PML_AT), i, false, true, AddrOf(m, PDPE_AT))
    ensures i != 0 ==> Absent(m', AddrOf(m, PML_AT), i)
  {
    KernelPmlStep(m, i);
    assert AddrOf(m', PML_AT) == AddrOf(m, PML_AT);
    if i == 0 {
      WordLeads(m', PML_AT, i, false, true, AddrOf(m, PDPE_AT));
    } else {
      WordAbsent(m', PML_AT, i);
    }
  }

  /** PDPT entry `i` of the built buffer: entries 0..3 lead to the PD pages, every other is absent. */
  lemma BuiltPdpe(m: Mem, m': Mem, i: nat)
    requires KernelTablesIn(m, m') && PhysicallyAddressable(m) && i < ENTRIES
    ensures i < 4 ==> Leads(m', AddrOf(m, PDPE_AT), i, false, true, AddrOf(m, PDE_AT + 512 * i))
    ensures i >= 4 ==> Absent(m', AddrOf(m, PDPE_AT), i)
  {
    KernelPdpeStep(m, i);
    assert AddrOf(m', PDPE_AT) == AddrOf(m, PDPE_AT);
    if i < 4 {
      WordLeads(m', PDPE_AT, i, false, true, AddrOf(m, PDE_AT + 512 * i));
    } else {
      WordAbsent(m', PDPE_AT, i);
    }
  }

  /** Entry `b` of PD page `a` of the built buffer leads to the page holding PTEs `512 (512 a + b) ..`. */
  lemma BuiltPde(m: Mem, m': Mem, a: nat, b: nat)
    requires KernelTablesIn(m, m') && PhysicallyAddressable(m) && a < 4 && b < ENTRIES
    ensures Leads(m', AddrOf(m, PDE_AT + 512 * a), b, false, true, AddrOf(m, 512 * (512 * a + b)))
  {
    assert PDE_AT + 512 * a + b == PDE_AT + (512 * a + b);
    KernelPdeStep(m, 512 * a + b);
    assert AddrOf(m', PDE_AT + 512 * a) == AddrOf(m, PDE_AT + 512 * a);
    WordLeads(m', PDE_AT + 512 * a, b, false, true, AddrOf(m, 512 * (512 * a + b)));
  }

  /** Entry `t` of the page holding PTEs `512 pd ..` maps page `512 pd + t`. */
  lemma BuiltPte(m: Mem, m': Mem, pd: nat, t: nat)
    requires KernelTablesIn(m, m') && pd < KERNEL_PDES && t < ENTRIES
    ensures Leads(m', AddrOf(m, 512 * pd), t, false, true, 0x1000 * (512 * pd + t))
  {
    KernelPteStep(512 * pd + t);
    assert AddrOf(m', 512 * pd) == AddrOf(m, 512 * pd);
    WordLeads(m', 512 * pd, t, false, true, 0x1000 * (512 * pd + t));
  }

  /** Supervisor, writable levels that end at page `512 (512 a + b) + c` map `va` to its low 32 bits. */
  lemma WalkLowFour(m': Mem, cr3: nat, va: nat, t3: nat, t2: nat, t1: nat)
    requires PmlIndex(va) == 0 && PdptIndex(va) < 4
    requires Leads(m', RootOf(cr3), PmlIndex(va), false, true, t3)
    requires Leads(m', t3, PdptIndex(va), false, true, t2)
    requires Leads(m', t2, PdIndex(va), false, true, t1)
    requires Leads(m', t1, PtIndex(va), false, true, 0x1000 * (512 * (512 * PdptIndex(va) + PdIndex(va)) + PtIndex(va)))
    ensures Walk(m', cr3, va) == Some(Translation(va % 0x1_0000_0000, false, true))
  {
    var a, b, c := PdptIndex(va), PdIndex(va), PtIndex(va);
    var page := 0x1000 * (512 * (512 * a + b) + c);
    WalkLeads(m', cr3, va, t3, t2, t1, page, false, false, false, false, true, true, true, true);
    LowBits(va);
    assert 512 * (512 * a + b) + c == c + 512 * (b + 512 * a);
    assert page + va % 0x1000 == va % 0x1_0000_0000;
  }

  /**
   * Below a PML4 entry that leads to the kernel PDPT page, supervisor and
   * writable, the kernel tables map the first four PDPT slots to the low
   * 32 bits of the address and nothing else.  Both the kernel's own PML4
   * and the user PML4 (entry 0) lead there.
   */
  lemma KernelBelowPml(m: Mem, m': Mem, cr3: nat, va: nat)
    requires KernelTablesIn(m, m') && PhysicallyAddressable(m)
    requires PmlIndex(va) == 0 && Leads(m', RootOf(cr3), PmlIndex(va), false, true, AddrOf(m, PDPE_AT))
    ensures PdptIndex(va) < 4 ==> Walk(m', cr3, va) == Some(Translation(va % 0x1_0000_0000, false, true))
    ensures PdptIndex(va) >= 4 ==> Walk(m', cr3, va) == None
  {
    if PdptIndex(va) >= 4 {
      BuiltPdpe(m, m', PdptIndex(va));
      WalkAbsentPdpt(m', cr3, va, AddrOf(m, PDPE_AT), false, true);
    } else {
      KernelLowMapped(m, m', cr3, va);
    }
  }

  /** Addresses in the first four PDPT slots map to their low 32 bits. */
  lemma KernelLowMapped(m: Mem, m': Mem, cr3: nat, va: nat)
    requires KernelTablesIn(m, m') && PhysicallyAddressable(m)
    requires PmlIndex(va) == 0 && Leads(m', RootOf(cr3), PmlIndex(va), false, true, AddrOf(m, PDPE_AT))
    requires PdptIndex(va) < 4
    ensures Walk(m', cr3, va) == Some(Translation(va % 0x1_0000_0000, false, true))
  {
    var a, b, c := PdptIndex(va), PdIndex(va), PtIndex(va);
    var t3, t2, t1 := AddrOf(m, PDPE_AT), AddrOf(m, PDE_AT + 512 * a), AddrOf(m, 512 * (512 * a + b));
    BuiltPdpe(m, m', a);
    BuiltPde(m, m', a, b);
    BuiltPte(m, m', 512 * a + b, c);
    WalkLowFour(m', cr3, va, t3, t2, t1);
  }

  /**
   * The kernel tables as the CPU sees them once CR3 holds the returned
   * value: an address is mapped exactly when its PML4 index is 0 and its
   * PDPT index is below 4, and then to its low 32 bits, writable and
   * supervisor-only.  In particular every address below 4 GiB maps to
   * itself.
   */
  lemma KernelWalk(m: Mem, m': Mem, cr3: nat, va: nat)
    requires KernelTablesBuilt(m, m') && PhysicallyAddressable(m)
    requires cr3 == AddrOf(m, PML_AT) - AddrOf(m, PML_AT) % 0x1000
    ensures PmlIndex(va) == 0 && PdptIndex(va) < 4 ==> Walk(m', cr3, va) == Some(Translation(va % 0x1_0000_0000, false, true))
    ensures !(PmlIndex(va) == 0 && PdptIndex(va) < 4) ==> Walk(m', cr3, va) == None
  {
    RootIsPml(m, cr3);
    BuiltPml(m, m', PmlIndex(va));
    if PmlIndex(va) != 0 {
      WalkAbsentPml(m', cr3, va);
    } else {
      KernelBelowPml(m, m', cr3, va);
    }
  }

  /** The identity map of the low 4 GiB. */
  lemma KernelIdentity(m: Mem, m': Mem, cr3: nat, va: nat)
    requires KernelTablesBuilt(m, m') && PhysicallyAddressable(m)
    requires cr3 == AddrOf(m, PML_AT) - AddrOf(m, PML_AT) % 0x1000
    requires va < 0x1_0000_0000
    ensures Walk(m', cr3, va) == Some(Translation(va, false, true))
  {
    LowVaSplit(va);
    KernelWalk(m, m', cr3, va);
    DivModUnique(va, va, 0, 0x1_0000_0000);
  }
}

=== FILE: page_entry.dfy ===
/**
 * The 64-bit entry layouts of kerninc/page_table.h and the four setters of
 * page_table.c.
 *
 * A C bit-field struct is modelled as a record of small naturals plus a
 * packing: the fields are laid out from bit 0 upwards in declaration order,
 * each taking its declared width (section 5.3, long-mode page translation,
 * of the AMD64 Architecture Programmer's Manual, Volume 2).  The packing is
 * written once, as a mixed-radix number (`Pack`/`Unpack`): a field of `n`
 * bits has radix `2^n`, and every entry kind is a list of fields with its
 * own list of radices.
 */
module PageEntry {

  /*---------------------------------------------------------------------
   * Division facts
   *-------------------------------------------------------------------*/

  lemma ZeroMul(p: int, k: int)
    requires p > 0 && -p < p * k < p
    ensures k == 0
  {
  }

  /** Quotient and remainder are fixed by any decomposition `x == b + p * q` with `b < p`. */
  lemma DivModUnique(x: nat, b: nat, q: nat, p: nat)
    requires p > 0 && b < p && x == b + p * q
    ensures x % p == b && x / p == q
  {
    assert p * (x / p - q) == b - x % p;
    ZeroMul(p, x / p - q);
  }

  lemma DivSplit(x: nat, d: nat)
    requires d > 0
    ensures x == x % d + d * (x / d)
  {
  }

  lemma MulLe(a: nat, b: nat, c: nat)
    requires b <= c
    ensures a * b <= a * c
  {
  }

  lemma MulNeg(p: int, k: int)
    requires p > 0 && p * k < 0
    ensures k < 0
  {
  }

  lemma DivLt(x: nat, a: nat, b: nat)
    requires a > 0 && x < a * b
    ensures x / a < b
  {
    assert a * (x / a - b) < 0;
    MulNeg(a, x / a - b);
  }

  lemma DivDiv(x: nat, a: nat, b: nat)
    requires a > 0 && b > 0
    ensures (x / a) / b == x / (a * b)
  {
    DivNat(x, a);
    var q1: nat, r1 := x / a, x % a;
    DivNat(q1, b);
    var q2: nat, r2 := q1 / b, q1 % b;
    Regroup(x, a, b, q1, r1, q2, r2);
    MulLe(a, r2, b - 1);
    DivModUnique(x, r1 + a * r2, q2, a * b);
  }

  lemma Regroup(x: nat, a: nat, b: nat, q1: nat, r1: nat, q2: nat, r2: nat)
    requires x == r1 + a * q1 && q1 == r2 + b * q2
    ensures x == (r1 + a * r2) + (a * b) * q2
  {
  }

  lemma DivNat(w: nat, d: nat)
    requires d > 0
    ensures w / d >= 0
  {
    MulGt(d, w / d);
  }

  lemma MulGt(p: int, k: int)
    requires p > 0 && p * k > -p
    ensures k >= 0
  {
  }

  predicate Radices(rs: seq<nat>)
  {
    forall i :: 0 <= i < |rs| ==> rs[i] > 0
  }

  predicate Fits(fs: seq<nat>, rs: seq<nat>)
  {
    |fs| == |rs| && forall i :: 0 <= i < |fs| ==> fs[i] < rs[i]
  }

  function FieldAt(w: nat, unit: nat, span: nat): nat
    requires unit > 0 && span > 0
  {
    (w / unit) % span
  }

  /** Dropping the lowest field keeps a fitting list fitting. */
  lemma Tails(fs: seq<nat>, rs: seq<nat>)
    requires Fits(fs, rs) && Radices(rs) && |rs| > 0
    ensures Fits(fs[1..], rs[1..]) && Radices(rs[1..])
  {
    assert forall i :: 0 <= i < |rs| - 1 ==> fs[1..][i] == fs[i + 1] && rs[1..][i] == rs[i + 1];
  }

  /** The fields as one number, field 0 the least significant digit. */
  function Pack(fs: seq<nat>, rs: seq<nat>): nat
    requires Fits(fs, rs) && Radices(rs)
  {
    if |fs| == 0 then 0
    else
      Tails(fs, rs);
      fs[0] + rs[0] * Pack(fs[1..], rs[1..])
  }

  /** A packed list stays below the product of its radices. */
  lemma {:induction false} PackBound(fs: seq<nat>, rs: seq<nat>)
    requires Fits(fs, rs) && Radices(rs)
    ensures Pack(fs, rs) < Unit(rs, |rs|)
  {
    if |fs| > 0 {
      Tails(fs, rs);
      PackBound(fs[1..], rs[1..]);
      UnitShift(rs, |rs|);
      PackStep(fs[0], rs[0], Pack(fs[1..], rs[1..]), Unit(rs[1..], |rs| - 1));
    }
  }

  /** One digit below its radix followed by a number below `p` stays below `r * p`. */
  lemma PackStep(f: nat, r: nat, rest: nat, p: nat)
    requires f < r && rest < p
    ensures f + r * rest < r * p
  {
    MulLe(r, rest, p - 1);
    assert r * (p - 1) == r * p - r;
  }

  function Unpack(w: nat, rs: seq<nat>): (fs: seq<nat>)
    requires Radices(rs)
    ensures Fits(fs, rs)
    decreases |rs|
  {
    if |rs| == 0 then []
    else
      DivNat(w, rs[0]);
      [w % rs[0]] + Unpack(w / rs[0], rs[1..])
  }

  lemma {:induction false} UnpackPack(fs: seq<nat>, rs: seq<nat>)
    requires Fits(fs, rs) && Radices(rs)
    ensures Unpack(Pack(fs, rs), rs) == fs
  {
    if |fs| > 0 {
      DivModUnique(Pack(fs, rs), fs[0], Pack(fs[1..], rs[1..]), rs[0]);
      UnpackPack(fs[1..], rs[1..]);
    }
  }

  lemma {:induction false} PackUnpack(w: nat, rs: seq<nat>)
    requires Radices(rs) && w < Unit(rs, |rs|)
    ensures Pack(Unpack(w, rs), rs) == w
    decreases |rs|
  {
    if |rs| > 0 {
      var fs := Unpack(w, rs);
      Tails(fs, rs);
      UnitShift(rs, |rs|);
      DivLt(w, rs[0], Unit(rs[1..], |rs| - 1));
      DivNat(w, rs[0]);
      var q: nat := w / rs[0];
      PackUnpack(q, rs[1..]);
      assert fs[1..] == Unpack(q, rs[1..]);
      assert Pack(fs, rs) == w % rs[0] + rs[0] * q;
      DivSplit(w, rs[0]);
    }
  }

  /** Field `i` of a list that fits its radices. */
  function Field(fs: seq<nat>, rs: seq<nat>, i: nat): (f: nat)
    requires Fits(fs, rs) && i < |fs|
    ensures f < rs[i]
  {
    fs[i]
  }

  /** The place value of field `i`: the product of the radices below it. */
  function Unit(rs: seq<nat>, i: nat): (u: nat)
    requires Radices(rs) && i <= |rs|
    ensures u > 0
  {
    if i == 0 then 1 else Unit(rs, i - 1) * rs[i - 1]
  }

  lemma {:induction false} UnitShift(rs: seq<nat>, i: nat)
    requires Radices(rs) && 1 <= i <= |rs|
    ensures Unit(rs, i) == rs[0] * Unit(rs[1..], i - 1)
  {
    if i > 1 {
      UnitShift(rs, i - 1);
      assert rs[1..][i - 2] == rs[i - 1];
      assert Unit(rs, i) == (rs[0] * Unit(rs[1..], i - 2)) * rs[i - 1];
    }
  }

  lemma {:induction false} PackField(fs: seq<nat>, rs: seq<nat>, i: nat)
    requires Fits(fs, rs) && Radices(rs) && i < |fs|
    ensures FieldAt(Pack(fs, rs), Unit(rs, i), rs[i]) == fs[i]
  {
    var w := Pack(fs, rs);
    DivModUnique(w, fs[0], Pack(fs[1..], rs[1..]), rs[0]);
    if i > 0 {
      UnitShift(rs, i);
      DivDiv(w, rs[0], Unit(rs[1..], i - 1));
      PackField(fs[1..], rs[1..], i - 1);
    }
  }

  /** Field `i` of an unpacked word is the word's digit at place value `Unit(rs, i)`. */
  lemma {:induction false} UnpackField(w: nat, rs: seq<nat>, i: nat)
    requires Radices(rs) && i < |rs|
    ensures Unpack(w, rs)[i] == FieldAt(w, Unit(rs, i), rs[i])
    decreases i
  {
    if i > 0 {
      UnitShift(rs, i);
      DivDiv(w, rs[0], Unit(rs[1..], i - 1));
      DivNat(w, rs[0]);
      UnpackField(w / rs[0], rs[1..], i - 1);
    }
  }

  /** A list of fields that agrees with the digits of a word below the product of the radices packs to that word. */
  lemma PackDigits(fs: seq<nat>, rs: seq<nat>, w: nat)
    requires Fits(fs, rs) && Radices(rs) && w < Unit(rs, |rs|)
    requires forall i :: 0 <= i < |fs| ==> fs[i] == FieldAt(w, Unit(rs, i), rs[i])
    ensures Pack(fs, rs) == w
  {
    forall i | 0 <= i < |rs|
      ensures Unpack(w, rs)[i] == fs[i]
    {
      UnpackField(w, rs, i);
    }
    assert Unpack(w, rs) == fs;
    PackUnpack(w, rs);
  }

  /*---------------------------------------------------------------------
   * Field types
   *-------------------------------------------------------------------*/

  /** A 64-bit word. */
  const WORD_LIMIT: nat := 0x1_0000_0000_0000_0000
  type Word = w: nat | w < WORD_LIMIT

  type Bit = x: nat | x < 2
  type U2 = x: nat | x < 4
  type U3 = x: nat | x < 8
  type U4 = x: nat | x < 16
  type U7 = x: nat | x < 128
  type U11 = x: nat | x < 2048
  type U12 = x: nat | x < 4096
  /** A 40-bit physical frame number (`page_address`, `base_address`). */
  const FRAME_LIMIT: nat := 0x100_0000_0000
  type U40 = x: nat | x < FRAME_LIMIT

  /** `PT_INDEX_MASK`: nine index bits per level. */
  const PT_INDEX_MASK: nat := 0x1FF

  /*---------------------------------------------------------------------
   * Page table entry (`page_pte_t`)
   *-------------------------------------------------------------------*/

  datatype Pte = Pte(present: Bit, writable: Bit, usermode: Bit, pwt: Bit, pcd: Bit, accessed: Bit,
                     dirty: Bit, pat: Bit, global: Bit, avl: U3, frame: U40, avail: U7, pke: U4,
                     nonexecute: Bit)

  /** The field ranges in declaration order: 1-bit flags, avl:3, page_address:40, avail:7, pke:4, nonexecute:1. */
  const PTE_RADICES: seq<nat> := [2, 2, 2, 2, 2, 2, 2, 2, 2, 8, 0x100_0000_0000, 128, 16, 2]

  function PteFields(e: Pte): seq<nat>
  {
    [e.present, e.writable, e.usermode, e.pwt, e.pcd, e.accessed, e.dirty, e.pat, e.global,
     e.avl, e.frame, e.avail, e.pke, e.nonexecute]
  }

  /** Each field lies in its range. */
  lemma PteFieldsFit(e: Pte)
    ensures Fits(PteFields(e), PTE_RADICES) && Radices(PTE_RADICES)
  {
  }

  /** The entry as the 64-bit word the hardware reads. */
  function EncodePte(e: Pte): Word
  {
    PteFieldsFit(e);
    PteUnits();
    PackBound(PteFields(e), PTE_RADICES);
    Pack(PteFields(e), PTE_RADICES)
  }

  function DecodePte(w: nat): Pte
  {
    Pte(FieldAt(w, 1, 2), FieldAt(w, 2, 2), FieldAt(w, 4, 2),
        FieldAt(w, 8, 2), FieldAt(w, 0x10, 2), FieldAt(w, 0x20, 2),
        FieldAt(w, 0x40, 2), FieldAt(w, 0x80, 2), FieldAt(w, 0x100, 2),
        FieldAt(w, 0x200, 8), FieldAt(w, 0x1000, 0x100_0000_0000), FieldAt(w, 0x10_0000_0000_0000, 128),
        FieldAt(w, 0x800_0000_0000_0000, 16), FieldAt(w, 0x8000_0000_0000_0000, 2))
  }

  /*---------------------------------------------------------------------
   * Page directory and directory-pointer entries (`page_pde_t`, `page_pdpe_t`)
   *-------------------------------------------------------------------*/

  /** `page_pde_t` and `page_pdpe_t` have the same layout; one record serves both. */
  datatype Pde = Pde(present: Bit, writable: Bit, usermode: Bit, pwt: Bit, pcd: Bit, accessed: Bit,
                     ign: Bit, o: Bit, ign2: Bit, avl: U3, frame: U40, avail: U11, nonexecute: Bit)

  /** 1-bit flags up to ign2, avl:3, page_address:40, avail:11, nonexecute:1. */
  const PDE_RADICES: seq<nat> := [2, 2, 2, 2, 2, 2, 2, 2, 2, 8, 0x100_0000_0000, 2048, 2]

  function PdeFields(e: Pde): seq<nat>
  {
    [e.present, e.writable, e.usermode, e.pwt, e.pcd, e.accessed, e.ign, e.o, e.ign2,
     e.avl, e.frame, e.avail, e.nonexecute]
  }

  /** Each field lies in its range. */
  lemma PdeFieldsFit(e: Pde)
    ensures Fits(PdeFields(e), PDE_RADICES) && Radices(PDE_RADICES)
  {
  }

  /** The entry as the 64-bit word the hardware reads. */
  function EncodePde(e: Pde): Word
  {
    PdeFieldsFit(e);
    PdeUnits();
    PackBound(PdeFields(e), PDE_RADICES);
    Pack(PdeFields(e), PDE_RADICES)
  }

  function DecodePde(w: nat): Pde
  {
    Pde(FieldAt(w, 1, 2), FieldAt(w, 2, 2), FieldAt(w, 4, 2),
        FieldAt(w, 8, 2), FieldAt(w, 0x10, 2), FieldAt(w, 0x20, 2),
        FieldAt(w, 0x40, 2), FieldAt(w, 0x80, 2), FieldAt(w, 0x100, 2),
        FieldAt(w, 0x200, 8), FieldAt(w, 0x1000, 0x100_0000_0000), FieldAt(w, 0x10_0000_0000_0000, 2048),
        FieldAt(w, 0x8000_0000_0000_0000, 2))
  }

  /*---------------------------------------------------------------------
   * PML4 entry (`page_pml_t`)
   *-------------------------------------------------------------------*/

  datatype Pml = Pml(present: Bit, writable: Bit, usermode: Bit, pwt: Bit, pcd: Bit, accessed: Bit,
                     ign: Bit, mbz: U2, avl: U3, frame: U40, avail: U11, nonexecute: Bit)

  /** 1-bit flags up to ign, mbz:2, avl:3, page_address:40, avail:11, nonexecute:1. */
  const PML_RADICES: seq<nat> := [2, 2, 2, 2, 2, 2, 2, 4, 8, 0x100_0000_0000, 2048, 2]

  function PmlFields(e: Pml): seq<nat>
  {
    [e.present, e.writable, e.usermode, e.pwt, e.pcd, e.accessed, e.ign, e.mbz,
     e.avl, e.frame, e.avail, e.nonexecute]
  }

  /** Each field lies in its range. */
  lemma PmlFieldsFit(e: Pml)
    ensures Fits(PmlFields(e), PML_RADICES) && Radices(PML_RADICES)
  {
  }

  /** The entry as the 64-bit word the hardware reads. */
  function EncodePml(e: Pml): Word
  {
    PmlFieldsFit(e);
    PmlUnits();
    PackBound(PmlFields(e), PML_RADICES);
    Pack(PmlFields(e), PML_RADICES)
  }

  function DecodePml(w: nat): Pml
  {
    Pml(FieldAt(w, 1, 2), FieldAt(w, 2, 2), FieldAt(w, 4, 2),
        FieldAt(w, 8, 2), FieldAt(w, 0x10, 2), FieldAt(w, 0x20, 2),
        FieldAt(w, 0x40, 2), FieldAt(w, 0x80, 4), FieldAt(w, 0x200, 8),
        FieldAt(w, 0x1000, 0x100_0000_0000), FieldAt(w, 0x10_0000_0000_0000, 2048), FieldAt(w, 0x8000_0000_0000_0000, 2))
  }

  /*---------------------------------------------------------------------
   * CR3 (`cr3_info_t`)
   *-------------------------------------------------------------------*/

  datatype Cr3 = Cr3(reserved: U3, pwt: Bit, pcd: Bit, reserved2: U7, base: U40, mbz: U12)

  /** reserved:3, pwt:1, pcd:1, reserved2:7, base_address:40, mbz:12. */
  const CR3_RADICES: seq<nat> := [8, 2, 2, 128, 0x100_0000_0000, 4096]

  function Cr3Fields(c: Cr3): seq<nat>
  {
    [c.reserved, c.pwt, c.pcd, c.reserved2, c.base, c.mbz]
  }

  /** Each field lies in its range. */
  lemma Cr3FieldsFit(c: Cr3)
    ensures Fits(Cr3Fields(c), CR3_RADICES) && Radices(CR3_RADICES)
  {
  }

  function EncodeCr3(c: Cr3): Word
  {
    Cr3FieldsFit(c);
    Cr3Units();
    PackBound(Cr3Fields(c), CR3_RADICES);
    Pack(Cr3Fields(c), CR3_RADICES)
  }

  /*---------------------------------------------------------------------
   * Round trips and the 64-bit layout
   *-------------------------------------------------------------------*/

  /**
   * Every entry kind packs into exactly 64 bits: each encoding is a word
   * (the result type of `Encode...`), decoding it gives back the entry
   * (`...RoundTrip`), and every word is the encoding of the entry it
   * decodes to (`...WordRoundTrip`).
   */
  lemma PteRoundTrip(e: Pte)
    ensures DecodePte(EncodePte(e)) == e
  {
    PteFieldsFit(e);
    PteUnits();
    var fs := PteFields(e);
    PackField(fs, PTE_RADICES, 0);
    PackField(fs, PTE_RADICES, 1);
    PackField(fs, PTE_RADICES, 2);
    PackField(fs, PTE_RADICES, 3);
    PackField(fs, PTE_RADICES, 4);
    PackField(fs, PTE_RADICES, 5);
    PackField(fs, PTE_RADICES, 6);
    PackField(fs, PTE_RADICES, 7);
    PackField(fs, PTE_RADICES, 8);
    PackField(fs, PTE_RADICES, 9);
    PackField(fs, PTE_RADICES, 10);
    PackField(fs, PTE_RADICES, 11);
    PackField(fs, PTE_RADICES, 12);
    PackField(fs, PTE_RADICES, 13);
  }

  lemma PteWordRoundTrip(w: Word)
    ensures EncodePte(DecodePte(w)) == w
  {
    PteFieldsFit(DecodePte(w));
    PteUnits();
    PackDigits(PteFields(DecodePte(w)), PTE_RADICES, w);
  }

  lemma PdeRoundTrip(e: Pde)
    ensures DecodePde(EncodePde(e)) == e
  {
    PdeFieldsFit(e);
    PdeUnits();
    var fs := PdeFields(e);
    PackField(fs, PDE_RADICES, 0);
    PackField(fs, PDE_RADICES, 1);
    PackField(fs, PDE_RADICES, 2);
    PackField(fs, PDE_RADICES, 3);
    PackField(fs, PDE_RADICES, 4);
    PackField(fs, PDE_RADICES, 5);
    PackField(fs, PDE_RADICES, 6);
    PackField(fs, PDE_RADICES, 7);
    PackField(fs, PDE_RADICES, 8);
    PackField(fs, PDE_RADICES, 9);
    PackField(fs, PDE_RADICES, 10);
    PackField(fs, PDE_RADICES, 11);
    PackField(fs, PDE_RADICES, 12);
  }

  lemma PdeWordRoundTrip(w: Word)
    ensures EncodePde(DecodePde(w)) == w
  {
    PdeFieldsFit(DecodePde(w));
    PdeUnits();
    PackDigits(PdeFields(DecodePde(w)), PDE_RADICES, w);
  }

  lemma PmlRoundTrip(e: Pml)
    ensures DecodePml(EncodePml(e)) == e
  {
    PmlFieldsFit(e);
    PmlUnits();
    var fs := PmlFields(e);
    PackField(fs, PML_RADICES, 0);
    PackField(fs, PML_RADICES, 1);
    PackField(fs, PML_RADICES, 2);
    PackField(fs, PML_RADICES, 3);
    PackField(fs, PML_RADICES, 4);
    PackField(fs, PML_RADICES, 5);
    PackField(fs, PML_RADICES, 6);
    PackField(fs, PML_RADICES, 7);
    PackField(fs, PML_RADICES, 8);
    PackField(fs, PML_RADICES, 9);
    PackField(fs, PML_RADICES, 10);
    PackField(fs, PML_RADICES, 11);
  }

  lemma PmlWordRoundTrip(w: Word)
    ensures EncodePml(DecodePml(w)) == w
  {
    PmlFieldsFit(DecodePml(w));
    PmlUnits();
    PackDigits(PmlFields(DecodePml(w)), PML_RADICES, w);
  }

  /** Place values of the PTE fields. */
  lemma PteUnits()
    ensures Unit(PTE_RADICES, 1) == 2
    ensures Unit(PTE_RADICES, 2) == 4
    ensures Unit(PTE_RADICES, 3) == 8
    ensures Unit(PTE_RADICES, 4) == 0x10
    ensures Unit(PTE_RADICES, 5) == 0x20
    ensures Unit(PTE_RADICES, 6) == 0x40
    ensures Unit(PTE_RADICES, 7) == 0x80
    ensures Unit(PTE_RADICES, 8) == 0x100
    ensures Unit(PTE_RADICES, 9) == 0x200
    ensures Unit(PTE_RADICES, 10) == 0x1000
    ensures Unit(PTE_RADICES, 11) == 0x10_0000_0000_0000
    ensures Unit(PTE_RADICES, 12) == 0x800_0000_0000_0000
    ensures Unit(PTE_RADICES, 13) == 0x8000_0000_0000_0000
    ensures Unit(PTE_RADICES, 14) == WORD_LIMIT
  {
  }

  /**
   * The bit positions of the shared fields: present, writable and usermode
   * are bits 0, 1 and 2, the frame number is the 40 bits from bit 12 (so
   * the frame address is `entry & 0x000FFFFFFFFFF000`) and nonexecute is
   * bit 63.
   */
  lemma PteLayout(e: Pte)
    ensures var w := EncodePte(e);
      && FieldAt(w, 1, 2) == e.present && FieldAt(w, 2, 2) == e.writable && FieldAt(w, 4, 2) == e.usermode
      && FieldAt(w, 0x1000, 0x100_0000_0000) == e.frame && FieldAt(w, 0x8000_0000_0000_0000, 2) == e.nonexecute
  {
    var fs, rs := PteFields(e), PTE_RADICES;
    PteFieldsFit(e);
    PteUnits();
    PackField(fs, rs, 0);
    PackField(fs, rs, 1);
    PackField(fs, rs, 2);
    PackField(fs, rs, 10);
    PackField(fs, rs, 13);
  }

  /** Place values of the PDE and PDPE fields. */
  lemma PdeUnits()
    ensures Unit(PDE_RADICES, 1) == 2
    ensures Unit(PDE_RADICES, 2) == 4
    ensures Unit(PDE_RADICES, 3) == 8
    ensures Unit(PDE_RADICES, 4) == 0x10
    ensures Unit(PDE_RADICES, 5) == 0x20
    ensures Unit(PDE_RADICES, 6) == 0x40
    ensures Unit(PDE_RADICES, 7) == 0x80
    ensures Unit(PDE_RADICES, 8) == 0x100
    ensures Unit(PDE_RADICES, 9) == 0x200
    ensures Unit(PDE_RADICES, 10) == 0x1000
    ensures Unit(PDE_RADICES, 11) == 0x10_0000_0000_0000
    ensures Unit(PDE_RADICES, 12) == 0x8000_0000_0000_0000
    ensures Unit(PDE_RADICES, 13) == WORD_LIMIT
  {
  }

  /** The same positions in directory entries; `ign2` is bit 8. */
  lemma PdeLayout(e: Pde)
    ensures var w := EncodePde(e);
      && FieldAt(w, 1, 2) == e.present && FieldAt(w, 2, 2) == e.writable && FieldAt(w, 4, 2) == e.usermode
      && FieldAt(w, 0x100, 2) == e.ign2
      && FieldAt(w, 0x1000, 0x100_0000_0000) == e.frame && FieldAt(w, 0x8000_0000_0000_0000, 2) == e.nonexecute
  {
    var fs, rs := PdeFields(e), PDE_RADICES;
    PdeFieldsFit(e);
    PdeUnits();
    PackField(fs, rs, 0);
    PackField(fs, rs, 1);
    PackField(fs, rs, 2);
    PackField(fs, rs, 8);
    PackField(fs, rs, 10);
    PackField(fs, rs, 12);
  }

  /** Place values of the PML4 entry fields. */
  lemma PmlUnits()
    ensures Unit(PML_RADICES, 1) == 2
    ensures Unit(PML_RADICES, 2) == 4
    ensures Unit(PML_RADICES, 3) == 8
    ensures Unit(PML_RADICES, 4) == 0x10
    ensures Unit(PML_RADICES, 5) == 0x20
    ensures Unit(PML_RADICES, 6) == 0x40
    ensures Unit(PML_RADICES, 7) == 0x80
    ensures Unit(PML_RADICES, 8) == 0x200
    ensures Unit(PML_RADICES, 9) == 0x1000
    ensures Unit(PML_RADICES, 10) == 0x10_0000_0000_0000
    ensures Unit(PML_RADICES, 11) == 0x8000_0000_0000_0000
    ensures Unit(PML_RADICES, 12) == WORD_LIMIT
  {
  }

  /** The same positions in PML4 entries; `mbz` is bits 7..8. */
  lemma PmlLayout(e: Pml)
    ensures var w := EncodePml(e);
      && FieldAt(w, 1, 2) == e.present && FieldAt(w, 2, 2) == e.writable && FieldAt(w, 4, 2) == e.usermode
      && FieldAt(w, 0x80, 4) == e.mbz
      && FieldAt(w, 0x1000, 0x100_0000_0000) == e.frame && FieldAt(w, 0x8000_0000_0000_0000, 2) == e.nonexecute
  {
    var fs, rs := PmlFields(e), PML_RADICES;
    PmlFieldsFit(e);
    PmlUnits();
    PackField(fs, rs, 0);
    PackField(fs, rs, 1);
    PackField(fs, rs, 2);
    PackField(fs, rs, 7);
    PackField(fs, rs, 9);
    PackField(fs, rs, 11);
  }

  /** Place values of the CR3 fields. */
  lemma Cr3Units()
    ensures Unit(CR3_RADICES, 1) == 8
    ensures Unit(CR3_RADICES, 2) == 0x10
    ensures Unit(CR3_RADICES, 3) == 0x20
    ensures Unit(CR3_RADICES, 4) == 0x1000
    ensures Unit(CR3_RADICES, 5) == 0x10_0000_0000_0000
    ensures Unit(CR3_RADICES, 6) == WORD_LIMIT
  {
  }

  /** In CR3 the base address is the 40 bits from bit 12 and the top 12 bits are must-be-zero. */
  lemma Cr3Layout(c: Cr3)
    ensures var w := EncodeCr3(c);
      && FieldAt(w, 0x1000, 0x100_0000_0000) == c.base
      && FieldAt(w, 0x10_0000_0000_0000, 4096) == c.mbz
  {
    var fs, rs := Cr3Fields(c), CR3_RADICES;
    Cr3FieldsFit(c);
    Cr3Units();
    PackField(fs, rs, 4);
    PackField(fs, rs, 5);
  }

  /*---------------------------------------------------------------------
   * The setters of page_table.c
   *-------------------------------------------------------------------*/

  /** An `int` argument stored into a 1-bit field keeps its low bit. */
  function LowBit(x: int): Bit
  {
    x % 2
  }

  /**
   * `set_pte`: every field is assigned; present and usermode come from the
   * arguments, writable is 1, the frame is the address truncated to 40 bits
   * and every other field is 0.  `SetPteSpec` states what the hardware
   * reads from the word.
   */
  function SetPte(address: nat, present: int, usermode: int): Pte
  {
    Pte(LowBit(present), 1, LowBit(usermode), 0, 0, 0, 0, 0, 0, 0, address % 0x100_0000_0000, 0, 0, 0)
  }

  /** The word `set_pte` stores: present and user bits from the arguments, writable set, the 40-bit frame, executable. */
  lemma SetPteSpec(address: nat, present: int, usermode: int)
    ensures var w := EncodePte(SetPte(address, present, usermode));
      && FieldAt(w, 1, 2) == LowBit(present) && FieldAt(w, 2, 2) == 1 && FieldAt(w, 4, 2) == LowBit(usermode)
      && FieldAt(w, 0x1000, 0x100_0000_0000) == address % 0x100_0000_0000 && FieldAt(w, 0x8000_0000_0000_0000, 2) == 0
  {
    PteLayout(SetPte(address, present, usermode));
  }

  /** Bit 8 of a directory word: the `ign2` field of `page_pde_t` and `page_pdpe_t`. */
  function Ign2(w: nat): Bit
  {
    FieldAt(w, 0x100, 2)
  }

  /** `Ign2` reads the field `DecodePde` puts in `ign2`. */
  lemma Ign2Decode(w: nat)
    ensures DecodePde(w).ign2 == Ign2(w)
  {
  }

  /**
   * `set_pde` and `set_pdpe`: as `set_pte`, except that `ign` is assigned
   * twice and `ign2` never, so bit 8 keeps the value it had in the entry
   * written over, passed here as `ign2`.
   */
  function SetPde(ign2: Bit, address: nat, present: int, usermode: int): Pde
  {
    Pde(LowBit(present), 1, LowBit(usermode), 0, 0, 0, 0, 0, ign2, 0, address % 0x100_0000_0000, 0, 0)
  }

  /** The word `set_pde` / `set_pdpe` stores: as `set_pte`, with bit 8 taken from the entry written over. */
  lemma SetPdeSpec(ign2: Bit, address: nat, present: int, usermode: int)
    ensures var w := EncodePde(SetPde(ign2, address, present, usermode));
      && FieldAt(w, 1, 2) == LowBit(present) && FieldAt(w, 2, 2) == 1 && FieldAt(w, 4, 2) == LowBit(usermode)
      && Ign2(w) == ign2
      && FieldAt(w, 0x1000, 0x100_0000_0000) == address % 0x100_0000_0000 && FieldAt(w, 0x8000_0000_0000_0000, 2) == 0
  {
    PdeLayout(SetPde(ign2, address, present, usermode));
  }

  /** `set_pml`: as `set_pte`, with `mbz` (bits 7..8) cleared. */
  function SetPml(address: nat, present: int, usermode: int): Pml
  {
    Pml(LowBit(present), 1, LowBit(usermode), 0, 0, 0, 0, 0, 0, address % 0x100_0000_0000, 0, 0)
  }

  /** The word `set_pml` stores: as `set_pte`, with the must-be-zero bits 7..8 clear. */
  lemma SetPmlSpec(address: nat, present: int, usermode: int)
    ensures var w := EncodePml(SetPml(address, present, usermode));
      && FieldAt(w, 1, 2) == LowBit(present) && FieldAt(w, 2, 2) == 1 && FieldAt(w, 4, 2) == LowBit(usermode)
      && FieldAt(w, 0x80, 4) == 0
      && FieldAt(w, 0x1000, 0x100_0000_0000) == address % 0x100_0000_0000 && FieldAt(w, 0x8000_0000_0000_0000, 2) == 0
  {
    PmlLayout(SetPml(address, present, usermode));
  }
}

=== FILE: page_frame.dfy ===
/**
 * The page-frame bitmap allocator (allocator.c, kerninc/allocator.h).
 *
 * The C code keeps one `{inuse, reserved}` record per physical page in a
 * global buffer indexed by `addr >> PAGESHIFT`, plus two global byte
 * counters.  Here the globals become an explicit context record and every
 * operation is a pure function returning the C status code together with
 * the new context.
 */
module PageFrame {

  const PAGESIZE: nat := 4096
  const PAGESHIFT: nat := 12

  /** One bitmap record (`page_info_t`). */
  datatype PageInfo = PageInfo(inuse: bool, reserved: bool)

  /** `properties_ptr->info_buffer` together with `free_memory` and `used_memory`. */
  datatype Allocator = Allocator(pages: seq<PageInfo>, freeMemory: int, usedMemory: int)

  /** A C status code (0 = success, 1 = page already in the requested state) and the new context. */
  datatype Outcome = Outcome(code: int, state: Allocator)

  /** Which of the two bits of a record an operation works on. */
  datatype Flag = InUse | Reserved

  /** `(uint64_t)addr >> PAGESHIFT` */
  function PageIndex(addr: nat): nat
  {
    addr / 4096
  }

  function Get(p: PageInfo, f: Flag): bool
  {
    match f
    case InUse => p.inuse
    case Reserved => p.reserved
  }

  function Put(p: PageInfo, f: Flag, v: bool): (q: PageInfo)
    ensures Get(q, f) == v
    ensures forall g :: g != f ==> Get(q, g) == Get(p, g)
  {
    match f
    case InUse => p.(inuse := v)
    case Reserved => p.(reserved := v)
  }

  /** The C code has no bounds check; every index it touches must lie inside the bitmap. */
  predicate InBitmap(a: Allocator, addr: nat)
  {
    PageIndex(addr) < |a.pages|
  }

  /** A run of `n` pages starting at `addr` lies inside the bitmap. */
  predicate RunInBitmap(a: Allocator, addr: nat, n: nat)
  {
    PageIndex(addr) + n <= |a.pages|
  }

  lemma PageIndexOfOffset(addr: nat, i: nat)
    ensures PageIndex(addr + i * 4096) == PageIndex(addr) + i
  {
  }

  /*---------------------------------------------------------------------
   * Accounting
   *-------------------------------------------------------------------*/

  /** The number of flag bits set in one record: each set bit accounts for one page of `used_memory`. */
  function Bits(p: PageInfo): nat
  {
    (if p.inuse then 1 else 0) + (if p.reserved then 1 else 0)
  }

  function Weight(pages: seq<PageInfo>): nat
  {
    if |pages| == 0 then 0 else Weight(pages[..|pages| - 1]) + Bits(pages[|pages| - 1])
  }

  /**
   * The accounting invariant: every set bit is one page of used memory,
   * and the two counters always add up to the managed total.  A page that
   * is both reserved and in use counts twice, because `alloc_page` does not
   * look at the reserved bit.
   */
  ghost predicate Consistent(a: Allocator, total: int)
  {
    && a.usedMemory == 4096 * Weight(a.pages)
    && a.freeMemory + a.usedMemory == total
  }

  lemma {:induction false} WeightUpdate(pages: seq<PageInfo>, k: nat, p: PageInfo)
    requires k < |pages|
    ensures Weight(pages[k := p]) == Weight(pages) - Bits(pages[k]) + Bits(p)
    decreases |pages|
  {
    var n := |pages| - 1;
    var q := pages[k := p];
    if k == n {
      assert q[..n] == pages[..n];
    } else {
      assert q[..n] == pages[..n][k := p];
      WeightUpdate(pages[..n], k, p);
    }
  }

  /*---------------------------------------------------------------------
   * Single-page operations
   *-------------------------------------------------------------------*/

  /** Shared shape of `alloc_page` and `__reserve_page`: set one bit, moving a page from free to used. */
  function Mark(a: Allocator, addr: nat, f: Flag): (r: Outcome)
    requires InBitmap(a, addr)
    ensures |r.state.pages| == |a.pages|
  {
    var idx := PageIndex(addr);
    if Get(a.pages[idx], f) then Outcome(1, a)
    else Outcome(0, Allocator(a.pages[idx := Put(a.pages[idx], f, true)],
                              a.freeMemory - PAGESIZE, a.usedMemory + PAGESIZE))
  }

  /** Shared shape of `free_page` and `__unreserve_page`: clear one bit, moving a page from used to free. */
  function Clear(a: Allocator, addr: nat, f: Flag): (r: Outcome)
    requires InBitmap(a, addr)
    ensures |r.state.pages| == |a.pages|
  {
    var idx := PageIndex(addr);
    if !Get(a.pages[idx], f) then Outcome(1, a)
    else Outcome(0, Allocator(a.pages[idx := Put(a.pages[idx], f, false)],
                              a.freeMemory + PAGESIZE, a.usedMemory - PAGESIZE))
  }

  /** `alloc_page`: looks at the in-use bit only, never at the reserved bit. */
  function AllocPage(a: Allocator, addr: nat): (r: Outcome)
    requires InBitmap(a, addr)
    ensures var idx := PageIndex(addr);
      && (r.code == 0 || r.code == 1)
      && (r.code == 1 <==> a.pages[idx].inuse)
      && (r.code == 1 ==> r.state == a)
      && (r.code == 0 ==>
            && r.state.pages == a.pages[idx := PageInfo(true, a.pages[idx].reserved)]
            && r.state.freeMemory == a.freeMemory - PAGESIZE
            && r.state.usedMemory == a.usedMemory + PAGESIZE)
  {
    Mark(a, addr, InUse)
  }

  /** `free_page` */
  function FreePage(a: Allocator, addr: nat): (r: Outcome)
    requires InBitmap(a, addr)
    ensures var idx := PageIndex(addr);
      && (r.code == 0 || r.code == 1)
      && (r.code == 1 <==> !a.pages[idx].inuse)
      && (r.code == 1 ==> r.state == a)
      && (r.code == 0 ==>
            && r.state.pages == a.pages[idx := PageInfo(false, a.pages[idx].reserved)]
            && r.state.freeMemory == a.freeMemory + PAGESIZE
            && r.state.usedMemory == a.usedMemory - PAGESIZE)
  {
    Clear(a, addr, InUse)
  }

  /** `__reserve_page` */
  function ReservePage(a: Allocator, addr: nat): (r: Outcome)
    requires InBitmap(a, addr)
    ensures var idx := PageIndex(addr);
      && (r.code == 0 || r.code == 1)
      && (r.code == 1 <==> a.pages[idx].reserved)
      && (r.code == 1 ==> r.state == a)
      && (r.code == 0 ==>
            && r.state.pages == a.pages[idx := PageInfo(a.pages[idx].inuse, true)]
            && r.state.freeMemory == a.freeMemory - PAGESIZE
            && r.state.usedMemory == a.usedMemory + PAGESIZE)
  {
    Mark(a, addr, Reserved)
  }

  /** `__unreserve_page` */
  function UnreservePage(a: Allocator, addr: nat): (r: Outcome)
    requires InBitmap(a, addr)
    ensures var idx := PageIndex(addr);
      && (r.code == 0 || r.code == 1)
      && (r.code == 1 <==> !a.pages[idx].reserved)
      && (r.code == 1 ==> r.state == a)
      && (r.code == 0 ==>
            && r.state.pages == a.pages[idx := PageInfo(a.pages[idx].inuse, false)]
            && r.state.freeMemory == a.freeMemory + PAGESIZE
            && r.state.usedMemory == a.usedMemory - PAGESIZE)
  {
    Clear(a, addr, Reserved)
  }

  /** Every single-page operation keeps the accounting invariant and touches only entry `addr >> PAGESHIFT`. */
  lemma SinglePageFrame(a: Allocator, addr: nat, f: Flag, total: int)
    requires InBitmap(a, addr)
    requires Consistent(a, total)
    ensures Consistent(Mark(a, addr, f).state, total)
    ensures Consistent(Clear(a, addr, f).state, total)
    ensures forall j :: 0 <= j < |a.pages| && j != PageIndex(addr) ==>
      Mark(a, addr, f).state.pages[j] == a.pages[j] && Clear(a, addr, f).state.pages[j] == a.pages[j]
    ensures Mark(a, addr, f).state.freeMemory + Mark(a, addr, f).state.usedMemory == a.freeMemory + a.usedMemory
    ensures Clear(a, addr, f).state.freeMemory + Clear(a, addr, f).state.usedMemory == a.freeMemory + a.usedMemory
  {
    var idx := PageIndex(addr);
    WeightUpdate(a.pages, idx, Put(a.pages[idx], f, true));
    WeightUpdate(a.pages, idx, Put(a.pages[idx], f, false));
  }

  /** `alloc_page` then `free_page` on the same address restores the context exactly. */
  lemma AllocThenFree(a: Allocator, addr: nat)
    requires InBitmap(a, addr)
    requires AllocPage(a, addr).code == 0
    ensures FreePage(AllocPage(a, addr).state, addr) == Outcome(0, a)
  {
    var idx := PageIndex(addr);
    assert AllocPage(a, addr).state.pages[idx := a.pages[idx]] == a.pages;
  }

  /** `__reserve_page` then `__unreserve_page` on the same address restores the context exactly. */
  lemma ReserveThenUnreserve(a: Allocator, addr: nat)
    requires InBitmap(a, addr)
    requires ReservePage(a, addr).code == 0
    ensures UnreservePage(ReservePage(a, addr).state, addr) == Outcome(0, a)
  {
    var idx := PageIndex(addr);
    assert ReservePage(a, addr).state.pages[idx := a.pages[idx]] == a.pages;
  }

  /*---------------------------------------------------------------------
   * Multi-page operations
   *-------------------------------------------------------------------*/

  /** The number of pages in `[lo, hi)` whose bit `f` is set. */
  function CountSet(pages: seq<PageInfo>, lo: nat, hi: nat, f: Flag): nat
    requires lo <= hi <= |pages|
    decreases hi - lo
  {
    if lo == hi then 0 else (if Get(pages[lo], f) then 1 else 0) + CountSet(pages, lo + 1, hi, f)
  }

  lemma {:induction false} CountSetAgree(p: seq<PageInfo>, q: seq<PageInfo>, lo: nat, hi: nat, f: Flag)
    requires lo <= hi <= |p| == |q|
    requires forall k :: lo <= k < hi ==> p[k] == q[k]
    ensures CountSet(p, lo, hi, f) == CountSet(q, lo, hi, f)
    decreases hi - lo
  {
    if lo < hi {
      CountSetAgree(p, q, lo + 1, hi, f);
    }
  }

  lemma {:induction false} CountSetAll(p: seq<PageInfo>, lo: nat, hi: nat, f: Flag)
    requires lo <= hi <= |p|
    requires forall k :: lo <= k < hi ==> Get(p[k], f)
    ensures CountSet(p, lo, hi, f) == hi - lo
    decreases hi - lo
  {
    if lo < hi {
      CountSetAll(p, lo + 1, hi, f);
    }
  }

  /** The bitmap with bit `f` of every page in `[lo, lo + n)` set to `v`. */
  function SetRange(pages: seq<PageInfo>, lo: nat, n: nat, f: Flag, v: bool): (q: seq<PageInfo>)
    requires lo + n <= |pages|
    ensures |q| == |pages|
  {
    seq(|pages|, k requires 0 <= k < |pages| => if lo <= k < lo + n then Put(pages[k], f, v) else pages[k])
  }

  /**
   * The loop of `free_pages` and `__unreserve_pages` from iteration `i` on:
   * clear bit `f` of each page, ignoring the per-page status.
   */
  function ClearRun(a: Allocator, addr: nat, i: nat, n: nat, f: Flag): (r: Allocator)
    requires i <= n && RunInBitmap(a, addr, n)
    ensures |r.pages| == |a.pages|
    ensures forall k :: 0 <= k < |a.pages| ==>
      r.pages[k] == if PageIndex(addr) + i <= k < PageIndex(addr) + n then Put(a.pages[k], f, false) else a.pages[k]
    ensures var cleared := CountSet(a.pages, PageIndex(addr) + i, PageIndex(addr) + n, f);
      && r.freeMemory == a.freeMemory + 4096 * cleared
      && r.usedMemory == a.usedMemory - 4096 * cleared
    decreases n - i
  {
    if i == n then a
    else
      PageIndexOfOffset(addr, i);
      var s := Clear(a, addr + i * 4096, f).state;
      var lo := PageIndex(addr);
      CountSetAgree(a.pages, s.pages, lo + i + 1, lo + n, f);
      ClearRun(s, addr, i + 1, n, f)
  }

  /** `free_pages` and `__unreserve_pages`: clear the bit on a whole run; always returns 0. */
  function ClearPages(a: Allocator, addr: nat, n: nat, f: Flag): (r: Allocator)
    requires RunInBitmap(a, addr, n)
    ensures var lo := PageIndex(addr);
      var cleared := CountSet(a.pages, lo, lo + n, f);
      && r.pages == SetRange(a.pages, lo, n, f, false)
      && r.freeMemory == a.freeMemory + 4096 * cleared
      && r.usedMemory == a.usedMemory - 4096 * cleared
  {
    ClearRun(a, addr, 0, n, f)
  }

  /**
   * The loop of `alloc_pages` and `__reserve_pages` from iteration `i` on:
   * on the first page whose bit is already set, roll back the `i` pages set
   * so far and report 1.
   */
  function MarkRun(a: Allocator, addr: nat, i: nat, n: nat, f: Flag): (r: Outcome)
    requires i <= n && RunInBitmap(a, addr, n)
    ensures |r.state.pages| == |a.pages|
    decreases n - i
  {
    if i == n then Outcome(0, a)
    else
      PageIndexOfOffset(addr, i);
      var s := Mark(a, addr + i * 4096, f);
      if s.code != 0 then Outcome(1, ClearPages(s.state, addr, i, f))
      else MarkRun(s.state, addr, i + 1, n, f)
  }

  /** No page of the run `[lo, lo + n)` has bit `f` set. */
  predicate RunClear(pages: seq<PageInfo>, lo: nat, n: nat, f: Flag)
    requires lo + n <= |pages|
  {
    forall k :: lo <= k < lo + n ==> !Get(pages[k], f)
  }

  /** The context `a0` with the first `i` pages of the run marked, as `MarkRun` sees it at iteration `i`. */
  ghost predicate MarkedPrefix(a0: Allocator, a: Allocator, lo: nat, i: nat, f: Flag)
    requires lo + i <= |a0.pages|
  {
    a == Allocator(SetRange(a0.pages, lo, i, f, true), a0.freeMemory - 4096 * i, a0.usedMemory + 4096 * i)
  }

  /** Undoing a marked prefix restores the context it started from. */
  lemma RollbackRestores(a0: Allocator, a: Allocator, addr: nat, i: nat, f: Flag)
    requires RunInBitmap(a0, addr, i)
    requires MarkedPrefix(a0, a, PageIndex(addr), i, f)
    requires RunClear(a0.pages, PageIndex(addr), i, f)
    ensures ClearPages(a, addr, i, f) == a0
  {
    var lo := PageIndex(addr);
    var back := ClearPages(a, addr, i, f);
    CountSetAll(a.pages, lo, lo + i, f);
    assert forall k :: 0 <= k < |a0.pages| ==> back.pages[k] == a0.pages[k];
    assert back.pages == a0.pages;
  }

  /** One more successful mark extends the marked prefix by one page. */
  lemma MarkExtendsPrefix(a0: Allocator, a: Allocator, addr: nat, i: nat, f: Flag)
    requires RunInBitmap(a0, addr, i + 1)
    requires MarkedPrefix(a0, a, PageIndex(addr), i, f)
    requires !Get(a0.pages[PageIndex(addr) + i], f)
    ensures PageIndex(addr + i * 4096) == PageIndex(addr) + i
    ensures Mark(a, addr + i * 4096, f).code == 0
    ensures MarkedPrefix(a0, Mark(a, addr + i * 4096, f).state, PageIndex(addr), i + 1, f)
  {
    var lo := PageIndex(addr);
    PageIndexOfOffset(addr, i);
    var s := Mark(a, addr + i * 4096, f);
    assert a.pages[lo + i] == a0.pages[lo + i];
    assert s.state.pages == SetRange(a0.pages, lo, i + 1, f, true);
  }

  lemma {:induction false} MarkRunAllOrNothing(a0: Allocator, a: Allocator, addr: nat, i: nat, n: nat, f: Flag)
    requires i <= n && RunInBitmap(a0, addr, n)
    requires MarkedPrefix(a0, a, PageIndex(addr), i, f)
    requires RunClear(a0.pages, PageIndex(addr), i, f)
    ensures var r := MarkRun(a, addr, i, n, f);
      && (r.code == 0 <==> RunClear(a0.pages, PageIndex(addr), n, f))
      && (r.code == 0 ==> MarkedPrefix(a0, r.state, PageIndex(addr), n, f))
      && (r.code != 0 ==> r == Outcome(1, a0))
    decreases n - i
  {
    var lo := PageIndex(addr);
    if i == n {
      return;
    }
    PageIndexOfOffset(addr, i);
    var s := Mark(a, addr + i * 4096, f);
    assert a.pages[lo + i] == a0.pages[lo + i];
    if s.code != 0 {
      assert Get(a0.pages[lo + i], f);
      RollbackRestores(a0, a, addr, i, f);
    } else {
      MarkExtendsPrefix(a0, a, addr, i, f);
      MarkRunAllOrNothing(a0, s.state, addr, i + 1, n, f);
    }
  }

  /** `alloc_pages` and `__reserve_pages`: all-or-nothing over the run. */
  function MarkPages(a: Allocator, addr: nat, n: nat, f: Flag): (r: Outcome)
    requires RunInBitmap(a, addr, n)
    ensures var lo := PageIndex(addr);
      && (r.code == 0 || r.code == 1)
      && (r.code == 0 <==> RunClear(a.pages, lo, n, f))
      && (r.code == 0 ==> r.state == Allocator(SetRange(a.pages, lo, n, f, true),
                                               a.freeMemory - 4096 * n, a.usedMemory + 4096 * n))
      && (r.code == 1 ==> r.state == a)
  {
    assert SetRange(a.pages, PageIndex(addr), 0, f, true) == a.pages;
    MarkRunAllOrNothing(a, a, addr, 0, n, f);
    MarkRun(a, addr, 0, n, f)
  }

  lemma BitsPut(x: PageInfo, f: Flag, v: bool)
    ensures Bits(Put(x, f, v)) == Bits(x) - (if Get(x, f) then 1 else 0) + (if v then 1 else 0)
  {
    match f
    case InUse =>
    case Reserved =>
  }

  lemma {:induction false} WeightSetRange(p: seq<PageInfo>, lo: nat, n: nat, f: Flag, v: bool)
    requires lo + n <= |p|
    ensures Weight(SetRange(p, lo, n, f, v)) == Weight(p) - CountSet(p, lo, lo + n, f) + (if v then n else 0)
    decreases n
  {
    if n == 0 {
      assert SetRange(p, lo, n, f, v) == p;
    } else {
      WeightSetRange(p, lo + 1, n - 1, f, v);
      var q := SetRange(p, lo + 1, n - 1, f, v);
      assert SetRange(p, lo, n, f, v) == q[lo := Put(p[lo], f, v)];
      WeightUpdate(q, lo, Put(p[lo], f, v));
      BitsPut(p[lo], f, v);
    }
  }

  /** What a context owes the bitmap: zero exactly when `used_memory` matches the set bits. */
  ghost function Drift(a: Allocator): int
  {
    a.usedMemory - 4096 * Weight(a.pages)
  }

  /** Clearing a run moves bytes between the counters in step with the bits it clears. */
  lemma ClearPagesAccounting(a: Allocator, addr: nat, n: nat, f: Flag)
    requires RunInBitmap(a, addr, n)
    ensures Drift(ClearPages(a, addr, n, f)) == Drift(a)
    ensures ClearPages(a, addr, n, f).freeMemory + ClearPages(a, addr, n, f).usedMemory == a.freeMemory + a.usedMemory
  {
    var lo := PageIndex(addr);
    var c := CountSet(a.pages, lo, lo + n, f);
    WeightSetRange(a.pages, lo, n, f, false);
    var cl := ClearPages(a, addr, n, f);
    assert Weight(cl.pages) == Weight(a.pages) - c;
  }

  /** Marking a run moves bytes between the counters in step with the bits it sets, or changes nothing. */
  lemma MarkPagesAccounting(a: Allocator, addr: nat, n: nat, f: Flag)
    requires RunInBitmap(a, addr, n)
    ensures Drift(MarkPages(a, addr, n, f).state) == Drift(a)
    ensures MarkPages(a, addr, n, f).state.freeMemory + MarkPages(a, addr, n, f).state.usedMemory == a.freeMemory + a.usedMemory
  {
    var lo := PageIndex(addr);
    var m := MarkPages(a, addr, n, f);
    if m.code == 0 {
      CountSetNone(a.pages, lo, lo + n, f);
      WeightSetRange(a.pages, lo, n, f, true);
      assert Weight(m.state.pages) == Weight(a.pages) + n;
    }
  }

  /** Hence the multi-page operations keep the accounting invariant, whatever their outcome. */
  lemma MultiPageConsistent(a: Allocator, addr: nat, n: nat, f: Flag, total: int)
    requires RunInBitmap(a, addr, n)
    requires Consistent(a, total)
    ensures Consistent(MarkPages(a, addr, n, f).state, total)
    ensures Consistent(ClearPages(a, addr, n, f), total)
  {
    ClearPagesAccounting(a, addr, n, f);
    MarkPagesAccounting(a, addr, n, f);
  }

  lemma {:induction false} CountSetNone(p: seq<PageInfo>, lo: nat, hi: nat, f: Flag)
    requires lo <= hi <= |p|
    requires forall k :: lo <= k < hi ==> !Get(p[k], f)
    ensures CountSet(p, lo, hi, f) == 0
    decreases hi - lo
  {
    if lo < hi {
      CountSetNone(p, lo + 1, hi, f);
    }
  }

  /** `alloc_pages`: all pages of the run become in use, or (on the first page already in use) none do. */
  function AllocPages(a: Allocator, addr: nat, n: nat): (r: Outcome)
    requires RunInBitmap(a, addr, n)
    ensures var lo := PageIndex(addr);
      && (r.code == 0 <==> forall k :: lo <= k < lo + n ==> !a.pages[k].inuse)
      && (r.code != 0 ==> r == Outcome(1, a))
      && (r.code == 0 ==>
            && |r.state.pages| == |a.pages|
            && (forall k :: lo <= k < lo + n ==> r.state.pages[k] == PageInfo(true, a.pages[k].reserved))
            && (forall k :: 0 <= k < |a.pages| && !(lo <= k < lo + n) ==> r.state.pages[k] == a.pages[k])
            && r.state.freeMemory == a.freeMemory - 4096 * n
            && r.state.usedMemory == a.usedMemory + 4096 * n)
  {
    MarkPages(a, addr, n, InUse)
  }

  /** `free_pages`: every page of the run ends up not in use; only pages that were in use move bytes. */
  function FreePages(a: Allocator, addr: nat, n: nat): (r: Allocator)
    requires RunInBitmap(a, addr, n)
    ensures var lo := PageIndex(addr);
      var freed := CountSet(a.pages, lo, lo + n, InUse);
      && |r.pages| == |a.pages|
      && (forall k :: lo <= k < lo + n ==> r.pages[k] == PageInfo(false, a.pages[k].reserved))
      && (forall k :: 0 <= k < |a.pages| && !(lo <= k < lo + n) ==> r.pages[k] == a.pages[k])
      && r.freeMemory == a.freeMemory + 4096 * freed
      && r.usedMemory == a.usedMemory - 4096 * freed
  {
    ClearPages(a, addr, n, InUse)
  }

  /** `__reserve_pages`: all pages of the run become reserved, or (on the first page already reserved) none do. */
  function ReservePages(a: Allocator, addr: nat, n: nat): (r: Outcome)
    requires RunInBitmap(a, addr, n)
    ensures var lo := PageIndex(addr);
      && (r.code == 0 <==> forall k :: lo <= k < lo + n ==> !a.pages[k].reserved)
      && (r.code != 0 ==> r == Outcome(1, a))
      && (r.code == 0 ==>
            && |r.state.pages| == |a.pages|
            && (forall k :: lo <= k < lo + n ==> r.state.pages[k] == PageInfo(a.pages[k].inuse, true))
            && (forall k :: 0 <= k < |a.pages| && !(lo <= k < lo + n) ==> r.state.pages[k] == a.pages[k])
            && r.state.freeMemory == a.freeMemory - 4096 * n
            && r.state.usedMemory == a.usedMemory + 4096 * n)
  {
    MarkPages(a, addr, n, Reserved)
  }

  /** `__unreserve_pages`: every page of the run ends up unreserved; only pages that were reserved move bytes. */
  function UnreservePages(a: Allocator, addr: nat, n: nat): (r: Allocator)
    requires RunInBitmap(a, addr, n)
    ensures var lo := PageIndex(addr);
      var released := CountSet(a.pages, lo, lo + n, Reserved);
      && |r.pages| == |a.pages|
      && (forall k :: lo <= k < lo + n ==> r.pages[k] == PageInfo(a.pages[k].inuse, false))
      && (forall k :: 0 <= k < |a.pages| && !(lo <= k < lo + n) ==> r.pages[k] == a.pages[k])
      && r.freeMemory == a.freeMemory + 4096 * released
      && r.usedMemory == a.usedMemory - 4096 * released
  {
    ClearPages(a, addr, n, Reserved)
  }

  /*---------------------------------------------------------------------
   * First-fit page request
   *-------------------------------------------------------------------*/

  /** A page `request_page` may hand out: neither in use nor reserved. */
  predicate Available(p: PageInfo)
  {
    !p.inuse && !p.reserved
  }

  /**
   * `request_page`: allocate the lowest-indexed available page and return
   * its address, or return 0 (NULL) when there is none.  An allocation of
   * page 0 also returns 0, so the caller cannot tell it from a failure;
   * once page 0 is reserved, as `init_page_properties` leaves it, the
   * result is nonzero exactly when some page is available.
   */
  method RequestPage(a: Allocator) returns (addr: nat, a': Allocator)
    ensures addr % 4096 == 0
    ensures (exists k :: 0 <= k < |a.pages| && Available(a.pages[k])) ==>
      var idx := addr / 4096;
      && idx < |a.pages|
      && Available(a.pages[idx])
      && (forall j :: 0 <= j < idx ==> !Available(a.pages[j]))
      && a'.pages == a.pages[idx := PageInfo(true, false)]
      && a'.freeMemory == a.freeMemory - PAGESIZE
      && a'.usedMemory == a.usedMemory + PAGESIZE
    ensures (forall k :: 0 <= k < |a.pages| ==> !Available(a.pages[k])) ==> addr == 0 && a' == a
    ensures |a.pages| > 0 && a.pages[0].reserved ==>
      (addr != 0 <==> exists k :: 0 <= k < |a.pages| && Available(a.pages[k]))
  {
    var i := 0;
    while i < |a.pages|
      invariant 0 <= i <= |a.pages|
      invariant forall j :: 0 <= j < i ==> !Available(a.pages[j])
    {
      if !a.pages[i].inuse && !a.pages[i].reserved {
        addr := i * 4096;
        a' := AllocPage(a, addr).state;
        return;
      }
      i := i + 1;
    }
    addr := 0;
    a' := a;
  }

}

=== FILE: page_frame_init.dfy ===
/**
 * Bootstrapping the page-frame allocator from the firmware memory map
 * (`get_memory_map_size`, `reserve_special_segments` and
 * `init_page_properties` in allocator.c).
 *
 * The map is a sequence of plain descriptor records; the entry stride the
 * C code walks with is not modelled.
 */
module PageFrameInit {
  import opened PageFrame

  /** The UEFI memory types the code distinguishes; every other type code is `OtherType`. */
  datatype MemoryType =
    | ReservedMemoryType
    | LoaderCode
    | LoaderData
    | BootServicesCode
    | BootServicesData
    | RuntimeServicesCode
    | RuntimeServicesData
    | ConventionalMemory
    | UnusableMemory
    | AcpiReclaimMemory
    | AcpiMemoryNvs
    | MemoryMappedIo
    | MemoryMappedIoPortSpace
    | PalCode
    | OtherType(code: nat)

  /** `efi_memory_descriptor_t`, reduced to the fields the allocator reads. */
  datatype Descriptor = Descriptor(kind: MemoryType, physicalAddr: nat, numPages: nat)

  /** The nine firmware-owned types whose segments `reserve_special_segments` reserves. */
  predicate IsSpecial(t: MemoryType)
  {
    || t == ReservedMemoryType
    || t == RuntimeServicesCode
    || t == RuntimeServicesData
    || t == UnusableMemory
    || t == AcpiReclaimMemory
    || t == AcpiMemoryNvs
    || t == MemoryMappedIo
    || t == MemoryMappedIoPortSpace
    || t == PalCode
  }

  function SegmentBytes(d: Descriptor): nat
  {
    d.numPages * 4096
  }

  /** Page `k` lies inside the segment described by `d`. */
  predicate InSegment(d: Descriptor, k: nat)
  {
    PageIndex(d.physicalAddr) <= k < PageIndex(d.physicalAddr) + d.numPages
  }

  /*---------------------------------------------------------------------
   * Memory size
   *-------------------------------------------------------------------*/

  /** Reference definition: the bytes described by the whole map. */
  function MapBytes(m: seq<Descriptor>): nat
  {
    if |m| == 0 then 0 else MapBytes(m[..|m| - 1]) + SegmentBytes(m[|m| - 1])
  }

  lemma MapBytesIsPages(m: seq<Descriptor>)
    ensures MapBytes(m) % 4096 == 0
  {
  }

  /**
   * `get_memory_map_size`: the static `total_size` is the memo `cache`; a
   * nonzero memo is returned as it is, otherwise the map is summed.  The
   * result is also the new memo.
   */
  method GetMemoryMapSize(cache: nat, m: seq<Descriptor>) returns (total: nat)
    ensures cache > 0 ==> total == cache
    ensures cache == 0 ==> total == MapBytes(m)
  {
    if cache > 0 {
      return cache;
    }
    total := 0;
    var i := 0;
    while i < |m|
      invariant 0 <= i <= |m|
      invariant total == MapBytes(m[..i])
    {
      assert m[..i + 1][..i] == m[..i];
      total := total + m[i].numPages * 4096;
      i := i + 1;
    }
    assert m[..i] == m;
  }

  /** The memoised size as a function of the memo and the map. */
  function MemorySize(cache: nat, m: seq<Descriptor>): nat
  {
    if cache > 0 then cache else MapBytes(m)
  }

  /*---------------------------------------------------------------------
   * Choosing the site of the bitmap
   *-------------------------------------------------------------------*/

  /** The state of the selection loop of `init_page_properties`: the chosen address and its size in bytes. */
  datatype Site = Site(addr: nat, largest: nat)

  /** The selection loop from entry `i` on: a conventional segment wins only when it is strictly larger. */
  function SelectFrom(m: seq<Descriptor>, i: nat, s: Site): Site
    requires i <= |m|
    decreases |m| - i
  {
    if i == |m| then s
    else if m[i].kind == ConventionalMemory && SegmentBytes(m[i]) > s.largest then
      SelectFrom(m, i + 1, Site(m[i].physicalAddr, SegmentBytes(m[i])))
    else SelectFrom(m, i + 1, s)
  }

  /** The segment `init_page_properties` puts the bitmap in, starting from `addr = NULL, largest = 0`. */
  function LargestConventional(m: seq<Descriptor>): Site
  {
    SelectFrom(m, 0, Site(0, 0))
  }

  lemma {:induction false} SelectFromSpec(m: seq<Descriptor>, i: nat, s: Site)
    requires i <= |m|
    ensures var r := SelectFrom(m, i, s);
      && r.largest >= s.largest
      && (forall k :: i <= k < |m| && m[k].kind == ConventionalMemory ==> SegmentBytes(m[k]) <= r.largest)
      && (r == s || exists k :: i <= k < |m| && m[k].kind == ConventionalMemory
                             && r == Site(m[k].physicalAddr, SegmentBytes(m[k])) && SegmentBytes(m[k]) > s.largest
                             && forall j :: i <= j < k && m[j].kind == ConventionalMemory ==> SegmentBytes(m[j]) < r.largest)
    decreases |m| - i
  {
    if i < |m| {
      if m[i].kind == ConventionalMemory && SegmentBytes(m[i]) > s.largest {
        SelectFromSpec(m, i + 1, Site(m[i].physicalAddr, SegmentBytes(m[i])));
      } else {
        SelectFromSpec(m, i + 1, s);
      }
    }
  }

  /**
   * The bitmap site is the FIRST conventional segment of strictly greatest
   * size; with no conventional segment of nonzero size, it stays NULL.
   */
  lemma LargestConventionalIsFirstLargest(m: seq<Descriptor>)
    ensures var r := LargestConventional(m);
      && (forall k :: 0 <= k < |m| && m[k].kind == ConventionalMemory ==> SegmentBytes(m[k]) <= r.largest)
      && (r.largest == 0 ==> r.addr == 0)
      && (r.largest > 0 ==> exists k :: 0 <= k < |m| && m[k].kind == ConventionalMemory
                             && r == Site(m[k].physicalAddr, SegmentBytes(m[k]))
                             && forall j :: 0 <= j < k && m[j].kind == ConventionalMemory ==> SegmentBytes(m[j]) < r.largest)
  {
    SelectFromSpec(m, 0, Site(0, 0));
  }

  /*---------------------------------------------------------------------
   * Reserving the firmware-owned segments
   *-------------------------------------------------------------------*/

  /** Every special segment of the map lies inside a bitmap of `size` pages. */
  predicate SpecialsInBitmap(m: seq<Descriptor>, size: nat)
  {
    forall k :: 0 <= k < |m| && IsSpecial(m[k].kind) ==> PageIndex(m[k].physicalAddr) + m[k].numPages <= size
  }

  /** Page `j` lies in some special segment of the map. */
  predicate InSomeSpecial(m: seq<Descriptor>, j: nat)
  {
    exists k :: 0 <= k < |m| && IsSpecial(m[k].kind) && InSegment(m[k], j)
  }

  /**
   * `reserve_special_segments`: an all-or-nothing `__reserve_pages` over
   * each special segment in map order; a failing segment leaves nothing
   * reserved.
   */
  function ReserveSpecialSegments(a: Allocator, m: seq<Descriptor>): (r: Allocator)
    requires SpecialsInBitmap(m, |a.pages|)
    ensures |r.pages| == |a.pages|
    ensures forall j :: 0 <= j < |a.pages| ==> r.pages[j].inuse == a.pages[j].inuse
    ensures forall j :: 0 <= j < |a.pages| && a.pages[j].reserved ==> r.pages[j].reserved
    ensures forall j :: 0 <= j < |a.pages| && r.pages[j].reserved && !a.pages[j].reserved ==> InSomeSpecial(m, j)
    ensures r.freeMemory + r.usedMemory == a.freeMemory + a.usedMemory
    ensures Drift(r) == Drift(a)
    decreases |m|
  {
    if |m| == 0 then a
    else
      var d := m[0];
      var a1 := if IsSpecial(d.kind) then ReservePages(a, d.physicalAddr, d.numPages).state else a;
      SpecialsInBitmapTail(m, |a1.pages|);
      ReservePagesAccounting(a, d, a1);
      var r := ReserveSpecialSegments(a1, m[1..]);
      ReservedTrace(m, a, a1, r);
      r
  }

  /** The bounds condition holds for the rest of the map. */
  lemma SpecialsInBitmapTail(m: seq<Descriptor>, size: nat)
    requires |m| > 0 && SpecialsInBitmap(m, size)
    ensures SpecialsInBitmap(m[1..], size)
  {
    forall k | 0 <= k < |m[1..]| && IsSpecial(m[1..][k].kind)
      ensures PageIndex(m[1..][k].physicalAddr) + m[1..][k].numPages <= size
    {
      assert m[1..][k] == m[k + 1];
    }
  }

  /** A page newly reserved by the first segment or by the rest of the map lies in some special segment. */
  lemma ReservedTrace(m: seq<Descriptor>, a: Allocator, a1: Allocator, r: Allocator)
    requires |m| > 0 && |a1.pages| == |a.pages| == |r.pages|
    requires forall j :: 0 <= j < |a.pages| && a1.pages[j].reserved && !a.pages[j].reserved ==> IsSpecial(m[0].kind) && InSegment(m[0], j)
    requires forall j :: 0 <= j < |a.pages| && a.pages[j].reserved ==> a1.pages[j].reserved
    requires forall j :: 0 <= j < |a1.pages| && r.pages[j].reserved && !a1.pages[j].reserved ==> InSomeSpecial(m[1..], j)
    ensures forall j :: 0 <= j < |a.pages| && r.pages[j].reserved && !a.pages[j].reserved ==> InSomeSpecial(m, j)
  {
    forall j | 0 <= j < |a.pages| && r.pages[j].reserved && !a.pages[j].reserved
      ensures InSomeSpecial(m, j)
    {
      if a1.pages[j].reserved {
        assert IsSpecial(m[0].kind) && InSegment(m[0], j);
      } else {
        var k :| 0 <= k < |m[1..]| && IsSpecial(m[1..][k].kind) && InSegment(m[1..][k], j);
        assert m[1..][k] == m[k + 1];
      }
    }
  }

  /** One step of the loop of `reserve_special_segments`, in terms of the accounting and the reserved bits. */
  lemma ReservePagesAccounting(a: Allocator, d: Descriptor, a1: Allocator)
    requires IsSpecial(d.kind) ==> RunInBitmap(a, d.physicalAddr, d.numPages)
    requires a1 == if IsSpecial(d.kind) then ReservePages(a, d.physicalAddr, d.numPages).state else a
    ensures |a1.pages| == |a.pages|
    ensures forall j :: 0 <= j < |a.pages| ==> a1.pages[j].inuse == a.pages[j].inuse
    ensures forall j :: 0 <= j < |a.pages| && a.pages[j].reserved ==> a1.pages[j].reserved
    ensures forall j :: 0 <= j < |a.pages| && a1.pages[j].reserved && !a.pages[j].reserved ==> IsSpecial(d.kind) && InSegment(d, j)
    ensures a1.freeMemory + a1.usedMemory == a.freeMemory + a.usedMemory
    ensures Drift(a1) == Drift(a)
    ensures IsSpecial(d.kind) && (forall j: nat :: InSegment(d, j) ==> !a.pages[j].reserved) ==>
      forall j: nat :: InSegment(d, j) ==> a1.pages[j].reserved
  {
    if IsSpecial(d.kind) {
      MarkPagesAccounting(a, d.physicalAddr, d.numPages, Reserved);
    }
  }

  /** No two special segments share a page. */
  predicate SpecialsDisjoint(m: seq<Descriptor>)
  {
    forall k1, k2 :: 0 <= k1 < k2 < |m| && IsSpecial(m[k1].kind) && IsSpecial(m[k2].kind) ==>
      || PageIndex(m[k1].physicalAddr) + m[k1].numPages <= PageIndex(m[k2].physicalAddr)
      || PageIndex(m[k2].physicalAddr) + m[k2].numPages <= PageIndex(m[k1].physicalAddr)
  }

  /** Every page of every special segment is reserved in `a`. */
  ghost predicate SpecialsReserved(a: Allocator, m: seq<Descriptor>)
    requires SpecialsInBitmap(m, |a.pages|)
  {
    forall k, j: nat :: 0 <= k < |m| && IsSpecial(m[k].kind) && InSegment(m[k], j) ==> a.pages[j].reserved
  }

  /** No page of any special segment is reserved in `a`. */
  ghost predicate SpecialsUnreserved(a: Allocator, m: seq<Descriptor>)
    requires SpecialsInBitmap(m, |a.pages|)
  {
    forall k, j: nat :: 0 <= k < |m| && IsSpecial(m[k].kind) && InSegment(m[k], j) ==> !a.pages[j].reserved
  }

  /**
   * When the special segments are pairwise disjoint and none of their pages
   * is reserved yet, `reserve_special_segments` reserves all of them: no
   * segment hits the rollback path.
   */
  lemma {:induction false} ReserveSpecialSegmentsComplete(a: Allocator, m: seq<Descriptor>)
    requires SpecialsInBitmap(m, |a.pages|)
    requires SpecialsDisjoint(m)
    requires SpecialsUnreserved(a, m)
    ensures SpecialsReserved(ReserveSpecialSegments(a, m), m)
    decreases |m|
  {
    if |m| == 0 {
      return;
    }
    var d := m[0];
    var a1 := if IsSpecial(d.kind) then ReservePages(a, d.physicalAddr, d.numPages).state else a;
    var rest := m[1..];
    SpecialsInBitmapTail(m, |a1.pages|);
    ReservePagesAccounting(a, d, a1);
    SpecialsDisjointTail(m);
    assert SpecialsUnreserved(a1, rest) by {
      forall k, j: nat | 0 <= k < |rest| && IsSpecial(rest[k].kind) && InSegment(rest[k], j)
        ensures !a1.pages[j].reserved
      {
        assert rest[k] == m[k + 1];
        assert !a.pages[j].reserved;
        assert !(IsSpecial(d.kind) && InSegment(d, j));
      }
    }
    ReserveSpecialSegmentsComplete(a1, rest);
    var r := ReserveSpecialSegments(a, m);
    assert r == ReserveSpecialSegments(a1, rest);
    forall k, j: nat | 0 <= k < |m| && IsSpecial(m[k].kind) && InSegment(m[k], j)
      ensures r.pages[j].reserved
    {
      if k == 0 {
        assert a1.pages[j].reserved;
      } else {
        assert rest[k - 1] == m[k];
      }
    }
  }

  /** Disjointness of the special segments holds for the rest of the map. */
  lemma SpecialsDisjointTail(m: seq<Descriptor>)
    requires |m| > 0 && SpecialsDisjoint(m)
    ensures SpecialsDisjoint(m[1..])
  {
    var rest := m[1..];
    forall k1, k2 | 0 <= k1 < k2 < |rest| && IsSpecial(rest[k1].kind) && IsSpecial(rest[k2].kind)
      ensures || PageIndex(rest[k1].physicalAddr) + rest[k1].numPages <= PageIndex(rest[k2].physicalAddr)
              || PageIndex(rest[k2].physicalAddr) + rest[k2].numPages <= PageIndex(rest[k1].physicalAddr)
    {
      assert rest[k1] == m[k1 + 1] && rest[k2] == m[k2 + 1];
    }
  }

  /** No page of segment `d` inside the bitmap is reserved in `a`. */
  ghost predicate SegmentUnreserved(a: Allocator, d: Descriptor)
  {
    forall i: nat :: InSegment(d, i) && i < |a.pages| ==> !a.pages[i].reserved
  }

  /** Reserving a special segment on its own: a page of it ends reserved exactly when the whole segment was free of reservations or the page already was reserved. */
  lemma SegmentStep(a: Allocator, d: Descriptor, j: nat)
    requires RunInBitmap(a, d.physicalAddr, d.numPages) && InSegment(d, j)
    ensures ReservePages(a, d.physicalAddr, d.numPages).state.pages[j].reserved
      <==> SegmentUnreserved(a, d) || a.pages[j].reserved
  {
    var lo := PageIndex(d.physicalAddr);
    if SegmentUnreserved(a, d) {
      assert forall k :: lo <= k < lo + d.numPages ==> InSegment(d, k) && k < |a.pages|;
    } else {
      var i: nat :| InSegment(d, i) && i < |a.pages| && a.pages[i].reserved;
      assert lo <= i < lo + d.numPages;
    }
  }

  /** A step on segment `d` leaves the reserved bits of a special segment `e` apart from it alone. */
  lemma StepLeavesApart(a: Allocator, d: Descriptor, e: Descriptor)
    requires IsSpecial(d.kind) ==> RunInBitmap(a, d.physicalAddr, d.numPages)
    requires PageIndex(e.physicalAddr) + e.numPages <= |a.pages|
    requires IsSpecial(d.kind) ==>
      || PageIndex(d.physicalAddr) + d.numPages <= PageIndex(e.physicalAddr)
      || PageIndex(e.physicalAddr) + e.numPages <= PageIndex(d.physicalAddr)
    ensures var a1 := if IsSpecial(d.kind) then ReservePages(a, d.physicalAddr, d.numPages).state else a;
      && |a1.pages| == |a.pages|
      && (forall i: nat :: InSegment(e, i) ==> a1.pages[i].reserved == a.pages[i].reserved)
      && SegmentUnreserved(a1, e) == SegmentUnreserved(a, e)
  {
    var a1 := if IsSpecial(d.kind) then ReservePages(a, d.physicalAddr, d.numPages).state else a;
    ReservePagesAccounting(a, d, a1);
  }

  /** Pages of the first special segment lie in no later special segment. */
  lemma HeadApart(m: seq<Descriptor>, j: nat)
    requires |m| > 0 && SpecialsDisjoint(m) && IsSpecial(m[0].kind) && InSegment(m[0], j)
    ensures !InSomeSpecial(m[1..], j)
  {
    forall k | 0 <= k < |m[1..]|
      ensures m[1..][k] == m[k + 1]
    {
    }
  }

  /**
   * The exact outcome of `reserve_special_segments` on disjoint special
   * segments: a segment with no page reserved beforehand ends fully
   * reserved; a segment with some page already reserved rolls back and
   * keeps exactly the reserved bits it had.
   */
  lemma {:induction false} ReserveSpecialSegmentsExact(a: Allocator, m: seq<Descriptor>)
    requires SpecialsInBitmap(m, |a.pages|)
    requires SpecialsDisjoint(m)
    ensures var r := ReserveSpecialSegments(a, m);
      forall k, j: nat :: 0 <= k < |m| && IsSpecial(m[k].kind) && InSegment(m[k], j) ==>
        (r.pages[j].reserved <==> SegmentUnreserved(a, m[k]) || a.pages[j].reserved)
    decreases |m|
  {
    if |m| == 0 {
      return;
    }
    var d := m[0];
    var a1 := if IsSpecial(d.kind) then ReservePages(a, d.physicalAddr, d.numPages).state else a;
    var rest := m[1..];
    SpecialsInBitmapTail(m, |a1.pages|);
    SpecialsDisjointTail(m);
    ReserveSpecialSegmentsExact(a1, rest);
    var r := ReserveSpecialSegments(a, m);
    assert r == ReserveSpecialSegments(a1, rest);
    forall k, j: nat | 0 <= k < |m| && IsSpecial(m[k].kind) && InSegment(m[k], j)
      ensures r.pages[j].reserved <==> SegmentUnreserved(a, m[k]) || a.pages[j].reserved
    {
      if k == 0 {
        SegmentStep(a, d, j);
        HeadApart(m, j);
      } else {
        assert rest[k - 1] == m[k];
        StepLeavesApart(a, d, m[k]);
      }
    }
  }

  /*---------------------------------------------------------------------
   * Initialisation
   *-------------------------------------------------------------------*/

  /** The number of pages reserved for the bitmap: `size * 8 / PAGESIZE + 1`. */
  function BitmapPages(size: nat): nat
  {
    size * 8 / 4096 + 1
  }

  lemma {:induction false} WeightOfClear(p: seq<PageInfo>)
    requires forall j :: 0 <= j < |p| ==> p[j] == PageInfo(false, false)
    ensures Weight(p) == 0
    decreases |p|
  {
    if |p| > 0 {
      WeightOfClear(p[..|p| - 1]);
    }
  }

  /**
   * The bitmap-run step of `init_page_properties`: with only page 0
   * reserved, the run at the site is reserved exactly when it does not
   * start at page 0.
   */
  lemma BitmapRunStep(a0: Allocator, site: nat, n: nat)
    requires RunInBitmap(a0, site, n) && 0 < |a0.pages|
    requires forall j :: 0 <= j < |a0.pages| ==> (a0.pages[j].reserved <==> j == 0)
    ensures var lo := PageIndex(site);
      var a1 := ReservePages(a0, site, n).state;
      && |a1.pages| == |a0.pages|
      && (forall j :: 0 <= j < |a1.pages| ==> a1.pages[j].inuse == a0.pages[j].inuse)
      && (lo > 0 ==> forall j :: lo <= j < lo + n ==> a1.pages[j].reserved)
      && (forall j :: 0 <= j < |a1.pages| && a1.pages[j].reserved ==> j == 0 || (0 < lo <= j < lo + n))
  {
    var lo := PageIndex(site);
    if lo == 0 && n > 0 {
      assert a0.pages[0].reserved;
    }
  }

  /** Page `j` is reserved before the special segments: page 0, or a page of a bitmap run `[lo, lo + n)` that does not start at page 0. */
  predicate BootReserved(lo: nat, n: nat, j: nat)
  {
    j == 0 || (0 < lo && lo <= j < lo + n)
  }

  /** Segment `d` holds neither page 0 nor a page of the bitmap run. */
  ghost predicate SegmentAvoidsBoot(d: Descriptor, lo: nat, n: nat)
  {
    forall i: nat :: InSegment(d, i) ==> !BootReserved(lo, n, i)
  }

  /** The context after page 0, the bitmap run and the special segments have been reserved, in that order. */
  function Initialised(m: seq<Descriptor>, total: nat, bitmap: seq<PageInfo>): Allocator
    requires |bitmap| == total / 4096 > 0
    requires PageIndex(LargestConventional(m).addr) + BitmapPages(|bitmap|) <= |bitmap|
    requires SpecialsInBitmap(m, |bitmap|)
  {
    var a0 := ReservePage(Allocator(bitmap, total, 0), 0).state;
    var a1 := ReservePages(a0, LargestConventional(m).addr, BitmapPages(|bitmap|)).state;
    ReserveSpecialSegments(a1, m)
  }

  /** The context after page 0 and the bitmap run are reserved. */
  lemma BootReservations(m: seq<Descriptor>, total: nat, bitmap: seq<PageInfo>)
    requires |bitmap| == total / 4096 > 0
    requires forall j :: 0 <= j < |bitmap| ==> bitmap[j] == PageInfo(false, false)
    requires PageIndex(LargestConventional(m).addr) + BitmapPages(|bitmap|) <= |bitmap|
    ensures var a0 := ReservePage(Allocator(bitmap, total, 0), 0).state;
      var a1 := ReservePages(a0, LargestConventional(m).addr, BitmapPages(|bitmap|)).state;
      var lo := PageIndex(LargestConventional(m).addr);
      && |a1.pages| == |bitmap|
      && Consistent(a1, total)
      && (forall j :: 0 <= j < |a1.pages| ==> !a1.pages[j].inuse)
      && a1.pages[0].reserved
      && (lo > 0 ==> forall j :: lo <= j < lo + BitmapPages(|bitmap|) ==> a1.pages[j].reserved)
      && (forall j :: 0 <= j < |a1.pages| && a1.pages[j].reserved ==> j == 0 || (0 < lo <= j < lo + BitmapPages(|bitmap|)))
  {
    var site := LargestConventional(m).addr;
    var n := BitmapPages(|bitmap|);
    var start := Allocator(bitmap, total, 0);
    WeightOfClear(bitmap);
    assert Consistent(start, total);
    SinglePageFrame(start, 0, Reserved, total);
    var a0 := ReservePage(start, 0).state;
    assert a0.pages == bitmap[0 := PageInfo(false, true)];
    MultiPageConsistent(a0, site, n, Reserved, total);
    BitmapRunStep(a0, site, n);
  }

  lemma InitialisedFacts(m: seq<Descriptor>, total: nat, bitmap: seq<PageInfo>)
    requires |bitmap| == total / 4096 > 0
    requires forall j :: 0 <= j < |bitmap| ==> bitmap[j] == PageInfo(false, false)
    requires PageIndex(LargestConventional(m).addr) + BitmapPages(|bitmap|) <= |bitmap|
    requires SpecialsInBitmap(m, |bitmap|)
    ensures var a := Initialised(m, total, bitmap);
      var lo := PageIndex(LargestConventional(m).addr);
      && |a.pages| == |bitmap|
      && Consistent(a, total)
      && (forall j :: 0 <= j < |a.pages| ==> !a.pages[j].inuse)
      && a.pages[0].reserved
      && (lo > 0 ==> forall j :: lo <= j < lo + BitmapPages(|a.pages|) ==> a.pages[j].reserved)
      && (forall j :: 0 <= j < |a.pages| && a.pages[j].reserved ==>
            j == 0 || (0 < lo <= j < lo + BitmapPages(|a.pages|)) || InSomeSpecial(m, j))
    ensures SpecialsDisjoint(m) ==>
      var a := Initialised(m, total, bitmap);
      var lo, n := PageIndex(LargestConventional(m).addr), BitmapPages(|bitmap|);
      forall k, j: nat :: 0 <= k < |m| && IsSpecial(m[k].kind) && InSegment(m[k], j) ==>
        (a.pages[j].reserved <==> SegmentAvoidsBoot(m[k], lo, n) || BootReserved(lo, n, j))
    ensures SpecialsDisjoint(m) ==>
      var lo, n := PageIndex(LargestConventional(m).addr), BitmapPages(|bitmap|);
      (forall k :: 0 <= k < |m| && IsSpecial(m[k].kind) ==> SegmentAvoidsBoot(m[k], lo, n)) ==>
        SpecialsReserved(Initialised(m, total, bitmap), m)
  {
    BootReservations(m, total, bitmap);
    var a0 := ReservePage(Allocator(bitmap, total, 0), 0).state;
    var a1 := ReservePages(a0, LargestConventional(m).addr, BitmapPages(|bitmap|)).state;
    var a := ReserveSpecialSegments(a1, m);
    assert a == Initialised(m, total, bitmap);
    if SpecialsDisjoint(m) {
      var lo, n := PageIndex(LargestConventional(m).addr), BitmapPages(|bitmap|);
      ReserveSpecialSegmentsExact(a1, m);
      forall k | 0 <= k < |m| && IsSpecial(m[k].kind)
        ensures SegmentUnreserved(a1, m[k]) == SegmentAvoidsBoot(m[k], lo, n)
      {
        assert forall i: nat :: InSegment(m[k], i) ==> i < |a1.pages|;
      }
    }
  }

  /**
   * `init_page_properties`.  `cache` is the memo of `get_memory_map_size`
   * and `bitmap` the buffer at the chosen site; the C `memset` clears zero
   * bytes (its length variable is never set), so the buffer must already be
   * clear.  The result is 0 in every case, even without a conventional
   * segment.
   */
  method InitPageProperties(m: seq<Descriptor>, cache: nat, bitmap: seq<PageInfo>)
    returns (code: int, a: Allocator, memo: nat)
    requires |bitmap| == MemorySize(cache, m) / 4096 > 0
    requires forall j :: 0 <= j < |bitmap| ==> bitmap[j] == PageInfo(false, false)
    requires PageIndex(LargestConventional(m).addr) + BitmapPages(|bitmap|) <= |bitmap|
    requires SpecialsInBitmap(m, |bitmap|)
    ensures code == 0
    ensures memo == MemorySize(cache, m) && |a.pages| == memo / 4096
    ensures Consistent(a, memo)
    ensures forall j :: 0 <= j < |a.pages| ==> !a.pages[j].inuse
    ensures a.pages[0].reserved
    ensures var lo := PageIndex(LargestConventional(m).addr);
      lo > 0 ==> forall j :: lo <= j < lo + BitmapPages(|a.pages|) ==> a.pages[j].reserved
    ensures var lo := PageIndex(LargestConventional(m).addr);
      forall j :: 0 <= j < |a.pages| && a.pages[j].reserved ==>
        j == 0 || (0 < lo <= j < lo + BitmapPages(|a.pages|)) || InSomeSpecial(m, j)
    ensures SpecialsDisjoint(m) ==>
      var lo, n := PageIndex(LargestConventional(m).addr), BitmapPages(|a.pages|);
      forall k, j: nat :: 0 <= k < |m| && IsSpecial(m[k].kind) && InSegment(m[k], j) ==>
        (a.pages[j].reserved <==> SegmentAvoidsBoot(m[k], lo, n) || BootReserved(lo, n, j))
    ensures SpecialsDisjoint(m) ==>
      var lo, n := PageIndex(LargestConventional(m).addr), BitmapPages(|a.pages|);
      (forall k :: 0 <= k < |m| && IsSpecial(m[k].kind) ==> SegmentAvoidsBoot(m[k], lo, n)) ==>
        SpecialsReserved(a, m)
  {
    // get_memory_map_size is called three times; the first call fills the memo
    var total := GetMemoryMapSize(cache, m);
    var again := GetMemoryMapSize(total, m);
    assert again == total;
    memo := total;
    InitialisedFacts(m, total, bitmap);
    a := Initialised(m, total, bitmap);
    code := 0;
  }
}

=== FILE: page_walk.dfy ===
/**
 * Physical memory as a buffer of 64-bit words, and the four-level
 * long-mode translation of a virtual address through tables stored in it
 * (section 5.3 of the AMD64 Architecture Programmer's Manual, Volume 2).
 *
 * The walk is the reading side of the tables that page_table.c and
 * kernel.c write: it is what "the tables map VA v to PA p" means.  Only
 * 4 KiB pages are walked; the tables built here never set the page-size
 * bit.
 */
module PageWalk {
  import opened Wrappers
  import opened PageEntry

  const PAGE: nat := 0x1000
  /** Entries per table; `PT_INDEX_MASK + 1`. */
  const ENTRIES: nat := 512

  /** A buffer of words: word `k` sits at byte address `base + 8 * k`. */
  datatype Mem = Mem(base: nat, words: seq<Word>)

  /** The buffer lies inside the 64-bit address space. */
  predicate InAddressSpace(m: Mem)
  {
    m.base + 8 * |m.words| <= WORD_LIMIT
  }

  /** The byte address of word `k`. */
  function AddrOf(m: Mem, k: nat): nat
  {
    m.base + 8 * k
  }

  /** The word at a byte address; `None` outside the buffer or off word alignment. */
  function Load(m: Mem, addr: nat): (r: Option<Word>)
    ensures r.Some? <==> m.base <= addr && (addr - m.base) % 8 == 0 && (addr - m.base) / 8 < |m.words|
  {
    if m.base <= addr && (addr - m.base) % 8 == 0 && (addr - m.base) / 8 < |m.words|
    then Some(m.words[(addr - m.base) / 8])
    else None
  }

  /** Loading the address of word `k` reads word `k`. */
  lemma LoadAt(m: Mem, k: nat)
    requires k < |m.words|
    ensures Load(m, AddrOf(m, k)) == Some(m.words[k])
  {
    DivModUnique(8 * k, 0, k, 8);
  }

  /*---------------------------------------------------------------------
   * Splitting a virtual address
   *-------------------------------------------------------------------*/

  /** Each level's index is nine bits of the address (`& PT_INDEX_MASK`), so it lies in [0, 512). */
  function PmlIndex(va: nat): (i: nat)
    ensures i <= PT_INDEX_MASK
  {
    (va / 0x80_0000_0000) % 512
  }

  function PdptIndex(va: nat): (i: nat)
    ensures i <= PT_INDEX_MASK
  {
    (va / 0x4000_0000) % 512
  }

  function PdIndex(va: nat): (i: nat)
    ensures i <= PT_INDEX_MASK
  {
    (va / 0x20_0000) % 512
  }

  function PtIndex(va: nat): (i: nat)
    ensures i <= PT_INDEX_MASK
  {
    (va / 0x1000) % 512
  }

  /** The four indices and the page offset put back together give the address (below bit 48). */
  lemma VaSplit(va: nat)
    ensures va == va % 0x1000 + 0x1000 * (PtIndex(va) + 512 * (PdIndex(va) + 512 * (PdptIndex(va)
                 + 512 * (PmlIndex(va) + 512 * (va / 0x1_0000_0000_0000)))))
  {
    DivDiv(va, 0x1000, 512);
    DivDiv(va, 0x20_0000, 512);
    DivDiv(va, 0x4000_0000, 512);
    DivDiv(va, 0x80_0000_0000, 512);
    var q0 := va / 0x1000;
    var q1 := va / 0x20_0000;
    var q2 := va / 0x4000_0000;
    var q3 := va / 0x80_0000_0000;
    assert q0 == q0 % 512 + 512 * (q0 / 512);
    assert q1 == q1 % 512 + 512 * (q1 / 512);
    assert q2 == q2 % 512 + 512 * (q2 / 512);
    assert q3 == q3 % 512 + 512 * (q3 / 512);
  }

  /** Below 4 GiB only the directory-pointer index can be nonzero, and it is below 4. */
  lemma LowVaSplit(va: nat)
    requires va < 0x1_0000_0000
    ensures PmlIndex(va) == 0 && PdptIndex(va) < 4
    ensures va == va % 0x1000 + 0x1000 * (PtIndex(va) + 512 * (PdIndex(va) + 512 * PdptIndex(va)))
  {
    VaSplit(va);
  }

  /*---------------------------------------------------------------------
   * The walk
   *-------------------------------------------------------------------*/

  /** The outcome of a successful walk: the physical address and the access rights along the path. */
  datatype Translation = Translation(phys: nat, user: bool, writable: bool)

  /** The table a CR3 value points to: its `base_address` field as a byte address. */
  function RootOf(cr3: nat): nat
  {
    FieldAt(cr3, 0x1000, 0x100_0000_0000) * 0x1000
  }

  /*
   * The walk reads the same four fields at every level: the present bit
   * (bit 0), the writable bit (bit 1), the user bit (bit 2) and the frame
   * (bits 12..51).  All three entry layouts of page_table.h put them there
   * (`PteLayout`, `PdeLayout`, `PmlLayout`).
   */

  predicate Present(w: nat)
  {
    FieldAt(w, 1, 2) == 1
  }

  predicate WritableBit(w: nat)
  {
    FieldAt(w, 2, 2) == 1
  }

  predicate UserBit(w: nat)
  {
    FieldAt(w, 4, 2) == 1
  }

  /** The byte address of the page an entry names. */
  function Frame(w: nat): nat
  {
    FieldAt(w, 0x1000, 0x100_0000_0000) * 0x1000
  }

  /**
   * Walks `va` through PML4, PDPT, PD and PT.  A non-present entry at any
   * level gives `None`, and so does a table outside the buffer.  User
   * access needs the user bit at all four levels, and writes need the
   * writable bit at all four.
   */
  function Walk(m: Mem, cr3: nat, va: nat): Option<Translation>
  {
    match Load(m, RootOf(cr3) + 8 * PmlIndex(va))
    case None => None
    case Some(w4) =>
      if !Present(w4) then None
      else match Load(m, Frame(w4) + 8 * PdptIndex(va))
      case None => None
      case Some(w3) =>
        if !Present(w3) then None
        else match Load(m, Frame(w3) + 8 * PdIndex(va))
        case None => None
        case Some(w2) =>
          if !Present(w2) then None
          else match Load(m, Frame(w2) + 8 * PtIndex(va))
          case None => None
          case Some(w1) =>
            if !Present(w1) then None
            else Some(Translation(Frame(w1) + va % 0x1000,
                                  UserBit(w4) && UserBit(w3) && UserBit(w2) && UserBit(w1),
                                  WritableBit(w4) && WritableBit(w3) && WritableBit(w2) && WritableBit(w1)))
  }

  /*---------------------------------------------------------------------
   * Reading a walk level by level
   *-------------------------------------------------------------------*/

  /** The word is a present entry with the given rights that names the page at `next`. */
  predicate Entry(w: nat, user: bool, writable: bool, next: nat)
  {
    Present(w) && UserBit(w) == user && WritableBit(w) == writable && Frame(w) == next
  }

  /** Entry `index` of the table at byte address `table` is present, has the given rights and names the page at `next`. */
  predicate Leads(m: Mem, table: nat, index: nat, user: bool, writable: bool, next: nat)
  {
    var r := Load(m, table + 8 * index);
    r.Some? && Entry(r.value, user, writable, next)
  }

  /** Entry `index` of the table at byte address `table` is readable and not present. */
  predicate Absent(m: Mem, table: nat, index: nat)
  {
    var r := Load(m, table + 8 * index);
    r.Some? && !Present(r.value)
  }

  /** A present word inside the buffer is an entry that leads on. */
  lemma WordLeads(m: Mem, k: nat, i: nat, user: bool, writable: bool, next: nat)
    requires k + i < |m.words| && Entry(m.words[k + i], user, writable, next)
    ensures Leads(m, AddrOf(m, k), i, user, writable, next)
  {
    LoadAt(m, k + i);
  }

  /** A non-present word inside the buffer is an absent entry. */
  lemma WordAbsent(m: Mem, k: nat, i: nat)
    requires k + i < |m.words| && !Present(m.words[k + i])
    ensures Absent(m, AddrOf(m, k), i)
  {
    LoadAt(m, k + i);
  }

  /** Four present levels give the last level's page and the conjunction of the rights. */
  lemma WalkLeads(m: Mem, cr3: nat, va: nat, t3: nat, t2: nat, t1: nat, page: nat,
                  u4: bool, u3: bool, u2: bool, u1: bool, w4: bool, w3: bool, w2: bool, w1: bool)
    requires Leads(m, RootOf(cr3), PmlIndex(va), u4, w4, t3)
    requires Leads(m, t3, PdptIndex(va), u3, w3, t2)
    requires Leads(m, t2, PdIndex(va), u2, w2, t1)
    requires Leads(m, t1, PtIndex(va), u1, w1, page)
    ensures Walk(m, cr3, va) == Some(Translation(page + va % 0x1000, u4 && u3 && u2 && u1, w4 && w3 && w2 && w1))
  {
  }

  /** A non-present PML4 entry ends the walk. */
  lemma WalkAbsentPml(m: Mem, cr3: nat, va: nat)
    requires Absent(m, RootOf(cr3), PmlIndex(va))
    ensures Walk(m, cr3, va) == None
  {
  }

  /** A non-present PDPT entry ends the walk. */
  lemma WalkAbsentPdpt(m: Mem, cr3: nat, va: nat, t3: nat, u4: bool, w4: bool)
    requires Leads(m, RootOf(cr3), PmlIndex(va), u4, w4, t3)
    requires Absent(m, t3, PdptIndex(va))
    ensures Walk(m, cr3, va) == None
  {
  }

  /** A non-present PD entry ends the walk. */
  lemma WalkAbsentPd(m: Mem, cr3: nat, va: nat, t3: nat, t2: nat, u4: bool, u3: bool, w4: bool, w3: bool)
    requires Leads(m, RootOf(cr3), PmlIndex(va), u4, w4, t3)
    requires Leads(m, t3, PdptIndex(va), u3, w3, t2)
    requires Absent(m, t2, PdIndex(va))
    ensures Walk(m, cr3, va) == None
  {
  }

  /** A non-present PT entry ends the walk. */
  lemma WalkAbsentPt(m: Mem, cr3: nat, va: nat, t3: nat, t2: nat, t1: nat,
                     u4: bool, u3: bool, u2: bool, w4: bool, w3: bool, w2: bool)
    requires Leads(m, RootOf(cr3), PmlIndex(va), u4, w4, t3)
    requires Leads(m, t3, PdptIndex(va), u3, w3, t2)
    requires Leads(m, t2, PdIndex(va), u2, w2, t1)
    requires Absent(m, t1, PtIndex(va))
    ensures Walk(m, cr3, va) == None
  {
  }
}

=== FILE: slob.dfy ===
/**
 * The fixed-size-class ("slob") allocator of slob.c and kerninc/slob.h.
 *
 * Three classes of 256, 1024 and PAGESIZE bytes, each a FIFO free list
 * carved once out of one block from the block supplier.  The intrusive
 * lists of the C code become sequences of chunk addresses, and the static
 * bounds arrays become the `lo`/`hi` fields of each list.  The block
 * supplier (`get_block`) is not part of this model: its three answers are
 * parameters, 0 standing for NULL.
 */
module Slob {
  import opened Wrappers

  const PAGESIZE: nat := 4096

  datatype SlobClass = Small | Medium | Large

  /** `slob_sizes[]` */
  function ChunkSize(c: SlobClass): nat
  {
    match c
    case Small => 256
    case Medium => 1024
    case Large => PAGESIZE
  }

  /** One class: its free chunks in list order (front first) and the recorded bounds `[lo, hi]`. */
  datatype FreeList = FreeList(chunks: seq<nat>, lo: nat, hi: nat)

  /** `slob_lists[]` with the three `*_slob_bounds` arrays. */
  datatype Slob = Slob(small: FreeList, medium: FreeList, large: FreeList) {

    function List(c: SlobClass): FreeList
    {
      match c
      case Small => small
      case Medium => medium
      case Large => large
    }

    function WithList(c: SlobClass, l: FreeList): (s: Slob)
      ensures s.List(c) == l
      ensures forall d :: d != c ==> s.List(d) == List(d)
    {
      match c
      case Small => this.(small := l)
      case Medium => this.(medium := l)
      case Large => this.(large := l)
    }
  }

  /** Why `slob_init` halts. */
  datatype Halt = TooFewPages | NoSmallBlock | NoMediumBlock | NoLargeBlock

  datatype InitResult = Halted(reason: Halt) | Ready(slob: Slob)

  /*---------------------------------------------------------------------
   * Carving a block into chunks
   *-------------------------------------------------------------------*/

  /**
   * The loop of `__init_slob_list`: chunk addresses `addr, addr + size, ...`
   * while they are below `end`; the count is the least `n` with
   * `addr + n * size >= end`.
   */
  function Carve(addr: nat, end: nat, size: nat): (r: seq<nat>)
    requires size > 0
    ensures forall k :: 0 <= k < |r| ==> r[k] == addr + k * size && r[k] < end
    ensures addr + |r| * size >= end
    decreases end - addr
  {
    if addr >= end then []
    else
      var rest := Carve(addr + size, end, size);
      MulSucc(|rest|, size);
      assert forall k :: 0 <= k < |rest| ==> rest[k] == addr + (k + 1) * size by {
        forall k | 0 <= k < |rest| ensures rest[k] == addr + (k + 1) * size {
          MulSucc(k, size);
        }
      }
      [addr] + rest
  }

  lemma MulSucc(k: nat, size: nat)
    ensures (k + 1) * size == k * size + size
  {
  }

  /** The chunks of `Carve` are strictly ascending and lie in `[addr, end)`. */
  lemma CarveOrdered(addr: nat, end: nat, size: nat)
    requires size > 0
    ensures var r := Carve(addr, end, size);
      && (forall k :: 0 <= k < |r| ==> addr <= r[k] < end)
      && (forall i, j :: 0 <= i < j < |r| ==> r[i] < r[j])
  {
    var r := Carve(addr, end, size);
    forall i, j | 0 <= i < j < |r|
      ensures r[i] < r[j]
    {
      MulMono(i, j, size);
    }
  }

  lemma MulMono(i: nat, j: nat, size: nat)
    requires i < j && size > 0
    ensures i * size < j * size
  {
  }

  /** `__init_slob_list`: the class list holds the chunks of the block and records the bounds `[base, base + num_pages * PAGESIZE]`. */
  function InitSlobList(base: nat, numPages: nat, c: SlobClass): (l: FreeList)
    ensures l.lo == base && l.hi == base + numPages * 4096
    ensures |l.chunks| == numPages * (4096 / ChunkSize(c))
    ensures forall k :: 0 <= k < |l.chunks| ==> l.chunks[k] == base + k * ChunkSize(c)
  {
    var size := ChunkSize(c);
    var r := Carve(base, base + numPages * 4096, size);
    CarveCount(base, numPages, c);
    FreeList(r, base, base + numPages * 4096)
  }

  /** A block of whole pages is carved into a whole number of chunks of every class. */
  lemma CarveCount(base: nat, numPages: nat, c: SlobClass)
    ensures |Carve(base, base + numPages * 4096, ChunkSize(c))| == numPages * (4096 / ChunkSize(c))
  {
    match c
    case Small =>
      CarveExact(base, numPages * 4096, 256, numPages * 16);
    case Medium =>
      CarveExact(base, numPages * 4096, 1024, numPages * 4);
    case Large =>
      CarveExact(base, numPages * 4096, 4096, numPages);
  }

  /** A block of exactly `n` chunks is carved into `n` chunks. */
  lemma CarveExact(addr: nat, len: nat, size: nat, n: nat)
    requires size > 0 && len == n * size
    ensures |Carve(addr, addr + len, size)| == n
  {
    var r := Carve(addr, addr + len, size);
    MulCancel(|r|, n, size);
    if |r| > 0 {
      assert r[|r| - 1] == addr + (|r| - 1) * size < addr + len;
      MulCancelStrict(|r| - 1, n, size);
    }
  }

  lemma MulCancel(a: nat, b: nat, size: nat)
    requires size > 0 && a * size >= b * size
    ensures a >= b
  {
  }

  lemma MulCancelStrict(a: nat, b: nat, size: nat)
    requires size > 0 && a * size < b * size
    ensures a < b
  {
  }

  /** 16, 4 or 1 chunks per page. */
  lemma ChunksPerPage(base: nat, numPages: nat)
    ensures |InitSlobList(base, numPages, Small).chunks| == 16 * numPages
    ensures |InitSlobList(base, numPages, Medium).chunks| == 4 * numPages
    ensures |InitSlobList(base, numPages, Large).chunks| == numPages
  {
  }

  /*---------------------------------------------------------------------
   * Initialisation
   *-------------------------------------------------------------------*/

  /**
   * `slob_init`: each class gets `num_pages / 3` pages from the block
   * supplier, whose three successive answers are `small`, `medium` and
   * `large` (an answer is not asked for once an earlier one is NULL).
   */
  function SlobInit(numPages: nat, small: nat, medium: nat, large: nat): (r: InitResult)
    ensures numPages < 3 <==> r == Halted(TooFewPages)
    ensures r.Ready? <==> numPages >= 3 && small != 0 && medium != 0 && large != 0
    ensures numPages >= 3 && small == 0 ==> r == Halted(NoSmallBlock)
    ensures numPages >= 3 && small != 0 && medium == 0 ==> r == Halted(NoMediumBlock)
    ensures numPages >= 3 && small != 0 && medium != 0 && large == 0 ==> r == Halted(NoLargeBlock)
    ensures r.Ready? ==>
      var per := numPages / 3;
      && r.slob.small == InitSlobList(small, per, Small)
      && r.slob.medium == InitSlobList(medium, per, Medium)
      && r.slob.large == InitSlobList(large, per, Large)
  {
    if numPages < 3 then Halted(TooFewPages)
    else
      var per := numPages / 3;
      if small == 0 then Halted(NoSmallBlock)
      else if medium == 0 then Halted(NoMediumBlock)
      else if large == 0 then Halted(NoLargeBlock)
      else Ready(Slob(InitSlobList(small, per, Small), InitSlobList(medium, per, Medium), InitSlobList(large, per, Large)))
  }

  /** With 30 pages every class gets 10 pages: 160 small, 40 medium and 10 large chunks. */
  lemma SlobInitThirty(small: nat, medium: nat, large: nat)
    requires small != 0 && medium != 0 && large != 0
    ensures var r := SlobInit(30, small, medium, large);
      && r.Ready?
      && |r.slob.small.chunks| == 160 && |r.slob.medium.chunks| == 40 && |r.slob.large.chunks| == 10
      && r.slob.small.hi == small + 10 * 4096
  {
    ChunksPerPage(small, 10);
    ChunksPerPage(medium, 10);
    ChunksPerPage(large, 10);
  }

  /*---------------------------------------------------------------------
   * Allocation and release
   *-------------------------------------------------------------------*/

  /** The size classing of `__slob_alloc`; `None` for requests larger than a page. */
  function ClassOf(size: nat): (c: Option<SlobClass>)
    ensures c.Some? <==> size <= PAGESIZE
    ensures c.Some? ==> size <= ChunkSize(c.value)
    ensures c == Some(Medium) ==> size > ChunkSize(Small)
    ensures c == Some(Large) ==> size > ChunkSize(Medium)
  {
    if size <= 256 then Some(Small)
    else if size <= 1024 then Some(Medium)
    else if size <= PAGESIZE then Some(Large)
    else None
  }

  /** A chunk address and the allocator after the call (`None` is the NULL result). */
  datatype Alloc = Alloc(addr: Option<nat>, slob: Slob)

  /** `__slob_alloc` (and `kmalloc`): pop the front of the class list; an empty class never borrows from another. */
  function SlobAlloc(s: Slob, size: nat): (r: Alloc)
    ensures ClassOf(size).None? ==> r == Alloc(None, s)
    ensures ClassOf(size).Some? ==>
      var c := ClassOf(size).value;
      var l := s.List(c);
      && (|l.chunks| == 0 ==> r == Alloc(None, s))
      && (|l.chunks| > 0 ==>
            && r.addr == Some(l.chunks[0])
            && r.slob.List(c).chunks == l.chunks[1..]
            && r.slob.List(c).lo == l.lo && r.slob.List(c).hi == l.hi
            && |r.slob.List(c).chunks| == |l.chunks| - 1
            && forall d :: d != c ==> r.slob.List(d) == s.List(d))
  {
    match ClassOf(size)
    case None => Alloc(None, s)
    case Some(c) =>
      var l := s.List(c);
      if |l.chunks| == 0 then Alloc(None, s)
      else Alloc(Some(l.chunks[0]), s.WithList(c, l.(chunks := l.chunks[1..])))
  }

  function Kmalloc(s: Slob, size: nat): Alloc
  {
    SlobAlloc(s, size)
  }

  /** The address lies in the recorded bounds of the class, both ends included. */
  predicate InBounds(s: Slob, c: SlobClass, addr: nat)
  {
    s.List(c).lo <= addr <= s.List(c).hi
  }

  predicate InSomeBounds(s: Slob, addr: nat)
  {
    InBounds(s, Small, addr) || InBounds(s, Medium, addr) || InBounds(s, Large, addr)
  }

  /**
   * The classification of `__slob_free`: the three range tests run in the
   * order SMALL, MEDIUM, LARGE and each match overwrites the previous one,
   * so the LAST matching class wins.
   */
  function FreeClass(s: Slob, addr: nat): (c: SlobClass)
    requires InSomeBounds(s, addr)
    ensures InBounds(s, c, addr)
    ensures c == Small ==> !InBounds(s, Medium, addr) && !InBounds(s, Large, addr)
    ensures c == Medium ==> !InBounds(s, Large, addr)
  {
    if InBounds(s, Large, addr) then Large
    else if InBounds(s, Medium, addr) then Medium
    else Small
  }

  /** `__slob_free` (and `kfree`, `kzfree`): append the address to the back of its class list. */
  function SlobFree(s: Slob, addr: nat): (r: Slob)
    requires InSomeBounds(s, addr)
    ensures var c := FreeClass(s, addr);
      && r.List(c).chunks == s.List(c).chunks + [addr]
      && r.List(c).lo == s.List(c).lo && r.List(c).hi == s.List(c).hi
      && forall d :: d != c ==> r.List(d) == s.List(d)
  {
    var c := FreeClass(s, addr);
    var l := s.List(c);
    s.WithList(c, l.(chunks := l.chunks + [addr]))
  }

  function Kfree(s: Slob, addr: nat): Slob
    requires InSomeBounds(s, addr)
  {
    SlobFree(s, addr)
  }

  /** `kzfree` does not zero anything: it is `kfree`. */
  function Kzfree(s: Slob, addr: nat): (r: Slob)
    requires InSomeBounds(s, addr)
    ensures r == Kfree(s, addr)
  {
    SlobFree(s, addr)
  }

  /**
   * `krealloc`: free, then allocate afresh; the old contents are not
   * copied.  The old chunk is released even when the new request fails,
   * and the same chunk comes back only when its class list was empty.
   */
  function Krealloc(s: Slob, addr: nat, size: nat): (r: Alloc)
    requires InSomeBounds(s, addr)
    ensures ClassOf(size).None? ==> r == Alloc(None, Kfree(s, addr))
    ensures var c := FreeClass(s, addr);
      ClassOf(size) == Some(c) ==>
        && r.addr == Some(if |s.List(c).chunks| == 0 then addr else s.List(c).chunks[0])
        && |r.slob.List(c).chunks| == |s.List(c).chunks|
    ensures ClassOf(size).Some? && ClassOf(size) != Some(FreeClass(s, addr)) ==>
      var c := ClassOf(size).value;
      r.addr == (if |s.List(c).chunks| == 0 then None else Some(s.List(c).chunks[0]))
  {
    Kmalloc(Kfree(s, addr), size)
  }

  /*---------------------------------------------------------------------
   * Invariants and round trips
   *-------------------------------------------------------------------*/

  /** Every free chunk of a class lies in its block `[lo, hi)`. */
  ghost predicate ChunksInBlocks(s: Slob)
  {
    forall c: SlobClass, k :: 0 <= k < |s.List(c).chunks| ==> s.List(c).lo <= s.List(c).chunks[k] < s.List(c).hi
  }

  /** The closed bounds of the three classes are pairwise disjoint (no block ends where another starts). */
  ghost predicate Separated(s: Slob)
  {
    forall c: SlobClass, d: SlobClass :: c != d ==> s.List(c).hi < s.List(d).lo || s.List(d).hi < s.List(c).lo
  }

  /** A freshly initialised allocator keeps every chunk in its own block. */
  lemma InitChunksInBlocks(numPages: nat, small: nat, medium: nat, large: nat)
    requires SlobInit(numPages, small, medium, large).Ready?
    ensures ChunksInBlocks(SlobInit(numPages, small, medium, large).slob)
  {
    var per := numPages / 3;
    CarveOrdered(small, small + per * 4096, ChunkSize(Small));
    CarveOrdered(medium, medium + per * 4096, ChunkSize(Medium));
    CarveOrdered(large, large + per * 4096, ChunkSize(Large));
  }

  /** Allocation keeps every chunk in its own block and hands out a chunk of the block of its class. */
  lemma AllocChunksInBlocks(s: Slob, size: nat)
    requires ChunksInBlocks(s)
    ensures ChunksInBlocks(SlobAlloc(s, size).slob)
    ensures SlobAlloc(s, size).addr.Some? ==>
      var c := ClassOf(size).value;
      s.List(c).lo <= SlobAlloc(s, size).addr.value < s.List(c).hi
  {
    var r := SlobAlloc(s, size).slob;
    forall c: SlobClass, k | 0 <= k < |r.List(c).chunks|
      ensures r.List(c).lo <= r.List(c).chunks[k] < r.List(c).hi
    {
      if ClassOf(size) == Some(c) && |s.List(c).chunks| > 0 {
        assert r.List(c).chunks[k] == s.List(c).chunks[k + 1];
      }
    }
  }

  /**
   * Allocating a chunk and freeing it again returns it to the TAIL of its
   * own class list: the list keeps its length and rotates by one.
   */
  lemma AllocThenFree(s: Slob, size: nat)
    requires ChunksInBlocks(s) && Separated(s)
    requires SlobAlloc(s, size).addr.Some?
    ensures var a := SlobAlloc(s, size);
      var c := ClassOf(size).value;
      && InSomeBounds(a.slob, a.addr.value)
      && FreeClass(a.slob, a.addr.value) == c
      && SlobFree(a.slob, a.addr.value).List(c).chunks == s.List(c).chunks[1..] + [s.List(c).chunks[0]]
      && |SlobFree(a.slob, a.addr.value).List(c).chunks| == |s.List(c).chunks|
      && forall d :: d != c ==> SlobFree(a.slob, a.addr.value).List(d) == s.List(d)
  {
    AllocChunksInBlocks(s, size);
  }

  /**
   * The inclusive upper bound misroutes a chunk: when the medium block ends
   * exactly where the small block starts, the first small chunk is freed
   * into the medium list.
   */
  lemma FreeAtSharedBoundary()
    ensures var s := Slob(FreeList([], 0x20000, 0x30000), FreeList([], 0x10000, 0x20000), FreeList([], 0x40000, 0x50000));
      var small := InitSlobList(0x20000, 16, Small);
      && small.chunks[0] == 0x20000
      && FreeClass(s, 0x20000) == Medium
  {
  }
}

=== FILE: tss.dfy ===
/**
 * `load_tss_segment` of kerninc/interrupts.h: the 16-byte TSS descriptor
 * it writes into two consecutive GDT words, laid out as in Figure 4-22
 * (section 4.8.3, system-segment descriptors) of the AMD64 Architecture
 * Programmer's Manual, Volume 2.  The shifts and masks are 64-bit, so the
 * words are `bv64`.
 */
module Tss {

  /*---------------------------------------------------------------------
   * The packed `struct tss_segment`
   *-------------------------------------------------------------------*/

  /**
   * Byte sizes of the members in declaration order: `reserved1` (4),
   * `rsp[3]`, `reserved2`, `ist[7]`, `reserved3` (8 each), `reserved4`
   * and `iopb_base` (2 each); the struct is packed, so there is no padding.
   */
  const TSS_MEMBER_BYTES: seq<nat> := [4, 8, 8, 8, 8, 8, 8, 8, 8, 8, 8, 8, 8, 2, 2]

  /** Sum of the first `i` member sizes: the byte offset of member `i`, or the size for `i == |sizes|`. */
  function Offset(sizes: seq<nat>, i: nat): nat
    requires i <= |sizes|
  {
    if i == 0 then 0 else Offset(sizes, i - 1) + sizes[i - 1]
  }

  /** `sizeof(tss_segment_t)`. */
  function TssSize(): nat
  {
    Offset(TSS_MEMBER_BYTES, |TSS_MEMBER_BYTES|)
  }

  /** The packed TSS is 104 bytes: `rsp[0]` at byte 4, `ist[0]` at 36, `iopb_base` at 102. */
  lemma TssLayout()
    ensures TssSize() == 104 && TssSize() - 1 == TSS_LIMIT as nat
    ensures Offset(TSS_MEMBER_BYTES, 1) == 4 && Offset(TSS_MEMBER_BYTES, 5) == 36
    ensures Offset(TSS_MEMBER_BYTES, 14) == 102
  {
    var s := TSS_MEMBER_BYTES;
    assert Offset(s, 1) == 4;
    assert Offset(s, 2) == 12;
    assert Offset(s, 3) == 20;
    assert Offset(s, 4) == 28;
    assert Offset(s, 5) == 36;
    assert Offset(s, 6) == 44;
    assert Offset(s, 7) == 52;
    assert Offset(s, 8) == 60;
    assert Offset(s, 9) == 68;
    assert Offset(s, 10) == 76;
    assert Offset(s, 11) == 84;
    assert Offset(s, 12) == 92;
    assert Offset(s, 13) == 100;
    assert Offset(s, 14) == 102;
  }

  /*---------------------------------------------------------------------
   * The descriptor words
   *-------------------------------------------------------------------*/

  /** `limit = sizeof(tss_segment_t) - 1`, a `uint16_t`. */
  const TSS_LIMIT: bv64 := 103

  /** Word 0: limit, base bits 0..23 at 16..39, type 9 at 40..43, present at 47, base bits 24..31 at 56..63. */
  function DescriptorLow(base: bv64): bv64
  {
    ((base & 0xFF00_0000) << 32) | (1 << 47) | (0x9 << 40) | ((base & 0x00FF_FFFF) << 16) | TSS_LIMIT
  }

  /** Word 1: base bits 32..63; the upper half, reserved, stays zero. */
  function DescriptorHigh(base: bv64): bv64
  {
    base >> 32
  }

  /** The base address as the processor assembles it from the two words. */
  function DescriptorBase(lo: bv64, hi: bv64): bv64
  {
    ((lo >> 16) & 0xFF_FFFF) | (((lo >> 56) & 0xFF) << 24) | ((hi & 0xFFFF_FFFF) << 32)
  }

  /** The limit as the processor reads it: bits 0..15 and 48..51 of word 0. */
  function DescriptorLimit(lo: bv64): bv64
  {
    (lo & 0xFFFF) | (((lo >> 48) & 0xF) << 16)
  }

  /**
   * The two words decode to the base they were built from and to limit
   * 103; word 0 is a present 64-bit available TSS (type 9) of DPL 0 with
   * the S bit, AVL and G clear, and the reserved upper half of word 1 is
   * zero.
   */
  lemma DescriptorSpec(base: bv64)
    ensures var lo, hi := DescriptorLow(base), DescriptorHigh(base);
      && DescriptorBase(lo, hi) == base
      && DescriptorLimit(lo) == TSS_LIMIT
      && (lo >> 40) & 0xF == 9
      && (lo >> 44) & 1 == 0
      && (lo >> 45) & 3 == 0
      && (lo >> 47) & 1 == 1
      && (lo >> 52) & 0xF == 0
      && hi >> 32 == 0
  {
  }

  /**
   * `load_tss_segment(selector, tss)` on a GDT of 64-bit words: the two
   * words from byte offset `selector` receive the descriptor of the TSS at
   * byte address `tss`, which decodes back to `tss` and limit 103; nothing
   * else changes.
   */
  function LoadTssSegment(gdt: seq<bv64>, selector: nat, tss: bv64): (r: seq<bv64>)
    requires selector % 8 == 0 && selector / 8 + 1 < |gdt|
    ensures |r| == |gdt|
    ensures DescriptorBase(r[selector / 8], r[selector / 8 + 1]) == tss
    ensures DescriptorLimit(r[selector / 8]) == TSS_LIMIT
    ensures forall k :: 0 <= k < |gdt| && k != selector / 8 && k != selector / 8 + 1 ==> r[k] == gdt[k]
  {
    DescriptorSpec(tss);
    gdt[selector / 8 := DescriptorLow(tss)][selector / 8 + 1 := DescriptorHigh(tss)]
  }
}

=== FILE: user_tables.dfy ===
/**
 * `create_user_page_table` and `setup_tls` of kernel.c, and the address
 * arithmetic of `kernel_start` that puts the user tables in the same buffer
 * as the kernel tables.
 *
 * From word `at` of the buffer the user tables take four pages:
 *
 *   words at + 0    .. at + 511    PTEs: 0 the stack page, 1..num_pages code, the rest padding
 *   words at + 512  .. at + 1023   PDEs: entry 0 points at the PTE page
 *   words at + 1024 .. at + 1535   PDPEs: entry 511 points at the PDE page
 *   words at + 1536 .. at + 2047   PML4: entry 0 the kernel PDPT page, entry 511 the user PDPT page
 *
 * The PTE loop of the C code runs to `num_pages` whatever its value, so for
 * programs of 511 pages or more it writes past the PTE page; the model
 * keeps those writes.
 */
module UserTables {
  import opened Wrappers
  import opened PageEntry
  import opened PageWalk
  import opened KernelTables

  /** The words of the four user table pages. */
  const USER_WORDS: nat := 2048
  /** The PTE `setup_tls` sets, and the one `faulting_page` points at. */
  const TLS_ENTRY: nat := 257
  const FAULT_ENTRY: nat := 256
  /** The address `kernel_start` jumps to (and uses as the user stack top). */
  const CODE_VA: nat := 0xFFFF_FFFF_C000_1000
  /** The address the TLS block is mapped at (`tls_block->myself` and `MSR_FS`). */
  const TLS_VA: nat := 0xFFFF_FFFF_C010_1000

  /** `(size / 4096) + 1` stored into an `unsigned int`. */
  function NumPages(size: Word): (n: nat)
    ensures n < 0x1_0000_0000
  {
    (size / 0x1000 + 1) % 0x1_0000_0000
  }

  /** For a size that fits an `unsigned int` (as `kernel_start` passes it) the count does not wrap: at least one page, and enough pages to hold `size` bytes. */
  lemma NumPagesNoWrap(size: Word)
    requires size < 0x1_0000_0000
    ensures NumPages(size) == size / 0x1000 + 1
    ensures 1 <= NumPages(size) && size < 0x1000 * NumPages(size)
  {
    DivLt(size, 0x1000, 0x10_0000);
    DivModUnique(size / 0x1000 + 1, size / 0x1000 + 1, 0, 0x1_0000_0000);
  }

  /** `user_ptr + 512 * j` as a `uint64_t *`: the byte address `user_ptr + 4096 j`, modulo 2^64. */
  function UserPage(userPtr: nat, j: int): nat
  {
    (userPtr + 0x1000 * j) % 0x1_0000_0000_0000_0000
  }

  /** The byte address a 40-bit frame field keeps of the page that holds `addr`. */
  function PhysPage(addr: nat): nat
  {
    (addr / 0x1000) % 0x100_0000_0000 * 0x1000
  }

  /** `set_pte(p, n, addr >> 12, 1, 1)`: a present user PTE for the page holding `addr`. */
  function MapPte(addr: nat): Word
  {
    EncodePte(SetPte(addr / 0x1000, 1, 1))
  }

  /** PTE `i` for `i <= num_pages`: the page `i - 1` pages above `user_ptr`, present and user. */
  function UserPte(userPtr: nat, i: nat): Word
  {
    MapPte(UserPage(userPtr, i - 1))
  }

  /** A padding PTE: not present, user. */
  function PadPte(): Word
  {
    EncodePte(SetPte(0, 0, 1))
  }

  /*
   * The directory entries name table pages by byte address: with the
   * buffer at `base`, word `at + j` is at `base + 8 * (at + j)`.  They
   * depend on the buffer only through `base` and the word written over.
   */

  /** PDE `i` written over `prior`: entry 0 points at the PTE page; the rest are not present. */
  function UserPde(base: nat, at: nat, prior: Word, i: nat): Word
  {
    if i == 0 then EncodePde(SetPde(Ign2(prior), (base + 8 * at) / 0x1000, 1, 1))
    else EncodePde(SetPde(Ign2(prior), 0, 0, 1))
  }

  /** PDPE `i` written over `prior`: entry 511 points at the PDE page; the rest are not present. */
  function UserPdpe(base: nat, at: nat, prior: Word, i: nat): Word
  {
    if i == 511 then EncodePde(SetPde(Ign2(prior), (base + 8 * (at + 512)) / 0x1000, 1, 1))
    else EncodePde(SetPde(Ign2(prior), 0, 0, 1))
  }

  /** PML4 entry `i`: 0 the kernel PDPT page (supervisor), 511 the user PDPT page, the rest not present. */
  function UserPml(base: nat, at: nat, kernelPdpe: nat, i: nat): Word
  {
    if i == 0 then EncodePml(SetPml(kernelPdpe / 0x1000, 1, 0))
    else if i == 511 then EncodePml(SetPml((base + 8 * (at + 1024)) / 0x1000, 1, 1))
    else PadPml()
  }

  /** A PML4 entry the loop leaves not present. */
  function PadPml(): Word
  {
    EncodePml(SetPml(0, 0, 1))
  }

  /** Word `at + k` after the two PTE loops, where the word was `prior` before. */
  function PtePhase(userPtr: nat, n: nat, k: nat, prior: Word): Word
  {
    if k <= n then UserPte(userPtr, k)
    else if k < 512 then PadPte()
    else prior
  }

  /** Word `at + k` of the four table pages once `create_user_page_table` returns, where the word was `prior` before. */
  function UserWord(base: nat, at: nat, userPtr: nat, n: nat, kernelPdpe: nat, k: nat, prior: Word): Word
    requires k < USER_WORDS
  {
    if k < 512 then PtePhase(userPtr, n, k, prior)
    else if k < 1024 then UserPde(base, at, PtePhase(userPtr, n, k, prior), k - 512)
    else if k < 1536 then UserPdpe(base, at, PtePhase(userPtr, n, k, prior), k - 1024)
    else UserPml(base, at, kernelPdpe, k - 1536)
  }

  /**
   * `after` holds the user tables built over `before` from word `at`: the
   * four pages as `UserWord` says, the PTE loop's writes past them, and
   * every other word as before.
   */
  ghost predicate UserTablesBuilt(before: Mem, at: nat, userPtr: nat, n: nat, kernelPdpe: nat, after: Mem)
  {
    && after.base == before.base
    && |after.words| == |before.words|
    && at + USER_WORDS <= |before.words| && at + n < |before.words|
    && (forall k :: at <= k < at + USER_WORDS ==>
          after.words[k] == UserWord(before.base, at, userPtr, n, kernelPdpe, k - at, before.words[k]))
    && (forall k :: 0 <= k < |before.words| && !(at <= k < at + USER_WORDS) ==>
          after.words[k] == if at <= k <= at + n then UserPte(userPtr, k - at) else before.words[k])
  }

  /*---------------------------------------------------------------------
   * The loops of create_user_page_table
   *-------------------------------------------------------------------*/

  /** PTE 0 (the stack page) and the loop over PTEs `1..num_pages`. */
  method FillUserPtes(at: nat, userPtr: nat, n: nat, w: seq<Word>) returns (w': seq<Word>)
    requires at + n < |w|
    ensures |w'| == |w|
    ensures forall k :: at <= k <= at + n ==> w'[k] == UserPte(userPtr, k - at)
    ensures forall k :: 0 <= k < |w| && !(at <= k <= at + n) ==> w'[k] == w[k]
  {
    w' := w[at := UserPte(userPtr, 0)];
    var i := 1;
    while i <= n
      invariant 1 <= i <= n + 1 && |w'| == |w|
      invariant forall k :: at <= k < at + i ==> w'[k] == UserPte(userPtr, k - at)
      invariant forall k :: 0 <= k < |w| && !(at <= k < at + i) ==> w'[k] == w[k]
    {
      w' := w'[at + i := UserPte(userPtr, i)];
      i := i + 1;
    }
  }

  /** A loop that stores the same word `v` at every index of `[lo, hi)`. */
  method FillRange(lo: nat, hi: nat, v: Word, w: seq<Word>) returns (w': seq<Word>)
    requires lo <= hi <= |w|
    ensures |w'| == |w|
    ensures forall k :: lo <= k < hi ==> w'[k] == v
    ensures forall k :: 0 <= k < |w| && !(lo <= k < hi) ==> w'[k] == w[k]
  {
    w' := w;
    var i := lo;
    while i < hi
      invariant lo <= i <= hi && |w'| == |w|
      invariant forall k :: lo <= k < i ==> w'[k] == v
      invariant forall k :: 0 <= k < |w| && !(lo <= k < i) ==> w'[k] == w[k]
    {
      w' := w'[i := v];
      i := i + 1;
    }
  }

  /** A table page written as `first`, then `pad` in entries 1..510, then `last`. */
  method FillTable(lo: nat, first: Word, pad: Word, last: Word, w: seq<Word>) returns (w': seq<Word>)
    requires lo + 512 <= |w|
    ensures |w'| == |w|
    ensures w'[lo] == first && w'[lo + 511] == last
    ensures forall k :: lo + 1 <= k < lo + 511 ==> w'[k] == pad
    ensures forall k :: 0 <= k < |w| && !(lo <= k < lo + 512) ==> w'[k] == w[k]
  {
    var w1 := w[lo := first];
    var w2 := FillRange(lo + 1, lo + 511, pad, w1);
    w' := w2[lo + 511 := last];
  }

  /** The padding loop over PTEs `num_pages + 1 .. 511`, which does nothing when `num_pages >= 511`. */
  method PadUserPtes(at: nat, n: nat, w: seq<Word>) returns (w': seq<Word>)
    requires at + 512 <= |w|
    ensures |w'| == |w|
    ensures forall k :: at + n < k < at + 512 ==> w'[k] == PadPte()
    ensures forall k :: 0 <= k < |w| && !(at + n < k < at + 512) ==> w'[k] == w[k]
  {
    if n + 1 < 512 {
      w' := FillRange(at + n + 1, at + 512, PadPte(), w);
    } else {
      w' := w;
    }
  }

  /** PDE 0 and the loop over PDEs `1..511`; each is written over the word already there. */
  method FillUserPdes(base: nat, at: nat, w: seq<Word>) returns (w': seq<Word>)
    requires at + 1024 <= |w|
    ensures |w'| == |w|
    ensures forall k :: at + 512 <= k < at + 1024 ==> w'[k] == UserPde(base, at, w[k], k - at - 512)
    ensures forall k :: 0 <= k < |w| && !(at + 512 <= k < at + 1024) ==> w'[k] == w[k]
  {
    w' := w[at + 512 := UserPde(base, at, w[at + 512], 0)];
    var i := 1;
    while i < 512
      invariant 1 <= i <= 512 && |w'| == |w|
      invariant forall k :: at + 512 <= k < at + 512 + i ==> w'[k] == UserPde(base, at, w[k], k - at - 512)
      invariant forall k :: 0 <= k < |w| && !(at + 512 <= k < at + 512 + i) ==> w'[k] == w[k]
    {
      w' := w'[at + 512 + i := UserPde(base, at, w'[at + 512 + i], i)];
      i := i + 1;
    }
  }

  /** The loop over PDPEs `0..510`, then PDPE 511; each is written over the word already there. */
  method FillUserPdpes(base: nat, at: nat, w: seq<Word>) returns (w': seq<Word>)
    requires at + 1536 <= |w|
    ensures |w'| == |w|
    ensures forall k :: at + 1024 <= k < at + 1536 ==> w'[k] == UserPdpe(base, at, w[k], k - at - 1024)
    ensures forall k :: 0 <= k < |w| && !(at + 1024 <= k < at + 1536) ==> w'[k] == w[k]
  {
    w' := w;
    var i := 0;
    while i < 511
      invariant 0 <= i <= 511 && |w'| == |w|
      invariant forall k :: at + 1024 <= k < at + 1024 + i ==> w'[k] == UserPdpe(base, at, w[k], k - at - 1024)
      invariant forall k :: 0 <= k < |w| && !(at + 1024 <= k < at + 1024 + i) ==> w'[k] == w[k]
    {
      w' := w'[at + 1024 + i := UserPdpe(base, at, w'[at + 1024 + i], i)];
      i := i + 1;
    }
    w' := w'[at + 1535 := UserPdpe(base, at, w'[at + 1535], 511)];
  }

  /** PML4 entry 0, the loop over entries `1..510`, then entry 511. */
  method FillUserPmls(base: nat, at: nat, kernelPdpe: nat, w: seq<Word>) returns (w': seq<Word>)
    requires at + 2048 <= |w|
    ensures |w'| == |w|
    ensures forall k :: at + 1536 <= k < at + 2048 ==> w'[k] == UserPml(base, at, kernelPdpe, k - at - 1536)
    ensures forall k :: 0 <= k < |w| && !(at + 1536 <= k < at + 2048) ==> w'[k] == w[k]
  {
    w' := FillTable(at + 1536, UserPml(base, at, kernelPdpe, 0), PadPml(), UserPml(base, at, kernelPdpe, 511), w);
    PmlWords(base, at, kernelPdpe, w, w');
  }

  /** The three writes of `FillUserPmls` put together. */
  lemma PmlWords(base: nat, at: nat, kernelPdpe: nat, w: seq<Word>, w': seq<Word>)
    requires at + 2048 <= |w| == |w'|
    requires w'[at + 1536] == UserPml(base, at, kernelPdpe, 0) && w'[at + 2047] == UserPml(base, at, kernelPdpe, 511)
    requires forall k :: at + 1537 <= k < at + 2047 ==> w'[k] == PadPml()
    requires forall k :: 0 <= k < |w| && !(at + 1536 <= k < at + 2048) ==> w'[k] == w[k]
    ensures forall k :: at + 1536 <= k < at + 2048 ==> w'[k] == UserPml(base, at, kernelPdpe, k - at - 1536)
  {
  }

  /** After the two PTE loops, the table pages hold `PtePhase` and the writes past them are code PTEs. */
  lemma PtePhaseWords(m: Mem, at: nat, userPtr: nat, n: nat, w1: seq<Word>, w2: seq<Word>)
    requires at + USER_WORDS <= |m.words| && at + n < |m.words| && |w1| == |w2| == |m.words|
    requires forall k :: at <= k <= at + n ==> w1[k] == UserPte(userPtr, k - at)
    requires forall k :: 0 <= k < |m.words| && !(at <= k <= at + n) ==> w1[k] == m.words[k]
    requires forall k :: at + n < k < at + 512 ==> w2[k] == PadPte()
    requires forall k :: 0 <= k < |w1| && !(at + n < k < at + 512) ==> w2[k] == w1[k]
    ensures forall k :: at <= k < at + USER_WORDS ==> w2[k] == PtePhase(userPtr, n, k - at, m.words[k])
    ensures forall k :: 0 <= k < |m.words| && !(at <= k < at + USER_WORDS) ==>
      w2[k] == if at <= k <= at + n then UserPte(userPtr, k - at) else m.words[k]
  {
    forall k | at <= k < at + USER_WORDS
      ensures w2[k] == PtePhase(userPtr, n, k - at, m.words[k])
    {
      if k > at + n && k < at + 512 {
        assert w2[k] == PadPte();
      } else {
        assert w2[k] == w1[k];
      }
    }
    forall k | 0 <= k < |m.words| && !(at <= k < at + USER_WORDS)
      ensures w2[k] == if at <= k <= at + n then UserPte(userPtr, k - at) else m.words[k]
    {
      assert w2[k] == w1[k];
    }
  }

  /** The three directory loops turn `PtePhase` words into the final `UserWord`s. */
  lemma DirectoryWords(m: Mem, at: nat, userPtr: nat, n: nat, kernelPdpe: nat,
                       w2: seq<Word>, w3: seq<Word>, w4: seq<Word>, w5: seq<Word>)
    requires at + USER_WORDS <= |m.words| && |w2| == |w3| == |w4| == |w5| == |m.words|
    requires forall k :: at <= k < at + USER_WORDS ==> w2[k] == PtePhase(userPtr, n, k - at, m.words[k])
    requires forall k :: at + 512 <= k < at + 1024 ==> w3[k] == UserPde(m.base, at, w2[k], k - at - 512)
    requires forall k :: 0 <= k < |w2| && !(at + 512 <= k < at + 1024) ==> w3[k] == w2[k]
    requires forall k :: at + 1024 <= k < at + 1536 ==> w4[k] == UserPdpe(m.base, at, w3[k], k - at - 1024)
    requires forall k :: 0 <= k < |w3| && !(at + 1024 <= k < at + 1536) ==> w4[k] == w3[k]
    requires forall k :: at + 1536 <= k < at + 2048 ==> w5[k] == UserPml(m.base, at, kernelPdpe, k - at - 1536)
    requires forall k :: 0 <= k < |w4| && !(at + 1536 <= k < at + 2048) ==> w5[k] == w4[k]
    ensures forall k :: at <= k < at + USER_WORDS ==> w5[k] == UserWord(m.base, at, userPtr, n, kernelPdpe, k - at, m.words[k])
  {
  }

  /**
   * `create_user_page_table(base, user_ptr, size, kernel_pdpe)` with `base`
   * the byte address of word `at`.  Returns the PML4 address (without
   * clearing any bits) and the two globals it sets: `replacement_page`,
   * the page just past the four table pages, and `faulting_page`, PTE 256.
   */
  method CreateUserPageTable(m: Mem, at: nat, userPtr: nat, size: Word, kernelPdpe: nat)
    returns (pml: nat, replacementPage: nat, faultingPage: nat, m': Mem)
    requires at + USER_WORDS <= |m.words| && at + NumPages(size) < |m.words|
    ensures UserTablesBuilt(m, at, userPtr, NumPages(size), kernelPdpe, m')
    ensures pml == AddrOf(m, at) + 3 * 0x1000
    ensures replacementPage == AddrOf(m, at) + 4 * 0x1000
    ensures faultingPage == AddrOf(m, at) + 8 * FAULT_ENTRY
  {
    var n := NumPages(size);
    var w1 := FillUserPtes(at, userPtr, n, m.words);
    var w2 := PadUserPtes(at, n, w1);
    PtePhaseWords(m, at, userPtr, n, w1, w2);
    var w3 := FillUserPdes(m.base, at, w2);
    var w4 := FillUserPdpes(m.base, at, w3);
    var w5 := FillUserPmls(m.base, at, kernelPdpe, w4);
    DirectoryWords(m, at, userPtr, n, kernelPdpe, w2, w3, w4, w5);
    m' := Mem(m.base, w5);
    pml := AddrOf(m, at + 1536);
    replacementPage := AddrOf(m, at + 2048);
    faultingPage := AddrOf(m, at + FAULT_ENTRY);
  }

  /*---------------------------------------------------------------------
   * What each entry of the user tables says
   *-------------------------------------------------------------------*/

  /** A mapping PTE is present, user and writable, and names the page that holds `addr`. */
  lemma MapPteStep(addr: nat)
    ensures Entry(MapPte(addr), true, true, PhysPage(addr))
  {
    SetPteSpec(addr / 0x1000, 1, 1);
  }

  /** A padding PTE is not present. */
  lemma PadPteStep()
    ensures !Present(PadPte())
  {
    SetPteSpec(0, 0, 1);
  }

  /** PDE 0 leads to the PTE page, user and writable; the others are not present. */
  lemma UserPdeStep(base: nat, at: nat, prior: Word, i: nat)
    ensures i == 0 ==> Entry(UserPde(base, at, prior, i), true, true, PhysPage(base + 8 * at))
    ensures i != 0 ==> !Present(UserPde(base, at, prior, i))
  {
    if i == 0 {
      SetPdeSpec(Ign2(prior), (base + 8 * at) / 0x1000, 1, 1);
    } else {
      SetPdeSpec(Ign2(prior), 0, 0, 1);
    }
  }

  /** PDPE 511 leads to the PDE page, user and writable; the others are not present. */
  lemma UserPdpeStep(base: nat, at: nat, prior: Word, i: nat)
    ensures i == 511 ==> Entry(UserPdpe(base, at, prior, i), true, true, PhysPage(base + 8 * (at + 512)))
    ensures i != 511 ==> !Present(UserPdpe(base, at, prior, i))
  {
    if i == 511 {
      SetPdeSpec(Ign2(prior), (base + 8 * (at + 512)) / 0x1000, 1, 1);
    } else {
      SetPdeSpec(Ign2(prior), 0, 0, 1);
    }
  }

  /**
   * PML4 entry 0 leads to `kernel_pdpe`, supervisor only; entry 511 to the
   * user PDPT page, user and writable; the others are not present.
   */
  lemma UserPmlStep(base: nat, at: nat, kernelPdpe: nat, i: nat)
    ensures i == 0 ==> Entry(UserPml(base, at, kernelPdpe, i), false, true, PhysPage(kernelPdpe))
    ensures i == 511 ==> Entry(UserPml(base, at, kernelPdpe, i), true, true, PhysPage(base + 8 * (at + 1024)))
    ensures i != 0 && i != 511 ==> !Present(UserPml(base, at, kernelPdpe, i))
  {
    if i == 0 {
      SetPmlSpec(kernelPdpe / 0x1000, 1, 0);
    } else if i == 511 {
      SetPmlSpec((base + 8 * (at + 1024)) / 0x1000, 1, 1);
    } else {
      SetPmlSpec(0, 0, 1);
    }
  }
}

=== FILE: wrappers.dfy ===
/** The option type shared by every module: `None` stands for the C code's NULL result. */
module Wrappers {

  datatype Option<+T> = None | Some(value: T)
}
